=== FILE: README.md ===
# Recap: a Dafny model of its pure core

Recap is a Python command-line tool with two pipelines:

- It records or downloads audio, transcribes it, cuts the transcript into timed chunks, and has an LLM summarise the chunks.
- It turns input text into a podcast script. It enriches the script with RSS and web articles ranked by an LLM, and with passages retrieved from a local vector-store knowledge base. It then voices the script through a TTS engine.

Most of Recap is glue around those services. This project models the small deterministic functions underneath, one Dafny module per source file:

| module | file | what it models |
|---|---|---|
| `Chunker` | `chunker.dfy` | `chunk_text` (paragraphs packed greedily up to a word budget) and `chunk_transcript` (timed segments packed up to a duration) |
| `LegacyChunker` | `legacy_chunker.dfy` | the older `chunk_transcript`, as the loop it is |
| `KnowledgeBase` | `knowledge_base.dfy` | `_chunk_text`; `_format_points`; the score filter of `retrieve`; the best-score-per-id merge and descending sort of `retrieve_multi`; `check_model_mismatch`; the file filter of `_find_supported_files`; the row formatting of `_extract_csv` |
| `Prompts` | `prompts.dfy` | `format_timestamp`; the part label and segment numbering of the summary prompts; the word-target table; the truncation rules and numbering of the article prompts; the format note of `kb_enhance_podcast_prompt` |
| `LegacyPrompts` | `legacy_prompts.dfy` | the older `format_timestamp`, part label and segment numbering |
| `Llm` | `llm.dfy` | `detect_provider`; the model string and retry loop of `call_llm`; `_set_api_keys_from_config`; the index filter and fallback of `rank_articles` |
| `Tts` | `tts.dfy` | `_parse_two_host_script`; the label stripping of the default two-host synthesis; the ALEX/SAM voice choice of the Piper and macOS engines |
| `Validation` | `validation.dfy` | `check_audio_file`, `check_ollama` and `check_llm_model`, with `sys.exit` paths as `Fail` results |
| `Hardware` | `hardware.dfy` | `_is_model_installed` and the first-fit tier search of `recommend_model` |
| `Loader` | `loader.dfy` | `load_input_text` over an abstract file system |
| `Downloader` | `downloader.dfy` | `sanitize_filename` |
| `Fetcher` | `fetcher.dfy` | the link de-duplication of `fetch_rss_articles` and the query of `search_web_articles` |
| `Scriptwriter` | `scriptwriter.dfy` | configuration defaults, the URL-unique merge of web articles, selection by ranked indices, content filling, and the sources markdown of `generate_podcast` |
| `Strings`, `Paths`, `Results`, `Articles` | | the Python string and `os.path` operations the core uses, `Option`/`Result`, and the article record |

Everything is immutable data and pure functions, plus two methods whose loops mirror the source: `LegacyChunker.ChunkTranscript` and `Llm.CallLlm`. Anything the source obtains from outside is a parameter:

- vector-store queries: a function from query and limit to scored points;
- feed parsing, article extraction and file text extraction;
- the LLM completion and JSON decoding;
- RAM, VRAM and the installed model list;
- the environment: a map.

Each operation has a partner it is proved against:

- **Chunkers.** Results split back into the paragraph or segment list they came from. A greedy invariant states which chunks are possible.
- **Formatting and parsing.**
  - `format_timestamp` output reads back to the whole seconds.
  - Numbered prompt lists split back into their entries.
  - The two-host parser equals a block-by-block reference reading of the script.
- **Merges.**
  - The multi-query merge satisfies a "best of" invariant: unique ids, maximal scores, first-seen order.
  - The sort is a permutation that orders by score, with ties in first-seen order.
- **Filters and validators.** Each has an if-and-only-if characterisation. Each order-keeping filter also distributes over concatenation and is given on a single element, which fixes its output order.

Strings are `seq<char>`. `str.isspace` is modelled over the full Unicode white-space set. `str.split(sep)` splits at the leftmost non-overlapping occurrences. Python's slice `xs[:n]` is modelled for negative `n` too. Times are Dafny reals.

## Model

| member | source | states |
|---|---|---|
| Chunker.ChunkText | src/core/chunker.py:4-40 | `chunk_text`: the paragraphs grouped greedily and numbered; its properties are stated by the ChunkText lemmas below |
| Chunker.NonBlankStrippedEmpty | src/core/chunker.py:9 | the stripped non-blank pieces are empty exactly when every piece is blank |
| Chunker.NonBlankPiecesIffNotBlank | src/core/chunker.py:9-11 | splitting at a blank separator finds a non-blank piece exactly when the text is not blank |
| Chunker.NewlineFallbackFindsNothing | src/core/chunker.py:10-11 | when no blank-line paragraph exists, the single-newline fallback finds none either |
| Chunker.ParagraphsEmptyIffBlank | src/core/chunker.py:9-13 | there are no paragraphs exactly when the text is empty or white space |
| Chunker.ParagraphsClean | src/core/chunker.py:9-11 | every paragraph is non-empty, starts and ends with a non-space, and holds no blank-line separator |
| Chunker.PlaceKeepsInv | src/core/chunker.py:20-32 | one loop step keeps the packing invariant: done chunks plus the current chunk are the paragraphs seen, the word counter is right, done chunks are greedy, and the open chunk is within budget |
| Chunker.PlaceAllKeepsInv | src/core/chunker.py:20-32 | the whole loop keeps the packing invariant |
| Chunker.GroupSpec | src/core/chunker.py:20-38 | the chunks' paragraphs concatenate to the paragraph list; no chunk is empty; a chunk over budget has one paragraph; each chunk plus the next chunk's first paragraph exceeds the budget; no chunks exactly when no paragraphs |
| Chunker.Numbered | src/core/chunker.py:18-38 | chunk i is its paragraphs joined by a blank line, with index i |
| Chunker.NumberedSplitsBack | src/core/chunker.py:24 | splitting each chunk's text at blank lines recovers exactly its paragraphs |
| Chunker.ChunkTextSplitsBack | src/core/chunker.py:4-40 | the paragraphs recovered from `chunk_text`'s chunks are the greedy groups of the paragraphs |
| Chunker.ChunkTextEmptyIffBlank | src/core/chunker.py:9-13 | `chunk_text` returns no chunks exactly when the text is empty or white space |
| Chunker.ChunkTextPartition | src/core/chunker.py:20-38 | the chunks' paragraphs, concatenated in order, are exactly the stripped non-empty paragraphs |
| Chunker.ChunkTextNumbered | src/core/chunker.py:18-38 | chunk indices run 0, 1, 2, … and no chunk text is blank |
| Chunker.ChunkTextBudget | src/core/chunker.py:22-32 | a chunk of two or more paragraphs is within `chunk_words`; adjacent chunks could not have been merged greedily |
| Chunker.ChunkTranscript | src/core/chunker.py:43-77 | `chunk_transcript`: segments packed into timed chunks; its properties are stated by ChunkTranscriptSpec |
| Chunker.ChunksFromSegments | src/core/chunker.py:53-75 | the chunks' segments concatenate to the pending segments followed by the rest |
| Chunker.ChunksFromShaped | src/core/chunker.py:56-75 | every chunk is non-empty, ends at its last segment's end, and has its segment texts joined by single spaces |
| Chunker.ChunksFromChained | src/core/chunker.py:51-72 | the first chunk starts at the given start and each later chunk starts where the previous one ended |
| Chunker.ChunksFromGreedy | src/core/chunker.py:56-64 | every chunk but the last spans at least the chunk length; a chunk closes at its first segment that reaches it |
| Chunker.ChunkTranscriptSpec | src/core/chunker.py:43-77 | the chunks partition the segments in order; empty input gives no chunks and vice versa; the first chunk starts at 0.0, chunks are chained, and every chunk but the last spans at least `chunk_minutes*60` |
| LegacyChunker.ChunkTranscript | src/chunker.py:1-35 | the loop equals the core `chunk_transcript` and has the same partition, chaining, span and text properties |
| KnowledgeBase.ChunkKbText | src/core/knowledge_base.py:340-375 | `_chunk_text`: the core chunking with budget 500, tagged with the source; see ChunkKbTextSpec |
| KnowledgeBase.Tagged | src/core/knowledge_base.py:351-373 | chunk i is its paragraphs joined by a blank line, tagged with the source and index i |
| KnowledgeBase.ChunkKbTextSpec | src/core/knowledge_base.py:340-375 | `_chunk_text` has the texts of `chunk_text` with budget 500; every chunk carries the source and index i; there are no chunks exactly when the text is blank |
| KnowledgeBase.FormatParts | src/core/knowledge_base.py:116-135 | the parts `_format_points` emits; see FormatFromPrefix, FormatFromFits and FormatPartsSpec |
| KnowledgeBase.FormatFromPrefix | src/core/knowledge_base.py:121-133 | the whole parts are the parts of the first points, in order |
| KnowledgeBase.FormatFromFits | src/core/knowledge_base.py:121-133 | the whole parts fit the budget and the next part does not; a truncated part is the next part cut to the room left plus "...", present exactly when more than 100 characters remain |
| KnowledgeBase.FormatPartsSpec | src/core/knowledge_base.py:116-135 | `_format_points` emits a prefix of the points whole and at most one truncated last part; the parts total at most `max_chars + 3` characters; a negative budget emits nothing |
| KnowledgeBase.Passing | src/core/knowledge_base.py:156 | the `min_score` filter; see PassingSpec and PassingAppend |
| KnowledgeBase.PassingSpec | src/core/knowledge_base.py:156 | the filter keeps exactly the points scoring at least `min_score` |
| KnowledgeBase.PassingAppend | src/core/knowledge_base.py:156 | the filter distributes over concatenation, so it keeps the client's order |
| KnowledgeBase.Retrieve | src/core/knowledge_base.py:137-160 | "" when not indexed, when the client returns nothing, or when nothing passes; otherwise the passing results formatted in client order |
| KnowledgeBase.Absorb | src/core/knowledge_base.py:179-182 | one step of the best-score merge; see AbsorbKeepsBest |
| KnowledgeBase.AbsorbKeepsBest | src/core/knowledge_base.py:179-182 | one merge step keeps the invariant: unique ids, every id seen present, entries drawn from seen points, each entry has the top score for its id (the first such point on ties), and entries are in first-seen order |
| KnowledgeBase.AbsorbAllKeepsBest | src/core/knowledge_base.py:173-182 | merging a list of points keeps the invariant |
| KnowledgeBase.AbsorbQueriesIsAbsorbAll | src/core/knowledge_base.py:173-182 | merging query by query is merging the concatenation of all results |
| KnowledgeBase.BestPoints | src/core/knowledge_base.py:172-182 | the best-score merge over all queries; see BestPointsSpec |
| KnowledgeBase.BestPointsSpec | src/core/knowledge_base.py:172-182 | the merge keeps each id once, with the maximum score any query gave it, the first-seen point on ties, in first-seen order |
| KnowledgeBase.InsertByScorePerm | src/core/knowledge_base.py:186 | inserting adds exactly the one point |
| KnowledgeBase.InsertByScoreSorted | src/core/knowledge_base.py:186 | inserting a point ranked before all others keeps descending order with ties by rank |
| KnowledgeBase.SortByScore | src/core/knowledge_base.py:186 | the stable descending sort; see SortByScorePerm and SortByScoreSpec |
| KnowledgeBase.SortByScorePerm | src/core/knowledge_base.py:186 | the sort is a permutation |
| KnowledgeBase.SortByScoreSpec | src/core/knowledge_base.py:186 | the stable descending sort orders by score, breaking ties by input order |
| KnowledgeBase.PassingKeepsOrder | src/core/knowledge_base.py:185 | filtering keeps the first-seen order of the merged points |
| KnowledgeBase.RankedPoints | src/core/knowledge_base.py:185-186 | the merged points filtered and sorted; see RankedPointsDrawn, RankedPointsSorted and RankedPointsComplete |
| KnowledgeBase.RankedPointsDrawn | src/core/knowledge_base.py:185-191 | every ranked point scores at least `min_score`, is a point some query returned, and has the best score of its id |
| KnowledgeBase.RankedPointsSorted | src/core/knowledge_base.py:185-186 | ranked points have unique ids, non-increasing scores, and equal scores in first-seen order |
| KnowledgeBase.RankedPointsComplete | src/core/knowledge_base.py:172-191 | every id that some query returned with a passing score is among the ranked points |
| KnowledgeBase.RetrieveMulti | src/core/knowledge_base.py:162-191 | "" when not indexed or when no result passes; otherwise the ranked points formatted |
| KnowledgeBase.CheckModelMismatch | src/core/knowledge_base.py:47-54 | a model name is returned exactly when the store is indexed and records a non-empty model different from the current one, and it is the recorded one |
| KnowledgeBase.FindSupportedFiles | src/core/knowledge_base.py:249-259 | keeps a walked file exactly when its name does not start with "." and its lower-cased extension is supported |
| KnowledgeBase.FindSupportedFilesAppend | src/core/knowledge_base.py:251-259 | the supported files of a concatenated walk are those of its first part followed by those of its second, and a single path is kept exactly when it is supported; so the walk's order is kept |
| KnowledgeBase.HiddenFilesSkipped | src/core/knowledge_base.py:254-255 | a name starting with "." is never kept |
| KnowledgeBase.SupportedFilesKept | src/core/knowledge_base.py:256-258 | a visible name ending in a supported extension, in any case, is kept |
| KnowledgeBase.CsvLines | src/core/knowledge_base.py:331-333 | one line per data row, each the row's "header: value" pairs joined by "; " |
| KnowledgeBase.CsvPairsSpec | src/core/knowledge_base.py:332 | every pair is "header: value" for a column both rows have whose value is not blank, and every such column contributes its pair |
| KnowledgeBase.CsvPairsFilled | src/core/knowledge_base.py:332 | with every value filled in, there is one pair per column both rows have, in column order |
| KnowledgeBase.ExtractCsv | src/core/knowledge_base.py:327-334 | the text `_extract_csv` builds from parsed rows; see CsvLines, CsvPairsSpec, CsvPairsFilled and ExtractCsvSpec |
| KnowledgeBase.ExtractCsvSpec | src/core/knowledge_base.py:323-334 | no rows, or a header alone, give ""; with at least one data row and no line break in any cell, the text splits at newlines into exactly one line per data row, in order |
| LegacyPrompts.FormatTimestamp | src/prompts.py:97-103 | the legacy timestamp reads back to the floor of the seconds; it has two fields below an hour and three from an hour on |
| LegacyPrompts.ChunkCaptionInjective | src/prompts.py:12-13 | the legacy part label determines the chunk index and the count |
| LegacyPrompts.CombinedSummaries | src/prompts.py:32-34 | for a non-empty list of summaries none of which produces the separator itself, the legacy combined text splits back into "### Segment i+1" blocks, one per summary, in order |
| Prompts.FormatTimestamp | src/core/prompts.py:320-326 | the text ends in ":" and two digits |
| Prompts.TimestampFields | src/core/prompts.py:321-323 | minutes and seconds are below 60, and 3600·h + 60·m + s is the floor of the seconds when h > 0 |
| Prompts.FormatTimestampRoundTrip | src/core/prompts.py:320-326 | reading the timestamp back gives the floor of non-negative seconds; "m:ss" below an hour and "h:mm:ss" from an hour on |
| Prompts.PartLabelInjective | src/core/prompts.py:17 | "Part i+1 of n" followed by a non-digit determines i and n |
| Prompts.ChunkCaption | src/core/prompts.py:17-18 | the part label and time span of the chunk prompt; see PartLabelInjective and ChunkCaptionInjective |
| Prompts.ChunkCaptionInjective | src/core/prompts.py:17-18 | the caption of a chunk determines its index and the chunk count |
| Prompts.CombinedSummaries | src/core/prompts.py:41-43 | the numbered segment blocks joined by the separator; see CombinedSummariesSplitBack |
| Prompts.CombinedSummariesSplitBack | src/core/prompts.py:41-43 | for a non-empty list of summaries none of which produces the separator itself, the combined text splits at the separator into "### Segment i+1" blocks, one per summary, in order |
| Prompts.WordTarget | src/core/prompts.py:204-208 | 400 exactly for "short", 1800 exactly for "long", 900 for every other key |
| Prompts.RankingList | src/core/prompts.py:187-190 | the numbered article list of the ranking prompt; see RankingListLines |
| Prompts.RankingListLines | src/core/prompts.py:187-190 | for a non-empty list whose titles and summaries hold no line break, the article list splits into one line per article, numbered from 0, each with the summary cut to 200 characters |
| Prompts.ArticleBody | src/core/prompts.py:224-227 | the body is a prefix of the content when present, else of the summary, at most 2000 characters, and the whole text when shorter |
| Prompts.ArticleBlocks | src/core/prompts.py:225-228 | the article blocks are empty exactly when there are no articles; see ArticleBlocksSplitBack |
| Prompts.ArticleBlockHeading | src/core/prompts.py:226 | the first line of an article's block is "### " and its title, for a one-line title |
| Prompts.ArticleBlocksSplitBack | src/core/prompts.py:225-228 | for a non-empty list of articles with one-line titles and URLs and bodies that cannot complete the separator, splitting at "\n\n---\n\n" gives one block per article in order: heading, "Source: " line, a blank line and the body |
| Prompts.FormatNote | src/core/prompts.py:293-298 | the ALEX/SAM note exactly for style "two_host", the single-host note otherwise |
| Llm.DetectProvider | src/core/llm.py:29-37 | "openai" exactly for a lower-cased gpt-, o1-, o3-, o4- or chatgpt- prefix; otherwise "anthropic" exactly for "claude-"; "ollama" for the rest |
| Llm.DetectProviderCaseBlind | src/core/llm.py:31 | the provider does not depend on letter case |
| Llm.ModelString | src/core/llm.py:66-69 | "ollama/" in front of an Ollama model name; any other name unchanged |
| Llm.ModelStringRecoverable | src/core/llm.py:66-69 | Ollama models get "ollama/" in front and the name is recoverable; other names pass unchanged |
| Llm.BuildRequest | src/core/llm.py:73-83 | `num_ctx` is sent exactly for Ollama models; model, prompts and timeout are passed through |
| Llm.CallLlm | src/core/llm.py:55-92 | at most `retries+1` attempts; every attempt before the last failed; a reply is the last attempt's; an error is raised only after the final attempt and is its error |
| Llm.SetApiKeys | src/core/llm.py:40-52 | no or an empty configuration changes nothing; a key unset or empty in the environment takes the configured value when that is non-empty, and otherwise stays as it was (present or absent, with its value); other entries are unchanged |
| Llm.BracketSpan | src/core/llm.py:123-126 | the span runs from the first "[" to the last "]"; none when either is missing; empty when the last "]" comes before the first "[" |
| Llm.JsonSpan | src/core/llm.py:123-126 | the bracketed span of the stripped response; see BracketSpan |
| Llm.ValidIndicesSpec | src/core/llm.py:128 | an index is kept exactly when some element is that integer (booleans count as 0 and 1) and it is within range; all in-range integers are kept |
| Llm.ValidIndicesAppend | src/core/llm.py:128 | the valid indices of concatenated replies are those of the first followed by those of the second, and one value gives its index exactly when it is an integer or boolean in range; so reply order is kept |
| Llm.ValidIndicesAllValid | src/core/llm.py:128 | a reply of in-range integers is kept whole, each index in its place |
| Llm.RankArticles | src/core/llm.py:113-131 | every index is in range and there are at most `max_articles`; an unparseable response gives 0, 1, … up to `min(max_articles, n)`; otherwise ValidIndices of the decoded reply (in reply order, as ValidIndicesAppend fixes), cut with Python slicing |
| Tts.ParseTwoHostScript | src/podcast/tts.py:204-227 | `_parse_two_host_script`; see ParseIsTurns, TurnsWellFormed, TurnsSkipPreamble, ContinuationJoins and ParseTwoHostScriptSpec |
| Tts.Label | src/podcast/tts.py:215 | a line is labelled exactly when it starts with "ALEX:" or "SAM:"; the text after the label has its leading white space removed |
| Tts.ParseIsTurns | src/podcast/tts.py:204-227 | the parser equals the reference reading: stripped non-blank lines, preamble dropped, each label opening a turn that its unlabelled lines continue |
| Tts.TurnsWellFormed | src/podcast/tts.py:215-225 | every turn's speaker is ALEX or SAM and its text is non-empty; there is at most one turn per label, and exactly one when every label carries text |
| Tts.TurnsSkipPreamble | src/podcast/tts.py:221 | lines before the first label do not change the turns |
| Tts.ContinuationJoins | src/podcast/tts.py:218-222 | a continuation line joins its turn with a single space, and the next label starts a new turn |
| Tts.ParseTwoHostScriptSpec | src/podcast/tts.py:204-227 | turns are well formed; a script with no labelled line, or an empty one, gives no turns |
| Tts.StripLabels | src/podcast/tts.py:29 | `^` matches at the start and after each line break, so a label is stripped at every line start; the result is never longer than the script; see StripLabelsNoLabel, StripLabelsLine, StripLabelsNextLine and, for a label alone on its line, StripLabelsLoneLabel and StripLabelsLoneLabelSpace |
| Tts.StripLabelsNoLabel | src/podcast/tts.py:29 | text containing no label is left unchanged |
| Tts.StripLabelsLine | src/podcast/tts.py:29 | a labelled line loses its label and the white space after it; any other line is unchanged |
| Tts.StripLabelsNextLine | src/podcast/tts.py:29 | a first line that is unlabelled, or holds text after its label, strips on its own, and the lines after its line break strip as a script of their own; so a multi-line script strips line by line up to any label that stands alone on its line |
| Tts.StripLabelsLoneLabel | src/podcast/tts.py:29 | a label alone on its line (only white space after it), followed by a line that does not open with white space, leaves nothing: the `\s*` after it swallows the line break, and the next line strips as the start of a script |
| Tts.StripLabelsLoneLabelSpace | src/podcast/tts.py:29 | a label alone on its line also swallows the white space that opens the next line; stripping resumes after it as at a line start when that white space is empty or ends in a line break, and mid-line otherwise, so a label there is kept |
| Tts.TurnPlan | src/podcast/tts.py:92-95 | one part per turn, in order, voiced by the primary voice for ALEX and the second voice otherwise |
| Tts.PiperTwoHost | src/podcast/tts.py:75-95 | no second voice: the label-stripped script as a whole; no turns: the script as a whole; otherwise one part per turn with ALEX on the primary voice and the resolved second voice for SAM |
| Tts.MacOSTwoHost | src/podcast/tts.py:155-172 | no turns: the script as a whole; otherwise one part per turn with "Daniel" as the missing second voice |
| Validation.CheckAudioFile | src/utils/validation.py:6-15 | passes exactly when the lower-cased extension is one of the eight audio extensions; otherwise it fails and names the extension |
| Validation.AudioFileAccepted | src/utils/validation.py:9-11 | "name.EXT" with an audio extension in any case passes; a name without a dot fails |
| Validation.ModelMatches | src/utils/validation.py:27-35 | a tagged model matches exactly when some available name equals it; an untagged model matches exactly when it equals some name's part before the first ":" |
| Validation.UntaggedMatch | src/utils/validation.py:32-35 | an untagged model matches exactly when some name is the model itself or the model followed by ":" |
| Validation.NoPrefixFalsePositive | src/utils/validation.py:32-35 | an untagged model does not match a longer name that merely starts with it |
| Validation.CheckOllama | src/utils/validation.py:18-39 | fails when the server is down; otherwise passes exactly when the model matches |
| Validation.CheckLlmModel | src/utils/validation.py:42-59 | OpenAI and Anthropic models fail exactly when their key is unset or empty; other models are checked against Ollama |
| Validation.ConfiguredKeysPass | src/utils/validation.py:48-57 | after keys are copied from a configuration that supplies both, a hosted model passes |
| Hardware.Candidates | src/core/hardware.py:9-13 | the tier of the given speed, and the medium tier for an unknown speed |
| Hardware.RamRequirement | src/core/hardware.py:16-28 | the table's requirement, and 8 GB for a model not in it |
| Hardware.UsableMemory | src/core/hardware.py:99 | system RAM on Apple Silicon or without VRAM, VRAM otherwise |
| Hardware.IsModelInstalled | src/core/hardware.py:80-83 | installed exactly when some name contains the model or starts with its base name |
| Hardware.FirstFit | src/core/hardware.py:103-106 | the position of the first candidate that fits, with every earlier one too large |
| Hardware.RecommendModel | src/core/hardware.py:86-119 | the model is in the tier; it is the first candidate that fits, or the tier's last when none fits; it is marked installed exactly when it fits and is installed |
| Hardware.InstalledOnlyChangesAdvice | src/core/hardware.py:108-115 | the installed list never changes the chosen model or whether it fits |
| Hardware.FirstFitMonotone | src/core/hardware.py:103-106 | more memory never picks a later candidate |
| Loader.LoadInputText | src/podcast/loader.py:8-45 | a file gives its stripped text and itself, or an error when its text is blank; a missing path is an error |
| Loader.SingleFileText | src/podcast/loader.py:20-24 | a file with text gives a non-empty trimmed piece of it and the list holding just the path |
| Loader.UsedFilesAppend | src/podcast/loader.py:35-40 | the used files of a concatenation are those of its first part followed by those of its second, and one file is used exactly when its text is not blank |
| Loader.NoSupportedFilesIff | src/podcast/loader.py:27-32 | the "no supported files" error happens exactly when the walk holds no supported file |
| Loader.DirectoryResult | src/podcast/loader.py:33-43 | a directory succeeds exactly when some supported file has text, and the returned list is WalkedFiles of the walk (the supported files with text, in the order WalkedFilesOrder fixes) |
| Loader.WalkedFilesOrder | src/podcast/loader.py:33-40 | the files of a concatenated walk are those of its first part followed by those of its second, and a one-path walk uses the path exactly when it is a supported file with text; so the files come in walk order |
| Loader.DirectoryReadIff | src/podcast/loader.py:26-43 | a directory succeeds exactly when it holds a supported file with non-blank text |
| Loader.DirectoryFiles | src/podcast/loader.py:35-40 | the returned files are exactly the supported walked files with text |
| Loader.DirectoryTextSplits | src/podcast/loader.py:37-43 | when no supported walked file with text has a name holding a line break or a stripped text holding a blank line, the combined text splits at blank lines into one "--- name ---" part per returned file, in order |
| Downloader.RemoveForbidden | src/fileio/downloader.py:9 | no forbidden character remains, and text without one is unchanged |
| Downloader.RemoveForbiddenAppend | src/fileio/downloader.py:9 | removal on a concatenation is removal on each part, concatenated; so the allowed characters are kept in order |
| Downloader.RemoveForbiddenOne | src/fileio/downloader.py:9 | one character is removed exactly when it is forbidden |
| Downloader.DropBetween | src/fileio/downloader.py:9 | a forbidden character between two allowed texts disappears and the texts close up |
| Downloader.ReplaceSpaces | src/fileio/downloader.py:10 | every space becomes "_" and nothing else changes |
| Downloader.SanitizeFilename | src/fileio/downloader.py:7-11 | the result has at most 100 characters, none of them forbidden or a space |
| Downloader.SafeNameUnchanged | src/fileio/downloader.py:9-11 | a name of at most 100 characters, with no forbidden character and no white space, is returned unchanged |
| Downloader.LongNameCut | src/fileio/downloader.py:11 | a longer clean name is cut to its first 100 characters |
| Downloader.SanitizeColonTitle | src/fileio/downloader.py:7-11 | "My Video: Part 1" becomes "My_Video_Part_1" |
| Fetcher.FetchRssArticles | src/podcast/fetcher.py:6-28 | `fetch_rss_articles` over parsed feeds; see FetchRssArticlesSpec |
| Fetcher.RssArticle | src/podcast/fetcher.py:15-24 | the article carries the link; a missing title becomes "Untitled" and a missing summary becomes "" |
| Fetcher.DedupFresh | src/podcast/fetcher.py:15-18 | kept URLs are non-empty, unique and not seen before |
| Fetcher.DedupComplete | src/podcast/fetcher.py:15-18 | every non-empty link not seen before is kept |
| Fetcher.FetchRssArticlesSpec | src/podcast/fetcher.py:6-28 | URLs are unique and non-empty; each article comes from the first entry with its link; every usable link is represented; the order is fixed by DedupAppend, DedupOne and FetchRssArticlesOrder |
| Fetcher.DedupAppend | src/podcast/fetcher.py:15-24 | the articles of concatenated entries are those of the first entries, then those of the rest with the first entries' links counted as seen |
| Fetcher.DedupOne | src/podcast/fetcher.py:15-24 | one entry gives its article exactly when its link is non-empty and not seen yet |
| Fetcher.FetchRssArticlesOrder | src/podcast/fetcher.py:11-24 | the articles of earlier feeds come first, and a later feed adds only links the earlier ones did not yield, in entry order |
| Fetcher.ConsideredAppend | src/podcast/fetcher.py:11-14 | the entries of concatenated feed lists are those of the first feeds followed by those of the rest |
| Fetcher.ConsideredOne | src/podcast/fetcher.py:13-14 | one feed contributes its first `max_per_feed` entries (Python slicing), so never more than `max_per_feed`, and a feed that raises contributes none |
| Fetcher.ConsideredBound | src/podcast/fetcher.py:14 | all feeds together give at most `max_per_feed` entries per feed in total; the per-feed bound is ConsideredOne with ConsideredAppend |
| Fetcher.SkipUnreachable | src/podcast/fetcher.py:25-26 | a feed that raises, wherever it stands, contributes nothing and leaves the entries of the feeds before and after it unchanged |
| Fetcher.InterestItemsSpec | src/podcast/fetcher.py:34 | each item comes from a dash-led line; there are no items exactly when no line is dash-led |
| Fetcher.InterestItemsAppend | src/podcast/fetcher.py:34 | the items of concatenated lines are those of the first lines followed by those of the rest |
| Fetcher.InterestItemsOne | src/podcast/fetcher.py:34 | one line gives an item exactly when it is dash-led, and the item is the line with dashes and spaces stripped |
| Fetcher.InterestItemsComplete | src/podcast/fetcher.py:34 | every dash-led line gives its item, between the items of the lines before it and those after it |
| Fetcher.SearchQuery | src/podcast/fetcher.py:34-35 | "latest tech news" exactly when no line is dash-led; otherwise "latest news " and the first three items, in line order, joined by ", " |
| Scriptwriter.ResolveSettings | src/podcast/scriptwriter.py:28-30 | each setting is the configured value, or 5, "solo" and "medium" when absent |
| Scriptwriter.EnrichmentEnabled | src/podcast/scriptwriter.py:32-34 | enabled exactly when there are feeds or web search is on |
| Scriptwriter.FetchedArticles | src/podcast/scriptwriter.py:41-49 | with feeds the RSS articles come first, in order; every article comes from an enabled source; URLs stay unique when the RSS URLs were; with web search every web URL is present; which web articles are appended, and in what order, is FetchedArticlesStep |
| Scriptwriter.FetchedArticlesStep | src/podcast/scriptwriter.py:41-49 | without web results it is the RSS articles when feeds are configured; one more web result is appended at the end exactly when search is on and its URL is not among the articles so far |
| Scriptwriter.MergeWebArticles | src/podcast/scriptwriter.py:44-49 | the existing articles stay in front, in order, and only web articles are added; MergeWebArticlesAppend and MergeWebArticlesOne fix which and in what order |
| Scriptwriter.MergeWebArticlesAppend | src/podcast/scriptwriter.py:44-49 | merging concatenated web results merges the first part, then the second into that result |
| Scriptwriter.MergeWebArticlesOne | src/podcast/scriptwriter.py:46-49 | one web result is appended at the end exactly when its URL is not among the articles yet |
| Scriptwriter.MergeWebArticlesSpec | src/podcast/scriptwriter.py:44-49 | the URL set becomes the union of both lists' URLs, and URLs stay unique when they were |
| Scriptwriter.SelectArticles | src/podcast/scriptwriter.py:57 | article k of the selection is the one at the k-th ranked index |
| Scriptwriter.SelectRanked | src/podcast/scriptwriter.py:56-57 | ranked indices are always valid, so the selection draws from the articles and holds at most `max_articles` |
| Scriptwriter.WithContent | src/podcast/scriptwriter.py:63-65 | the content is the extracted text when non-empty, the summary otherwise; other fields are unchanged |
| Scriptwriter.PromptBodyAfterExtraction | src/podcast/scriptwriter.py:63-65 | the prompt body of a filled article is the first 2000 characters of what was extracted, or of the summary |
| Scriptwriter.FillContent | src/podcast/scriptwriter.py:61-65 | every selected article keeps its position, title, URL, summary and origin, and gets the extracted text as content when that is non-empty, its summary otherwise |
| Scriptwriter.FilledBlocksSplitBack | src/podcast/scriptwriter.py:61-65 | after extraction, the script prompt's article blocks split back, in selection order, into each article's heading, source line and the first 2000 characters of its extracted text or summary, when titles and URLs are one line and the bodies cannot complete the separator |
| Scriptwriter.GatherArticles | src/podcast/scriptwriter.py:36-65 | no enrichment gives no articles; every selected article comes from an enabled source; at most `max_articles` are selected |
| Scriptwriter.SourcesMarkdown | src/podcast/scriptwriter.py:83-93 | the sources markdown; see SourcesMarkdownLines |
| Scriptwriter.SourcesMarkdownLines | src/podcast/scriptwriter.py:83-93 | when no file name, title or URL holds a line break, the markdown's lines are the heading, one "- f" per source file or "- (provided text)", then, only when articles were selected, their section numbered from 1 |
| Paths.Extension | src/core/knowledge_base.py:256 | the extension is empty or a dot-led suffix holding no further dot or slash |
| Paths.ExtensionOfSuffixed | src/utils/validation.py:10 | a name not starting with "." has its final ".xyz" suffix as its extension |
| Strings.Prefix | src/core/llm.py:128 | `xs[:n]`: a prefix of length n, capped at the length, and for negative n everything but the last -n elements |

## Left out

- **I/O and services.** Audio recording, transcription, the YouTube download, the vector-store client, embeddings and indexing, and file reading and writing are not modelled. Their results enter as parameters: query results, extracted text, parsed CSV rows, the directory walk, the recorded embedding model and the RAM/VRAM figures. Also left out: `index_directory`, `_save_model_meta`, `get_indexed_model`, `chunk_count`, and the extractor dispatch of `_extract_text`.
- **Text extractors and CSV parsing.** The PDF, DOCX and HTML extractors are foreign libraries. CSV parsing by `csv.reader` is also outside the model; the rows are given already parsed.
- **LLM calls.** Provider calls, `time.sleep`, logging and the temperature are left out. The completion is a parameter. `summarize_chunk`, `consolidate_summaries` and `generate_podcast_script` are left out: as written they call the prompt builders with signatures that do not match `src/core/prompts.py`. The older `src/llm.py` is not part of this model.
- **Prompt prose.** System prompts, template wording and `content_type.capitalize()` are left out; only the structural parts listed above are modelled. `chunk_summary_prompt` is modelled through its part label and time span.
- **TTS and the CLI.**
  - The TTS subprocesses, temporary files, audio concatenation, `get_tts_engine`, the macOS rate and the Piper length scale are left out. The file-system probe of `_resolve_piper_model` is a parameter.
  - Hardware probing is left out, as are the explanation text of `recommend_model`, the CLI, progress bars and console output.
  - `write_podcast_output` is file I/O.
  - `search_web_articles`' network search and `extract_article_text` are left out; their results are inputs.
- **Strings.**
  - `str.lower` is modelled on ASCII letters only. The only non-ASCII letters whose lower-case form is ASCII are the Kelvin sign and the dotted capital I. Neither can produce any provider prefix or file extension the source tests for.
  - `str.splitlines` is modelled as a split at each line-break character. The only callers skip blank lines, so the extra empty line this gives for "\r\n" does not change their results.
- **Loader imports.** `src/podcast/loader.py:5` imports `extract_text` and `find_supported_files`, but `src/core/knowledge_base.py` defines only the underscored `_extract_text` and `_find_supported_files`. As written, the import fails; the model uses the underscored helpers. The walk is given as the sequence of paths in the order the loop visits them, file names already sorted within each directory as `sorted(files)` does.
- **Float timestamps.** `format_timestamp` takes a float, so the model takes a real and floors it the way `int(seconds // 3600)` and `int(seconds % 60)` do. Binary floating-point rounding is not modelled.
- Fetcher.FetchRssArticlesSpec: a feed whose handling raises is modelled as contributing no entries. In the source, articles appended before the exception stay.
- Llm.RankArticles: JSON decoding is a parameter. It is expected to reject text that is not a JSON array, including the empty span. Elements that are not integers or booleans are modelled as one "other" value.
- Scriptwriter.GatherArticles: the article records are values. The source mutates the selected dicts in place, which also changes them in the full article list; that list is not used afterwards.
- Scriptwriter.GatherArticles: the script generation, knowledge-base retrieval and progress reporting of `generate_podcast` are left out.

=== FILE: articles.dfy ===
/**
 * The article record the podcast pipeline passes around as a dict: built
 * by the RSS and web-search fetchers, ranked and selected by the script
 * writer, rendered by the script prompts.
 */
module Articles {
  import opened Results

  /** `origin` is the dict's "source" entry ("rss" or "web_search");
      `content` is the extracted full text, present only once the script
      writer has fetched it. */
  datatype Article = Article(title: string, url: string, summary: string, origin: string, content: Option<string>)

  /** No URL occurs twice. */
  predicate UniqueUrls(articles: seq<Article>) {
    forall i, j :: 0 <= i < j < |articles| ==> articles[i].url != articles[j].url
  }
}

=== FILE: chunker.dfy ===
/**
 * The two greedy chunkers of `src/core/chunker.py`:
 *  - `chunk_text` packs the stripped, non-empty paragraphs of a text into
 *    chunks of at most `chunk_words` words (a single over-long paragraph
 *    forms a chunk of its own);
 *  - `chunk_transcript` packs timed transcript segments into chunks that
 *    close as soon as they reach `chunk_minutes` minutes.
 * Segment times are Python floats; here they are exact reals.
 */
module Chunker {
  import opened Strings

  /** Default word budget of `chunk_text`. */
  const CHUNK_TARGET_WORDS: int := 500

  /** Separator between paragraphs, in the input and in a chunk's text. */
  const PARAGRAPH_BREAK: string := "\n\n"

  // ---------------------------------------------------------------------
  // paragraphs

  /** `[p.strip() for p in pieces if p.strip()]` */
  function NonBlankStripped(pieces: seq<string>): (r: seq<string>)
    ensures |r| <= |pieces|
    decreases |pieces|
  {
    if pieces == [] then []
    else
      var p := Strip(pieces[0]);
      (if p != [] then [p] else []) + NonBlankStripped(pieces[1..])
  }

  /** The paragraph list both chunkers start from: blank-line separated
      pieces, falling back to single lines when there are none. */
  function Paragraphs(text: string): seq<string> {
    var byBlankLine := NonBlankStripped(Split(text, PARAGRAPH_BREAK));
    if byBlankLine != [] then byBlankLine else NonBlankStripped(Split(text, "\n"))
  }

  /** A paragraph as `Paragraphs` produces it: non-empty, stripped, and free
      of blank-line separators. */
  predicate CleanParagraph(p: string) {
    p != [] && !IsSpace(p[0]) && !IsSpace(p[|p| - 1]) && !Contains(p, PARAGRAPH_BREAK)
  }

  lemma {:induction false} NonBlankStrippedEmpty(pieces: seq<string>)
    ensures NonBlankStripped(pieces) == [] <==> forall k :: 0 <= k < |pieces| ==> IsBlank(pieces[k])
    decreases |pieces|
  {
    if pieces != [] {
      NonBlankStrippedEmpty(pieces[1..]);
      assert forall k :: 1 <= k < |pieces| ==> pieces[k] == pieces[1..][k - 1];
    }
  }

  predicate AllClean(ps: seq<string>) {
    forall k :: 0 <= k < |ps| ==> CleanParagraph(ps[k])
  }

  /** A piece without a blank line strips to a clean paragraph unless it
      is blank. */
  lemma StripClean(piece: string)
    requires !Contains(piece, PARAGRAPH_BREAK) && !IsBlank(piece)
    ensures CleanParagraph(Strip(piece))
  {
    StripContains(piece, PARAGRAPH_BREAK);
  }

  lemma AllCleanCons(p: string, ps: seq<string>)
    requires CleanParagraph(p) && AllClean(ps)
    ensures AllClean([p] + ps)
  {
    forall k | 0 <= k < |[p] + ps| ensures CleanParagraph(([p] + ps)[k]) {
      if k > 0 {
        assert ([p] + ps)[k] == ps[k - 1];
      }
    }
  }

  lemma {:induction false} NonBlankStrippedClean(pieces: seq<string>)
    requires forall k :: 0 <= k < |pieces| ==> !Contains(pieces[k], PARAGRAPH_BREAK)
    ensures AllClean(NonBlankStripped(pieces))
    decreases |pieces|
  {
    if pieces != [] {
      var tail := pieces[1..];
      forall k | 0 <= k < |tail| ensures !Contains(tail[k], PARAGRAPH_BREAK) {
        assert tail[k] == pieces[k + 1];
      }
      NonBlankStrippedClean(tail);
      var p := Strip(pieces[0]);
      if p != [] {
        StripClean(pieces[0]);
        AllCleanCons(p, NonBlankStripped(tail));
      } else {
        assert NonBlankStripped(pieces) == [] + NonBlankStripped(tail);
      }
    }
  }

  /** Splitting at `sep` finds no non-blank piece exactly when the text is
      blank. */
  lemma NonBlankPiecesIffNotBlank(text: string, sep: string)
    requires sep != [] && IsBlank(sep)
    ensures NonBlankStripped(Split(text, sep)) == [] <==> IsBlank(text)
  {
    var pieces := Split(text, sep);
    NonBlankStrippedEmpty(pieces);
    if IsBlank(text) {
      SplitBlank(text, sep);
    } else if NonBlankStripped(pieces) == [] {
      JoinBlank(pieces, sep);
      JoinSplit(text, sep);
      assert false;
    }
  }

  /** A text has no paragraphs exactly when it is blank. */
  lemma ParagraphsEmptyIffBlank(text: string)
    ensures Paragraphs(text) == [] <==> IsBlank(text)
  {
    NonBlankPiecesIffNotBlank(text, PARAGRAPH_BREAK);
    NonBlankPiecesIffNotBlank(text, "\n");
  }

  /** The single-newline fallback of `chunk_text` never finds a paragraph
      that the blank-line split missed. */
  lemma NewlineFallbackFindsNothing(text: string)
    requires NonBlankStripped(Split(text, PARAGRAPH_BREAK)) == []
    ensures NonBlankStripped(Split(text, "\n")) == []
  {
    NonBlankPiecesIffNotBlank(text, PARAGRAPH_BREAK);
    NonBlankPiecesIffNotBlank(text, "\n");
  }

  /** Every paragraph is non-empty, stripped and free of blank lines. */
  lemma ParagraphsClean(text: string)
    ensures forall k :: 0 <= k < |Paragraphs(text)| ==> CleanParagraph(Paragraphs(text)[k])
  {
    var pieces := Split(text, PARAGRAPH_BREAK);
    SplitPiecesAvoidSep(text, PARAGRAPH_BREAK);
    NonBlankStrippedClean(pieces);
    if NonBlankStripped(pieces) == [] {
      NewlineFallbackFindsNothing(text);
    }
  }

  // ---------------------------------------------------------------------
  // greedy word-budget packing

  /** Total word count of a list of paragraphs. */
  function SumWords(ps: seq<string>): nat
    decreases |ps|
  {
    if ps == [] then 0 else SumWords(ps[..|ps| - 1]) + WordCount(ps[|ps| - 1])
  }

  /** The loop state of `chunk_text`: closed chunks, the open chunk and its
      word count. */
  datatype Packing = Packing(done: seq<seq<string>>, current: seq<string>, currentWords: int)

  /** One iteration of the loop: close the open chunk if the paragraph would
      push it over the budget, then add the paragraph to the open chunk. */
  function Place(acc: Packing, para: string, budget: int): Packing {
    var w := WordCount(para);
    if acc.currentWords + w > budget && acc.current != [] then
      Packing(acc.done + [acc.current], [para], w)
    else
      Packing(acc.done, acc.current + [para], acc.currentWords + w)
  }

  function PlaceAll(acc: Packing, paras: seq<string>, budget: int): Packing
    decreases |paras|
  {
    if paras == [] then acc else PlaceAll(Place(acc, paras[0], budget), paras[1..], budget)
  }

  /** The chunks of `chunk_text`, each as its list of paragraphs. */
  function Group(paras: seq<string>, budget: int): seq<seq<string>> {
    var acc := PlaceAll(Packing([], [], 0), paras, budget);
    if acc.current != [] then acc.done + [acc.current] else acc.done
  }

  /** Only a chunk of one paragraph may exceed the budget. */
  predicate WithinBudget(g: seq<string>, budget: int) {
    |g| >= 2 ==> SumWords(g) <= budget
  }

  /** What a greedy packing guarantees: no empty chunk, every chunk within
      the budget unless it is a single paragraph, and no chunk could have
      taken the first paragraph of the next one. */
  predicate GreedyGroups(groups: seq<seq<string>>, budget: int) {
    && (forall k :: 0 <= k < |groups| ==> groups[k] != [] && WithinBudget(groups[k], budget))
    && (forall k :: 0 <= k < |groups| - 1 ==> SumWords(groups[k]) + WordCount(groups[k + 1][0]) > budget)
  }

  /** Loop invariant of `chunk_text` after `processed` paragraphs. */
  predicate PackingInv(acc: Packing, processed: seq<string>, budget: int) {
    && Flatten(acc.done) + acc.current == processed
    && acc.currentWords == SumWords(acc.current)
    && GreedyGroups(acc.done, budget)
    && WithinBudget(acc.current, budget)
    && (acc.done != [] ==>
          acc.current != [] && SumWords(acc.done[|acc.done| - 1]) + WordCount(acc.current[0]) > budget)
  }

  lemma SumWordsSnoc(ps: seq<string>, p: string)
    ensures SumWords(ps + [p]) == SumWords(ps) + WordCount(p)
  {
    assert (ps + [p])[..|ps|] == ps;
  }

  /** The open chunk is closed and the paragraph opens the next one. */
  lemma PlaceClosesKeepsInv(acc: Packing, processed: seq<string>, para: string, budget: int)
    requires PackingInv(acc, processed, budget)
    requires acc.currentWords + WordCount(para) > budget && acc.current != []
    ensures PackingInv(Packing(acc.done + [acc.current], [para], WordCount(para)), processed + [para], budget)
  {
    FlattenAppend(acc.done, acc.current);
    assert SumWords([para]) == WordCount(para) by {
      assert [para][..0] == [];
    }
    var done' := acc.done + [acc.current];
    assert forall k :: 0 <= k < |acc.done| ==> done'[k] == acc.done[k];
    assert done'[|acc.done|] == acc.current;
  }

  /** The paragraph joins the open chunk. */
  lemma PlaceExtendsKeepsInv(acc: Packing, processed: seq<string>, para: string, budget: int)
    requires PackingInv(acc, processed, budget)
    requires !(acc.currentWords + WordCount(para) > budget && acc.current != [])
    ensures PackingInv(Packing(acc.done, acc.current + [para], acc.currentWords + WordCount(para)), processed + [para], budget)
  {
    SumWordsSnoc(acc.current, para);
    var cur' := acc.current + [para];
    assert acc.current != [] ==> cur'[0] == acc.current[0];
    assert Flatten(acc.done) + cur' == processed + [para];
  }

  lemma PlaceKeepsInv(acc: Packing, processed: seq<string>, para: string, budget: int)
    requires PackingInv(acc, processed, budget)
    ensures PackingInv(Place(acc, para, budget), processed + [para], budget)
  {
    if acc.currentWords + WordCount(para) > budget && acc.current != [] {
      PlaceClosesKeepsInv(acc, processed, para, budget);
    } else {
      PlaceExtendsKeepsInv(acc, processed, para, budget);
    }
  }

  lemma {:induction false} PlaceAllKeepsInv(acc: Packing, processed: seq<string>, paras: seq<string>, budget: int)
    requires PackingInv(acc, processed, budget)
    ensures PackingInv(PlaceAll(acc, paras, budget), processed + paras, budget)
    decreases |paras|
  {
    if paras != [] {
      PlaceKeepsInv(acc, processed, paras[0], budget);
      PlaceAllKeepsInv(Place(acc, paras[0], budget), processed + [paras[0]], paras[1..], budget);
      assert processed + [paras[0]] + paras[1..] == processed + paras;
    }
  }

  /** The greedy packing keeps every paragraph, in order, and satisfies
      the budget and maximality rules. */
  lemma GroupSpec(paras: seq<string>, budget: int)
    ensures Flatten(Group(paras, budget)) == paras
    ensures GreedyGroups(Group(paras, budget), budget)
    ensures Group(paras, budget) == [] <==> paras == []
  {
    var init := Packing([], [], 0);
    assert PackingInv(init, [], budget);
    PlaceAllKeepsInv(init, [], paras, budget);
    var acc := PlaceAll(init, paras, budget);
    if acc.current != [] {
      FlattenAppend(acc.done, acc.current);
      var g := acc.done + [acc.current];
      assert forall k :: 0 <= k < |acc.done| ==> g[k] == acc.done[k];
    }
  }

  // ---------------------------------------------------------------------
  // chunk_text

  /** A chunk of `chunk_text`: its paragraphs joined by blank lines, and its
      position. */
  datatype TextChunk = TextChunk(text: string, chunkIndex: nat)

  function ChunkText(text: string, chunkWords: int): seq<TextChunk> {
    Numbered(Group(Paragraphs(text), chunkWords))
  }

  /** Each group joined by blank lines, numbered from 0. */
  function Numbered(groups: seq<seq<string>>): (r: seq<TextChunk>)
    ensures |r| == |groups|
    ensures forall i :: 0 <= i < |r| ==> r[i] == TextChunk(Join(groups[i], PARAGRAPH_BREAK), i)
  {
    seq(|groups|, i requires 0 <= i < |groups| => TextChunk(Join(groups[i], PARAGRAPH_BREAK), i))
  }

  /** The paragraphs a chunk's text splits back into. */
  function ChunkParagraphs(chunks: seq<TextChunk>): seq<seq<string>> {
    seq(|chunks|, i requires 0 <= i < |chunks| => Split(chunks[i].text, PARAGRAPH_BREAK))
  }

  /** A clean paragraph cannot run into the separator that follows it. */
  lemma {:induction false} CleanBeforeBreak(p: string)
    requires p != [] && p[|p| - 1] != '\n' && !Contains(p, PARAGRAPH_BREAK)
    ensures !Contains(p + "\n", PARAGRAPH_BREAK)
    decreases |p|
  {
    var q := p + "\n";
    if |p| >= 2 {
      assert q[..2] == p[..2];
      assert q[1..] == p[1..] + "\n";
      CleanBeforeBreak(p[1..]);
    } else {
      assert q == [p[0], '\n'];
      assert q[1..] == "\n";
      assert !Contains("\n", PARAGRAPH_BREAK) by {
        assert !Contains("\n"[1..], PARAGRAPH_BREAK);
      }
    }
  }

  /** Groups of clean paragraphs come back from their joined texts. */
  lemma NumberedSplitsBack(groups: seq<seq<string>>)
    requires forall i, k :: 0 <= i < |groups| && 0 <= k < |groups[i]| ==> CleanParagraph(groups[i][k])
    requires forall i :: 0 <= i < |groups| ==> groups[i] != []
    ensures ChunkParagraphs(Numbered(groups)) == groups
  {
    var chunks := Numbered(groups);
    forall i | 0 <= i < |groups|
      ensures Split(chunks[i].text, PARAGRAPH_BREAK) == groups[i]
    {
      var g := groups[i];
      forall k | 0 <= k < |g|
        ensures !Contains(g[k] + PARAGRAPH_BREAK[..1], PARAGRAPH_BREAK)
      {
        CleanBeforeBreak(g[k]);
        assert PARAGRAPH_BREAK[..1] == "\n";
      }
      SplitJoin(g, PARAGRAPH_BREAK);
    }
  }

  /** The chunks of the greedy packing hold clean paragraphs only. */
  lemma GroupsClean(text: string, chunkWords: int)
    ensures var groups := Group(Paragraphs(text), chunkWords);
      && (forall i, k :: 0 <= i < |groups| && 0 <= k < |groups[i]| ==> CleanParagraph(groups[i][k]))
      && (forall i :: 0 <= i < |groups| ==> groups[i] != [])
  {
    var paras := Paragraphs(text);
    var groups := Group(paras, chunkWords);
    ParagraphsClean(text);
    GroupSpec(paras, chunkWords);
    forall i, k | 0 <= i < |groups| && 0 <= k < |groups[i]| ensures CleanParagraph(groups[i][k]) {
      GroupMember(paras, groups, i, k);
    }
  }

  /** Each chunk's text splits back into exactly the paragraphs it was
      joined from. */
  lemma ChunkTextSplitsBack(text: string, chunkWords: int)
    ensures ChunkParagraphs(ChunkText(text, chunkWords)) == Group(Paragraphs(text), chunkWords)
  {
    GroupsClean(text, chunkWords);
    NumberedSplitsBack(Group(Paragraphs(text), chunkWords));
  }

  /** An element of a chunk is one of the paragraphs. */
  lemma GroupMember(paras: seq<string>, groups: seq<seq<string>>, i: int, k: int)
    requires Flatten(groups) == paras
    requires forall j :: 0 <= j < |paras| ==> CleanParagraph(paras[j])
    requires 0 <= i < |groups| && 0 <= k < |groups[i]|
    ensures CleanParagraph(groups[i][k])
  {
    FlattenIndex(groups, i, k);
  }

  /** Where element `k` of group `i` lands in the concatenation. */
  lemma {:induction false} FlattenIndex<T>(xss: seq<seq<T>>, i: int, k: int)
    requires 0 <= i < |xss| && 0 <= k < |xss[i]|
    ensures |Flatten(xss[..i])| + k < |Flatten(xss)|
    ensures Flatten(xss)[|Flatten(xss[..i])| + k] == xss[i][k]
    decreases i
  {
    if i == 0 {
      assert xss[..0] == [];
    } else {
      FlattenIndex(xss[1..], i - 1, k);
      assert xss[1..][..i - 1] == xss[1..i];
      assert xss[..i][1..] == xss[1..i];
    }
  }

  /** `chunk_text` on a blank (or empty) text gives no chunks, and on any
      other text at least one. */
  lemma ChunkTextEmptyIffBlank(text: string, chunkWords: int)
    ensures ChunkText(text, chunkWords) == [] <==> IsBlank(text)
  {
    ParagraphsEmptyIffBlank(text);
    GroupSpec(Paragraphs(text), chunkWords);
  }

  /** Splitting every chunk back into paragraphs and concatenating gives the
      paragraph list: nothing dropped, split or reordered. */
  lemma ChunkTextPartition(text: string, chunkWords: int)
    ensures Flatten(ChunkParagraphs(ChunkText(text, chunkWords))) == Paragraphs(text)
  {
    ChunkTextSplitsBack(text, chunkWords);
    GroupSpec(Paragraphs(text), chunkWords);
  }

  /** Joined groups of clean paragraphs are numbered 0, 1, 2, ... and none
      is blank. */
  lemma NumberedNotBlank(groups: seq<seq<string>>)
    requires forall i, k :: 0 <= i < |groups| && 0 <= k < |groups[i]| ==> CleanParagraph(groups[i][k])
    requires forall i :: 0 <= i < |groups| ==> groups[i] != []
    ensures forall i :: 0 <= i < |Numbered(groups)| ==>
      Numbered(groups)[i].chunkIndex == i && !IsBlank(Numbered(groups)[i].text)
  {
    var chunks := Numbered(groups);
    forall i | 0 <= i < |chunks|
      ensures !IsBlank(chunks[i].text)
    {
      var p := groups[i][0];
      assert CleanParagraph(p);
      var parts := [p[1..]] + groups[i][1..];
      JoinCons(p[0], parts, PARAGRAPH_BREAK);
      assert [[p[0]] + parts[0]] + parts[1..] == groups[i] by {
        assert [p[0]] + p[1..] == p;
        assert parts[1..] == groups[i][1..];
      }
      var t := chunks[i].text;
      assert t == [p[0]] + Join(parts, PARAGRAPH_BREAK);
      assert t[0] == p[0] && !IsSpace(t[0]);
    }
  }

  /** The chunks of `chunk_text` are numbered 0, 1, 2, ... and none is
      blank. */
  lemma ChunkTextNumbered(text: string, chunkWords: int)
    ensures forall i :: 0 <= i < |ChunkText(text, chunkWords)| ==>
      ChunkText(text, chunkWords)[i].chunkIndex == i && !IsBlank(ChunkText(text, chunkWords)[i].text)
  {
    GroupsClean(text, chunkWords);
    NumberedNotBlank(Group(Paragraphs(text), chunkWords));
  }

  /** The chunks, read back as paragraph lists, are a greedy packing: a
      chunk holding two or more paragraphs has at most `chunkWords` words,
      and no chunk could have taken the next chunk's first paragraph. */
  lemma ChunkTextBudget(text: string, chunkWords: int)
    ensures GreedyGroups(ChunkParagraphs(ChunkText(text, chunkWords)), chunkWords)
  {
    ChunkTextSplitsBack(text, chunkWords);
    GroupSpec(Paragraphs(text), chunkWords);
  }

  // ---------------------------------------------------------------------
  // chunk_transcript

  /** A transcript segment; `start` is carried but not read by the chunker. */
  datatype Segment = Segment(start: real, end: real, text: string)

  /** A chunk of `chunk_transcript`. */
  datatype TimedChunk = TimedChunk(startTime: real, endTime: real, text: string, segments: seq<Segment>)

  /** `" ".join(s["text"] for s in segs)` */
  function JoinedText(segs: seq<Segment>): string {
    Join(seq(|segs|, i requires 0 <= i < |segs| => segs[i].text), " ")
  }

  /** All segments of all chunks, in order. */
  function ChunkSegments(chunks: seq<TimedChunk>): seq<Segment>
    decreases |chunks|
  {
    if chunks == [] then [] else chunks[0].segments + ChunkSegments(chunks[1..])
  }

  function CloseChunk(start: real, segs: seq<Segment>): TimedChunk
    requires segs != []
  {
    TimedChunk(start, segs[|segs| - 1].end, JoinedText(segs), segs)
  }

  /** The loop of `chunk_transcript` from some point on: `start` is the open
      chunk's start time and `current` its segments so far. */
  function ChunksFrom(rest: seq<Segment>, chunkSeconds: real, start: real, current: seq<Segment>): seq<TimedChunk>
    decreases |rest|
  {
    if rest == [] then
      if current == [] then [] else [CloseChunk(start, current)]
    else
      var seg := rest[0];
      var current' := current + [seg];
      if seg.end - start >= chunkSeconds then
        [CloseChunk(start, current')] + ChunksFrom(rest[1..], chunkSeconds, seg.end, [])
      else
        ChunksFrom(rest[1..], chunkSeconds, start, current')
  }

  function ChunkTranscript(segments: seq<Segment>, chunkMinutes: int): seq<TimedChunk> {
    ChunksFrom(segments, (chunkMinutes * 60) as real, 0.0, [])
  }

  /** Each chunk is non-empty, ends where its last segment ends and carries
      its segments' texts joined by single spaces. */
  predicate ChunksShaped(chunks: seq<TimedChunk>) {
    forall i :: 0 <= i < |chunks| ==>
      && chunks[i].segments != []
      && chunks[i].endTime == chunks[i].segments[|chunks[i].segments| - 1].end
      && chunks[i].text == JoinedText(chunks[i].segments)
  }

  /** The first chunk starts at `start0`; every later one where the previous
      one ended. */
  predicate ChunksChained(chunks: seq<TimedChunk>, start0: real) {
    && (chunks != [] ==> chunks[0].startTime == start0)
    && (forall i :: 0 < i < |chunks| ==> chunks[i].startTime == chunks[i - 1].endTime)
  }

  /** Every chunk but the last spans at least `chunkSeconds`, and every chunk
      closed at the first segment that reached `chunkSeconds`. */
  predicate ChunksGreedy(chunks: seq<TimedChunk>, chunkSeconds: real) {
    && (forall i :: 0 <= i < |chunks| - 1 ==> chunks[i].endTime - chunks[i].startTime >= chunkSeconds)
    && (forall i, j :: 0 <= i < |chunks| && 0 <= j < |chunks[i].segments| - 1 ==>
          chunks[i].segments[j].end - chunks[i].startTime < chunkSeconds)
  }

  /** The shape every `chunk_transcript` result has, starting at `start0`. */
  predicate TimedChunksWellFormed(chunks: seq<TimedChunk>, start0: real, chunkSeconds: real) {
    ChunksShaped(chunks) && ChunksChained(chunks, start0) && ChunksGreedy(chunks, chunkSeconds)
  }

  lemma {:induction false} ChunksFromSegments(rest: seq<Segment>, chunkSeconds: real, start: real, current: seq<Segment>)
    ensures ChunkSegments(ChunksFrom(rest, chunkSeconds, start, current)) == current + rest
    decreases |rest|
  {
    var r := ChunksFrom(rest, chunkSeconds, start, current);
    if rest == [] {
      if current != [] {
        assert ChunkSegments(r) == current + ChunkSegments([]);
      }
    } else {
      var seg := rest[0];
      var current' := current + [seg];
      assert current' + rest[1..] == current + rest;
      if seg.end - start >= chunkSeconds {
        var tail := ChunksFrom(rest[1..], chunkSeconds, seg.end, []);
        ChunksFromSegments(rest[1..], chunkSeconds, seg.end, []);
        assert r == [CloseChunk(start, current')] + tail;
        assert r[1..] == tail;
      } else {
        ChunksFromSegments(rest[1..], chunkSeconds, start, current');
      }
    }
  }

  lemma {:induction false} ChunksFromShaped(rest: seq<Segment>, chunkSeconds: real, start: real, current: seq<Segment>)
    ensures ChunksShaped(ChunksFrom(rest, chunkSeconds, start, current))
    decreases |rest|
  {
    if rest != [] {
      var seg := rest[0];
      var current' := current + [seg];
      if seg.end - start >= chunkSeconds {
        var tail := ChunksFrom(rest[1..], chunkSeconds, seg.end, []);
        ChunksFromShaped(rest[1..], chunkSeconds, seg.end, []);
        var r := [CloseChunk(start, current')] + tail;
        assert forall i :: 0 < i < |r| ==> r[i] == tail[i - 1];
      } else {
        ChunksFromShaped(rest[1..], chunkSeconds, start, current');
      }
    }
  }

  lemma {:induction false} ChunksFromChained(rest: seq<Segment>, chunkSeconds: real, start: real, current: seq<Segment>)
    ensures ChunksChained(ChunksFrom(rest, chunkSeconds, start, current), start)
    decreases |rest|
  {
    if rest != [] {
      var seg := rest[0];
      var current' := current + [seg];
      if seg.end - start >= chunkSeconds {
        var tail := ChunksFrom(rest[1..], chunkSeconds, seg.end, []);
        ChunksFromChained(rest[1..], chunkSeconds, seg.end, []);
        var c := CloseChunk(start, current');
        var r := [c] + tail;
        assert forall i :: 0 < i < |r| ==> r[i] == tail[i - 1];
        assert c.endTime == seg.end;
      } else {
        ChunksFromChained(rest[1..], chunkSeconds, start, current');
      }
    }
  }

  lemma {:induction false} ChunksFromGreedy(rest: seq<Segment>, chunkSeconds: real, start: real, current: seq<Segment>)
    requires forall j :: 0 <= j < |current| ==> current[j].end - start < chunkSeconds
    ensures ChunksGreedy(ChunksFrom(rest, chunkSeconds, start, current), chunkSeconds)
    decreases |rest|
  {
    if rest != [] {
      var seg := rest[0];
      var current' := current + [seg];
      if seg.end - start >= chunkSeconds {
        var tail := ChunksFrom(rest[1..], chunkSeconds, seg.end, []);
        ChunksFromGreedy(rest[1..], chunkSeconds, seg.end, []);
        var c := CloseChunk(start, current');
        var r := [c] + tail;
        assert forall i :: 0 < i < |r| ==> r[i] == tail[i - 1];
        assert forall j :: 0 <= j < |c.segments| - 1 ==> c.segments[j] == current[j];
      } else {
        ChunksFromGreedy(rest[1..], chunkSeconds, start, current');
      }
    }
  }

  /** `chunk_transcript` loses, duplicates and reorders no segment, returns
      no chunk for an empty transcript, starts at 0.0, and lays its chunks
      end to end as described by `TimedChunksWellFormed`. */
  lemma ChunkTranscriptSpec(segments: seq<Segment>, chunkMinutes: int)
    ensures ChunkSegments(ChunkTranscript(segments, chunkMinutes)) == segments
    ensures ChunkTranscript(segments, chunkMinutes) == [] <==> segments == []
    ensures TimedChunksWellFormed(ChunkTranscript(segments, chunkMinutes), 0.0, (chunkMinutes * 60) as real)
  {
    ChunksFromSegments(segments, (chunkMinutes * 60) as real, 0.0, []);
    ChunksFromShaped(segments, (chunkMinutes * 60) as real, 0.0, []);
    ChunksFromChained(segments, (chunkMinutes * 60) as real, 0.0, []);
    ChunksFromGreedy(segments, (chunkMinutes * 60) as real, 0.0, []);
    assert [] + segments == segments;
  }
}

=== FILE: downloader.dfy ===
/**
 * `sanitize_filename` of `src/fileio/downloader.py`: the name given to a
 * downloaded video's audio file. The download itself is not modelled.
 */
module Downloader {
  import opened Strings

  const MAX_FILENAME_LENGTH: int := 100

  /** The nine characters the filename pattern deletes: backslash, slash,
      asterisk, question mark, colon, double quote, angle brackets and bar. */
  predicate Forbidden(c: char) {
    c in {'\\', '/', '*', '?', ':', '\"', '<', '>', '|'}
  }

  /** The `re.sub` that deletes every forbidden character. */
  function RemoveForbidden(s: string): (r: string)
    ensures |r| <= |s|
    ensures forall i :: 0 <= i < |r| ==> !Forbidden(r[i])
    ensures (forall i :: 0 <= i < |s| ==> !Forbidden(s[i])) ==> r == s
    decreases |s|
  {
    if s == [] then []
    else
      var rest := RemoveForbidden(s[1..]);
      if Forbidden(s[0]) then rest
      else
        assert (forall i :: 0 <= i < |s| ==> !Forbidden(s[i])) ==> rest == s[1..];
        [s[0]] + rest
  }

  /** Removal keeps the allowed characters in order: the result for a
      concatenation is that of its first part followed by that of its
      second, and one character survives exactly when it is allowed. */
  lemma {:induction false} RemoveForbiddenAppend(s: string, t: string)
    ensures RemoveForbidden(s + t) == RemoveForbidden(s) + RemoveForbidden(t)
    decreases |s|
  {
    if s == [] {
      assert s + t == t;
    } else {
      assert (s + t)[1..] == s[1..] + t;
      RemoveForbiddenAppend(s[1..], t);
    }
  }

  lemma RemoveForbiddenOne(c: char)
    ensures RemoveForbidden([c]) == if Forbidden(c) then [] else [c]
  {
    assert [c][1..] == [];
  }

  /** `.replace(" ", "_")`. */
  function ReplaceSpaces(s: string): (r: string)
    ensures |r| == |s|
    ensures forall i :: 0 <= i < |s| ==> r[i] == (if s[i] == ' ' then '_' else s[i])
  {
    seq(|s|, i requires 0 <= i < |s| => if s[i] == ' ' then '_' else s[i])
  }

  /** `sanitize_filename`: forbidden characters removed, surrounding
      whitespace stripped, inner spaces turned into underscores, and at
      most 100 characters kept. */
  function SanitizeFilename(name: string): (r: string)
    ensures |r| <= MAX_FILENAME_LENGTH
    ensures forall i :: 0 <= i < |r| ==> !Forbidden(r[i]) && r[i] != ' '
  {
    var removed := RemoveForbidden(name);
    var stripped := Strip(removed);
    StripKeepsAllowed(removed);
    var replaced := ReplaceSpaces(stripped);
    ReplacedSafe(stripped);
    var r := Prefix(replaced, MAX_FILENAME_LENGTH);
    assert forall i :: 0 <= i < |r| ==> r[i] == replaced[i];
    r
  }

  /** Turning spaces into underscores leaves no space and adds no
      forbidden character. */
  lemma ReplacedSafe(s: string)
    requires forall i :: 0 <= i < |s| ==> !Forbidden(s[i])
    ensures forall i :: 0 <= i < |ReplaceSpaces(s)| ==> !Forbidden(ReplaceSpaces(s)[i]) && ReplaceSpaces(s)[i] != ' '
  {
    var r := ReplaceSpaces(s);
    forall i | 0 <= i < |r| ensures !Forbidden(r[i]) && r[i] != ' ' {
      if s[i] == ' ' {
        assert r[i] == '_';
      } else {
        assert r[i] == s[i];
      }
    }
  }

  /** Stripping adds no character. */
  lemma StripKeepsAllowed(s: string)
    requires forall i :: 0 <= i < |s| ==> !Forbidden(s[i])
    ensures forall i :: 0 <= i < |Strip(s)| ==> !Forbidden(Strip(s)[i])
  {
    var r := Strip(s);
    var off := StripOffset(s);
    forall i | 0 <= i < |r| ensures !Forbidden(r[i]) {
      assert r[i] == s[off + i];
    }
  }

  /** A string without whitespace is its own strip. */
  lemma StripNoSpace(s: string)
    requires forall i :: 0 <= i < |s| ==> !IsSpace(s[i])
    ensures Strip(s) == s
  {
    if s != [] {
      assert FirstKept(s, IsSpace, 0) == 0;
      assert KeptEnd(s, IsSpace, |s|) == |s|;
      assert s[0..|s|] == s;
    }
  }

  /** A string without spaces is its own `.replace(" ", "_")`. */
  lemma ReplaceNoSpace(s: string)
    requires forall i :: 0 <= i < |s| ==> s[i] != ' '
    ensures ReplaceSpaces(s) == s
  {
  }

  /** The name already holds only allowed characters: every step leaves
      it as it is, up to the length cut. */
  lemma SafeNameSteps(name: string)
    requires forall i :: 0 <= i < |name| ==> !Forbidden(name[i]) && !IsSpace(name[i])
    ensures SanitizeFilename(name) == Prefix(name, MAX_FILENAME_LENGTH)
  {
    var removed := RemoveForbidden(name);
    assert removed == name;
    StripNoSpace(name);
    ReplaceNoSpace(name);
  }

  /** A name that is already safe comes back unchanged. */
  lemma SafeNameUnchanged(name: string)
    requires |name| <= MAX_FILENAME_LENGTH
    requires forall i :: 0 <= i < |name| ==> !Forbidden(name[i]) && !IsSpace(name[i])
    ensures SanitizeFilename(name) == name
  {
    SafeNameSteps(name);
  }

  /** A name that is too long is cut to its first 100 characters of the
      cleaned text. */
  lemma LongNameCut(name: string)
    requires |name| > MAX_FILENAME_LENGTH
    requires forall i :: 0 <= i < |name| ==> !Forbidden(name[i]) && !IsSpace(name[i])
    ensures SanitizeFilename(name) == name[..MAX_FILENAME_LENGTH]
  {
    SafeNameSteps(name);
  }

  /** A title with a colon: the colon goes, the spaces become
      underscores. */
  lemma SanitizeColonTitle()
    ensures SanitizeFilename("My Video: Part 1") == "My_Video_Part_1"
  {
    ColonTitleRemoved();
    StripUnpadded("My Video Part 1");
    ColonTitleReplaced();
  }

  lemma ColonTitleRemoved()
    ensures RemoveForbidden("My Video: Part 1") == "My Video Part 1"
  {
    var (a, b) := ("My Video", " Part 1");
    assert "My Video: Part 1" == a + [':'] + b;
    DropBetween(a, ':', b);
    assert a + b == "My Video Part 1";
  }

  /** A forbidden character between two allowed texts just disappears. */
  lemma DropBetween(a: string, c: char, b: string)
    requires forall i :: 0 <= i < |a| ==> !Forbidden(a[i])
    requires forall i :: 0 <= i < |b| ==> !Forbidden(b[i])
    requires Forbidden(c)
    ensures RemoveForbidden(a + [c] + b) == a + b
  {
    RemoveForbiddenAppend(a + [c], b);
    RemoveForbiddenAppend(a, [c]);
    RemoveForbiddenOne(c);
    AllowedKept(a);
    AllowedKept(b);
    assert a + [] == a;
  }

  /** A text of allowed characters loses none of them. */
  lemma AllowedKept(s: string)
    requires forall i :: 0 <= i < |s| ==> !Forbidden(s[i])
    ensures RemoveForbidden(s) == s
  {
  }

  lemma ColonTitleReplaced()
    ensures ReplaceSpaces("My Video Part 1") == "My_Video_Part_1"
  {
    var s := "My Video Part 1";
    var r := ReplaceSpaces(s);
    forall i | 0 <= i < |r| ensures r[i] == "My_Video_Part_1"[i] {
      assert r[i] == if s[i] == ' ' then '_' else s[i];
    }
  }
}

=== FILE: fetcher.dfy ===
/**
 * The article gathering of `src/podcast/fetcher.py`: the de-duplicating
 * walk over RSS feed entries, and the query built from the user's
 * interests for the web search. Feed download and parsing are a parameter
 * (`parse`); the search service and article extraction are not modelled.
 */
module Fetcher {
  import opened Strings
  import opened Results
  import opened Articles

  const DEFAULT_MAX_PER_FEED: int := 10

  /** A feed entry; absent fields are `None`. */
  datatype Entry = Entry(link: Option<string>, title: Option<string>, summary: Option<string>)

  /** A parsed feed, or one whose handling raised. */
  datatype Feed = Unreachable | Feed(entries: seq<Entry>)

  /** `entry.get("link", "")`. */
  function LinkOf(e: Entry): string {
    e.link.GetOr("")
  }

  /** The article dict built from an entry. */
  function RssArticle(e: Entry): (a: Article)
    ensures a.url == LinkOf(e) && a.origin == "rss" && a.content.None?
    ensures e.title.None? ==> a.title == "Untitled"
    ensures e.title.Some? ==> a.title == e.title.value
    ensures e.summary.None? ==> a.summary == ""
  {
    Article(e.title.GetOr("Untitled"), LinkOf(e), e.summary.GetOr(""), "rss", None)
  }

  /** The entries the loop looks at: the first `max_per_feed` of each
      reachable feed (Python slicing, so a negative bound drops entries
      from the end), feed after feed. */
  function Considered(feeds: seq<Feed>, maxPerFeed: int): seq<Entry>
    decreases |feeds|
  {
    if feeds == [] then []
    else
      var here := if feeds[0].Feed? then Prefix(feeds[0].entries, maxPerFeed) else [];
      here + Considered(feeds[1..], maxPerFeed)
  }

  /** The loop body over the considered entries with the set of links seen
      so far: an empty or seen link is skipped. */
  function Dedup(entries: seq<Entry>, seen: set<string>): (r: seq<Article>)
    decreases |entries|
  {
    if entries == [] then []
    else
      var link := LinkOf(entries[0]);
      if link == "" || link in seen then Dedup(entries[1..], seen)
      else [RssArticle(entries[0])] + Dedup(entries[1..], seen + {link})
  }

  /** The feeds behind the URLs, in the order they are given. */
  function Feeds(feedUrls: seq<string>, parse: string -> Feed): (feeds: seq<Feed>)
    ensures |feeds| == |feedUrls| && forall i :: 0 <= i < |feedUrls| ==> feeds[i] == parse(feedUrls[i])
  {
    seq(|feedUrls|, i requires 0 <= i < |feedUrls| => parse(feedUrls[i]))
  }

  /** `fetch_rss_articles`. */
  function FetchRssArticles(feedUrls: seq<string>, parse: string -> Feed, maxPerFeed: int): seq<Article> {
    Dedup(Considered(Feeds(feedUrls, parse), maxPerFeed), {})
  }

  /** Non-empty URLs, none of them seen before. */
  predicate FreshUrls(articles: seq<Article>, seen: set<string>) {
    forall i :: 0 <= i < |articles| ==> articles[i].url != "" && articles[i].url !in seen
  }

  /** `a` is built from the first entry that carries its link. */
  predicate FirstSource(a: Article, entries: seq<Entry>) {
    exists k :: 0 <= k < |entries| && a == RssArticle(entries[k]) && forall j :: 0 <= j < k ==> LinkOf(entries[j]) != a.url
  }

  /** Every non-empty link not seen before is kept. */
  predicate Represented(articles: seq<Article>, entries: seq<Entry>, seen: set<string>) {
    forall k :: 0 <= k < |entries| && LinkOf(entries[k]) != "" && LinkOf(entries[k]) !in seen ==>
      exists i :: 0 <= i < |articles| && articles[i].url == LinkOf(entries[k])
  }

  /** The kept URLs are unique, non-empty and not seen before. */
  lemma {:induction false} DedupFresh(entries: seq<Entry>, seen: set<string>)
    ensures UniqueUrls(Dedup(entries, seen)) && FreshUrls(Dedup(entries, seen), seen)
    decreases |entries|
  {
    if entries != [] {
      var link := LinkOf(entries[0]);
      if link == "" || link in seen {
        DedupFresh(entries[1..], seen);
      } else {
        var seen' := seen + {link};
        DedupFresh(entries[1..], seen');
        var tail := Dedup(entries[1..], seen');
        var r := [RssArticle(entries[0])] + tail;
        assert forall i :: 1 <= i < |r| ==> r[i] == tail[i - 1];
      }
    }
  }

  /** An article first sourced in `rest` is first sourced in `e` followed
      by `rest` when `e` carries another link. */
  lemma FirstSourceShift(a: Article, e: Entry, rest: seq<Entry>)
    requires FirstSource(a, rest) && LinkOf(e) != a.url
    ensures FirstSource(a, [e] + rest)
  {
    var entries := [e] + rest;
    var k :| 0 <= k < |rest| && a == RssArticle(rest[k]) && forall j :: 0 <= j < k ==> LinkOf(rest[j]) != a.url;
    assert entries[k + 1] == rest[k];
    assert forall j :: 1 <= j < k + 1 ==> entries[j] == rest[j - 1];
  }

  /** Every kept article comes from the first entry with its link. */
  lemma {:induction false} DedupSources(entries: seq<Entry>, seen: set<string>)
    ensures forall i :: 0 <= i < |Dedup(entries, seen)| ==> FirstSource(Dedup(entries, seen)[i], entries)
    decreases |entries|
  {
    if entries != [] {
      var link := LinkOf(entries[0]);
      var rest := entries[1..];
      assert entries == [entries[0]] + rest;
      if link == "" || link in seen {
        DedupSources(rest, seen);
        DedupFresh(rest, seen);
        var r := Dedup(rest, seen);
        forall i | 0 <= i < |r| ensures FirstSource(r[i], entries) {
          FirstSourceShift(r[i], entries[0], rest);
        }
      } else {
        var seen' := seen + {link};
        DedupSources(rest, seen');
        DedupFresh(rest, seen');
        var tail := Dedup(rest, seen');
        var r := [RssArticle(entries[0])] + tail;
        forall i | 0 <= i < |r| ensures FirstSource(r[i], entries) {
          if i == 0 {
            assert r[0] == RssArticle(entries[0]);
          } else {
            assert r[i] == tail[i - 1];
            FirstSourceShift(tail[i - 1], entries[0], rest);
          }
        }
      }
    }
  }

  /** Every non-empty link not seen before ends up in the output. */
  lemma {:induction false} DedupComplete(entries: seq<Entry>, seen: set<string>)
    ensures Represented(Dedup(entries, seen), entries, seen)
    decreases |entries|
  {
    if entries != [] {
      var link := LinkOf(entries[0]);
      var rest := entries[1..];
      if link == "" || link in seen {
        DedupComplete(rest, seen);
        var r := Dedup(rest, seen);
        forall k | 0 <= k < |entries| && LinkOf(entries[k]) != "" && LinkOf(entries[k]) !in seen
          ensures exists i :: 0 <= i < |r| && r[i].url == LinkOf(entries[k])
        {
          assert entries[k] == rest[k - 1];
        }
      } else {
        var seen' := seen + {link};
        DedupComplete(rest, seen');
        var tail := Dedup(rest, seen');
        var r := [RssArticle(entries[0])] + tail;
        forall k | 0 <= k < |entries| && LinkOf(entries[k]) != "" && LinkOf(entries[k]) !in seen
          ensures exists i :: 0 <= i < |r| && r[i].url == LinkOf(entries[k])
        {
          if LinkOf(entries[k]) == link {
            assert r[0].url == link;
          } else {
            assert entries[k] == rest[k - 1];
            var i :| 0 <= i < |tail| && tail[i].url == LinkOf(rest[k - 1]);
            assert r[i + 1] == tail[i];
          }
        }
      }
    }
  }

  /** The non-empty links of some entries: the links the loop adds to
      `seen_urls` while it walks them. */
  function Links(entries: seq<Entry>): set<string> {
    set k | 0 <= k < |entries| && LinkOf(entries[k]) != "" :: LinkOf(entries[k])
  }

  lemma LinksCons(e: Entry, rest: seq<Entry>)
    ensures Links([e] + rest) == (if LinkOf(e) == "" then {} else {LinkOf(e)}) + Links(rest)
  {
    var es := [e] + rest;
    var head: set<string> := if LinkOf(e) == "" then {} else {LinkOf(e)};
    forall x | x in Links(es) ensures x in head + Links(rest) {
      var k :| 0 <= k < |es| && LinkOf(es[k]) != "" && LinkOf(es[k]) == x;
      if k > 0 {
        assert es[k] == rest[k - 1];
      }
    }
    forall x | x in head + Links(rest) ensures x in Links(es) {
      if x in head {
        assert LinkOf(es[0]) == x;
      } else {
        var k :| 0 <= k < |rest| && LinkOf(rest[k]) != "" && LinkOf(rest[k]) == x;
        assert es[k + 1] == rest[k];
      }
    }
  }

  /** The loop keeps the entries' order: the articles of a concatenation
      are those of its first part, followed by those of the second part
      with the first part's links counted as seen. */
  lemma {:induction false} DedupAppend(a: seq<Entry>, b: seq<Entry>, seen: set<string>)
    ensures Dedup(a + b, seen) == Dedup(a, seen) + Dedup(b, seen + Links(a))
    decreases |a|
  {
    if a == [] {
      assert a + b == b;
      assert Links(a) == {};
      assert seen + Links(a) == seen;
    } else {
      var link := LinkOf(a[0]);
      assert (a + b)[0] == a[0];
      assert (a + b)[1..] == a[1..] + b;
      assert a == [a[0]] + a[1..];
      LinksCons(a[0], a[1..]);
      if link == "" || link in seen {
        DedupAppend(a[1..], b, seen);
        assert seen + Links(a) == seen + Links(a[1..]);
      } else {
        DedupAppend(a[1..], b, seen + {link});
        assert seen + Links(a) == seen + {link} + Links(a[1..]);
      }
    }
  }

  /** One entry gives its article exactly when its link is non-empty and
      not seen yet. */
  lemma DedupOne(e: Entry, seen: set<string>)
    ensures Dedup([e], seen) == if LinkOf(e) == "" || LinkOf(e) in seen then [] else [RssArticle(e)]
  {
    assert [e][1..] == [];
  }

  /** The fetched articles have unique, non-empty URLs; each comes from
      the first considered entry with its link, and every considered entry
      with a link is represented. */
  lemma FetchRssArticlesSpec(feedUrls: seq<string>, parse: string -> Feed, maxPerFeed: int)
    ensures var entries := Considered(Feeds(feedUrls, parse), maxPerFeed);
      var r := FetchRssArticles(feedUrls, parse, maxPerFeed);
      && UniqueUrls(r)
      && (forall i :: 0 <= i < |r| ==> r[i].url != "" && r[i].origin == "rss")
      && (forall i :: 0 <= i < |r| ==> FirstSource(r[i], entries))
      && Represented(r, entries, {})
  {
    var entries := Considered(Feeds(feedUrls, parse), maxPerFeed);
    DedupFresh(entries, {});
    DedupSources(entries, {});
    DedupComplete(entries, {});
    var r := Dedup(entries, {});
    forall i | 0 <= i < |r| ensures r[i].origin == "rss" {
      var k :| 0 <= k < |entries| && r[i] == RssArticle(entries[k]) && forall j :: 0 <= j < k ==> LinkOf(entries[j]) != r[i].url;
    }
  }

  /** The articles of earlier feeds come first: fetching from two lists
      of feeds gives the articles of the first list, then those of the
      second whose links the first did not already yield. */
  lemma FetchRssArticlesOrder(first: seq<string>, second: seq<string>, parse: string -> Feed, maxPerFeed: int)
    ensures FetchRssArticles(first + second, parse, maxPerFeed)
         == FetchRssArticles(first, parse, maxPerFeed)
            + Dedup(Considered(Feeds(second, parse), maxPerFeed), Links(Considered(Feeds(first, parse), maxPerFeed)))
  {
    assert Feeds(first + second, parse) == Feeds(first, parse) + Feeds(second, parse);
    ConsideredAppend(Feeds(first, parse), Feeds(second, parse), maxPerFeed);
    DedupAppend(Considered(Feeds(first, parse), maxPerFeed), Considered(Feeds(second, parse), maxPerFeed), {});
    assert {} + Links(Considered(Feeds(first, parse), maxPerFeed)) == Links(Considered(Feeds(first, parse), maxPerFeed));
  }

  /** The loop looks at no more than `max_per_feed` entries of any feed. */
  lemma {:induction false} ConsideredBound(feeds: seq<Feed>, maxPerFeed: int)
    requires maxPerFeed >= 0
    ensures |Considered(feeds, maxPerFeed)| <= |feeds| * maxPerFeed
    decreases |feeds|
  {
    if feeds != [] {
      ConsideredBound(feeds[1..], maxPerFeed);
      assert |feeds| * maxPerFeed == maxPerFeed + |feeds[1..]| * maxPerFeed;
    }
  }

  /** The loop walks the feeds in order: the entries of a concatenation
      of feeds are those of the first feeds followed by those of the
      rest. */
  lemma {:induction false} ConsideredAppend(a: seq<Feed>, b: seq<Feed>, maxPerFeed: int)
    ensures Considered(a + b, maxPerFeed) == Considered(a, maxPerFeed) + Considered(b, maxPerFeed)
    decreases |a|
  {
    if a == [] {
      assert a + b == b;
    } else {
      assert (a + b)[0] == a[0];
      assert (a + b)[1..] == a[1..] + b;
      ConsideredAppend(a[1..], b, maxPerFeed);
    }
  }

  /** One feed contributes the first `max_per_feed` of its entries (Python
      slicing), so never more than `max_per_feed` of them, and an
      unreachable feed contributes nothing. */
  lemma ConsideredOne(f: Feed, maxPerFeed: int)
    ensures Considered([f], maxPerFeed) == if f.Feed? then Prefix(f.entries, maxPerFeed) else []
    ensures maxPerFeed >= 0 ==> |Considered([f], maxPerFeed)| <= maxPerFeed
  {
    assert [f][1..] == [];
  }

  /** Unreachable feeds contribute nothing. */
  lemma {:induction false} AllUnreachable(feeds: seq<Feed>, maxPerFeed: int)
    requires forall k :: 0 <= k < |feeds| ==> feeds[k].Unreachable?
    ensures Considered(feeds, maxPerFeed) == []
    decreases |feeds|
  {
    if feeds != [] {
      assert forall k :: 0 <= k < |feeds[1..]| ==> feeds[1..][k] == feeds[k + 1];
      AllUnreachable(feeds[1..], maxPerFeed);
    }
  }

  /** An unreachable feed, wherever it stands, changes nothing for the
      feeds before and after it. */
  lemma SkipUnreachable(before: seq<Feed>, rest: seq<Feed>, maxPerFeed: int)
    ensures Considered(before + [Unreachable] + rest, maxPerFeed) == Considered(before + rest, maxPerFeed)
  {
    ConsideredAppend(before + [Unreachable], rest, maxPerFeed);
    ConsideredAppend(before, [Unreachable], maxPerFeed);
    ConsideredOne(Unreachable, maxPerFeed);
    ConsideredAppend(before, rest, maxPerFeed);
    assert Considered(before + [Unreachable], maxPerFeed) == Considered(before, maxPerFeed);
  }

  // ---------------------------------------------------------------------
  // search_web_articles: the query

  predicate DashOrSpace(c: char) {
    c == '-' || c == ' '
  }

  /** `l.strip().startswith("-")`. */
  predicate DashLine(line: string) {
    StartsWith(Strip(line), "-")
  }

  /** `l.strip("- ").strip()`. */
  function ItemOf(line: string): string {
    Strip(StripWith(line, DashOrSpace))
  }

  /** `[f(x) for x in xs if keep(x)]`. */
  function Collect<T, U>(xs: seq<T>, keep: T -> bool, f: T -> U): (r: seq<U>)
    ensures |r| <= |xs|
    decreases |xs|
  {
    if xs == [] then []
    else
      var rest := Collect(xs[1..], keep, f);
      if keep(xs[0]) then [f(xs[0])] + rest else rest
  }

  /** Every collected value comes from a kept element, and there is one
      exactly when some element is kept. */
  lemma {:induction false} CollectSpec<T, U>(xs: seq<T>, keep: T -> bool, f: T -> U)
    ensures forall i :: 0 <= i < |Collect(xs, keep, f)| ==>
      exists k :: 0 <= k < |xs| && keep(xs[k]) && Collect(xs, keep, f)[i] == f(xs[k])
    ensures Collect(xs, keep, f) == [] <==> forall k :: 0 <= k < |xs| ==> !keep(xs[k])
    decreases |xs|
  {
    if xs != [] {
      var rest := Collect(xs[1..], keep, f);
      CollectSpec(xs[1..], keep, f);
      var r := Collect(xs, keep, f);
      forall i | 0 <= i < |r|
        ensures exists k :: 0 <= k < |xs| && keep(xs[k]) && r[i] == f(xs[k])
      {
        var j := if keep(xs[0]) then i - 1 else i;
        if j >= 0 {
          assert r[i] == rest[j];
          var k :| 0 <= k < |xs[1..]| && keep(xs[1..][k]) && rest[j] == f(xs[1..][k]);
          assert xs[k + 1] == xs[1..][k];
        } else {
          assert r[i] == f(xs[0]);
        }
      }
      if r == [] {
        forall k | 0 <= k < |xs| ensures !keep(xs[k]) {
          if k > 0 {
            assert xs[k] == xs[1..][k - 1];
          }
        }
      }
    } else {
      assert Collect(xs, keep, f) == [];
    }
  }

  /** Collecting keeps the input's order: the values of a concatenation
      are those of its first part followed by those of its second, and one
      element gives its value exactly when it is kept. */
  lemma {:induction false} CollectAppend<T, U>(xs: seq<T>, ys: seq<T>, keep: T -> bool, f: T -> U)
    ensures Collect(xs + ys, keep, f) == Collect(xs, keep, f) + Collect(ys, keep, f)
    decreases |xs|
  {
    if xs == [] {
      assert xs + ys == ys;
    } else {
      assert (xs + ys)[1..] == xs[1..] + ys;
      CollectAppend(xs[1..], ys, keep, f);
    }
  }

  lemma CollectOne<T, U>(x: T, keep: T -> bool, f: T -> U)
    ensures Collect([x], keep, f) == if keep(x) then [f(x)] else []
  {
    assert [x][1..] == [];
  }

  /** A kept element contributes its value between those of the elements
      before it and those after it. */
  lemma CollectAt<T, U>(xs: seq<T>, j: nat, keep: T -> bool, f: T -> U)
    requires j < |xs| && keep(xs[j])
    ensures Collect(xs, keep, f) == Collect(xs[..j], keep, f) + [f(xs[j])] + Collect(xs[j + 1..], keep, f)
  {
    var before, after := xs[..j], xs[j + 1..];
    var tail := [xs[j]] + after;
    assert xs == before + xs[j..];
    assert xs[j..] == tail;
    calc {
      Collect(xs, keep, f);
      { CollectAppend(before, tail, keep, f); }
      Collect(before, keep, f) + Collect(tail, keep, f);
      { CollectAppend([xs[j]], after, keep, f); CollectOne(xs[j], keep, f); }
      Collect(before, keep, f) + ([f(xs[j])] + Collect(after, keep, f));
    }
  }

  /** `[l.strip("- ").strip() for l in lines if l.strip().startswith("-")]`. */
  function InterestItems(lines: seq<string>): seq<string> {
    Collect(lines, DashLine, ItemOf)
  }

  const FALLBACK_QUERY: string := "latest tech news"
  const QUERY_PREFIX: string := "latest news "

  /** The query of `search_web_articles`: at most three interest items
      after "latest news ", or the fixed fallback when the interests hold no
      dash-led line. */
  function SearchQuery(interests: string): (r: string)
    ensures InterestItems(Lines(interests)) == [] <==> r == FALLBACK_QUERY
    ensures InterestItems(Lines(interests)) != [] ==>
      StartsWith(r, QUERY_PREFIX) && r[|QUERY_PREFIX|..] == Join(Prefix(InterestItems(Lines(interests)), 3), ", ")
  {
    var items := InterestItems(Lines(interests));
    if items != [] then
      var r := QUERY_PREFIX + Join(Prefix(items, 3), ", ");
      assert r[7] != FALLBACK_QUERY[7];
      r
    else FALLBACK_QUERY
  }

  /** Every item comes from a dash-led line, and there are items exactly
      when some line is dash-led. */
  lemma InterestItemsSpec(lines: seq<string>)
    ensures forall i :: 0 <= i < |InterestItems(lines)| ==>
      exists k :: 0 <= k < |lines| && DashLine(lines[k]) && InterestItems(lines)[i] == ItemOf(lines[k])
    ensures InterestItems(lines) == [] <==> forall k :: 0 <= k < |lines| ==> !DashLine(lines[k])
  {
    var keep: string -> bool := DashLine;
    var f: string -> string := ItemOf;
    CollectSpec(lines, keep, f);
    var items := InterestItems(lines);
    forall i | 0 <= i < |items|
      ensures exists k :: 0 <= k < |lines| && DashLine(lines[k]) && items[i] == ItemOf(lines[k])
    {
      var k :| 0 <= k < |lines| && keep(lines[k]) && items[i] == f(lines[k]);
      assert DashLine(lines[k]);
    }
    assert (forall k :: 0 <= k < |lines| ==> !keep(lines[k])) <==> (forall k :: 0 <= k < |lines| ==> !DashLine(lines[k]));
  }

  /** The items follow the lines' order: those of a concatenation are those
      of its first lines followed by those of the rest. */
  lemma InterestItemsAppend(xs: seq<string>, ys: seq<string>)
    ensures InterestItems(xs + ys) == InterestItems(xs) + InterestItems(ys)
  {
    var keep: string -> bool := DashLine;
    var f: string -> string := ItemOf;
    CollectAppend(xs, ys, keep, f);
  }

  /** One line gives its item exactly when it is dash-led. */
  lemma InterestItemsOne(l: string)
    ensures InterestItems([l]) == if DashLine(l) then [ItemOf(l)] else []
  {
    var keep: string -> bool := DashLine;
    var f: string -> string := ItemOf;
    CollectOne(l, keep, f);
  }

  /** Every dash-led line gives its item, and a line before another gives
      its item before the other's. */
  lemma InterestItemsComplete(lines: seq<string>, j: nat)
    requires j < |lines| && DashLine(lines[j])
    ensures InterestItems(lines) == InterestItems(lines[..j]) + [ItemOf(lines[j])] + InterestItems(lines[j + 1..])
  {
    var keep: string -> bool := DashLine;
    var f: string -> string := ItemOf;
    CollectAt(lines, j, keep, f);
  }
}

=== FILE: hardware.dfy ===
/**
 * The model recommendation of `src/core/hardware.py`. Hardware probing is
 * left to the caller: system RAM, NVIDIA VRAM (absent when there is no
 * NVIDIA GPU), the Apple Silicon flag and the installed Ollama models are
 * inputs.
 */
module Hardware {
  import opened Strings
  import opened Results

  /** Candidates per speed tier, best first. */
  const MODEL_TIERS: map<string, seq<string>> := map[
    "fast" := ["llama3.2:3b", "phi3:mini", "llama3.2:1b", "qwen2.5:0.5b"],
    "medium" := ["gemma2:9b", "llama3.1:8b", "qwen2.5:7b", "mistral:7b"],
    "slow" := ["llama3.1:70b", "qwen2.5:32b", "gemma2:27b", "llama3.1:8b"]
  ]

  /** Approximate memory in GB each known model needs. */
  const MODEL_RAM_REQUIREMENTS: map<string, int> := map[
    "qwen2.5:0.5b" := 2,
    "llama3.2:1b" := 4,
    "llama3.2:3b" := 4,
    "phi3:mini" := 4,
    "qwen2.5:7b" := 8,
    "mistral:7b" := 8,
    "llama3.1:8b" := 8,
    "gemma2:9b" := 8,
    "gemma2:27b" := 20,
    "qwen2.5:32b" := 24,
    "llama3.1:70b" := 48
  ]

  const DEFAULT_RAM_REQUIREMENT: int := 8

  /** `MODEL_TIERS.get(speed, MODEL_TIERS["medium"])`. */
  function Candidates(speed: string): (r: seq<string>)
    ensures |r| == 4
    ensures speed in MODEL_TIERS ==> r == MODEL_TIERS[speed]
    ensures speed !in MODEL_TIERS ==> r == MODEL_TIERS["medium"]
  {
    if speed in MODEL_TIERS then MODEL_TIERS[speed] else MODEL_TIERS["medium"]
  }

  /** `MODEL_RAM_REQUIREMENTS.get(model, 8)`. */
  function RamRequirement(model: string): (gb: int)
    ensures model in MODEL_RAM_REQUIREMENTS ==> gb == MODEL_RAM_REQUIREMENTS[model]
    ensures model !in MODEL_RAM_REQUIREMENTS ==> gb == DEFAULT_RAM_REQUIREMENT
  {
    if model in MODEL_RAM_REQUIREMENTS then MODEL_RAM_REQUIREMENTS[model] else DEFAULT_RAM_REQUIREMENT
  }

  /** Every tier lists only models with a known requirement. */
  lemma TiersHaveRequirements(speed: string)
    ensures forall k :: 0 <= k < |Candidates(speed)| ==> Candidates(speed)[k] in MODEL_RAM_REQUIREMENTS
  {
  }

  /** The memory a model may use: unified memory on Apple Silicon, system
      RAM without an NVIDIA GPU, and VRAM otherwise. */
  function UsableMemory(ramGb: real, vramGb: Option<real>, appleSilicon: bool): (gb: real)
    ensures appleSilicon || vramGb.None? ==> gb == ramGb
    ensures !appleSilicon && vramGb.Some? ==> gb == vramGb.value
  {
    if appleSilicon || vramGb.None? then ramGb else vramGb.value
  }

  /** `_is_model_installed`, name by name. */
  function IsModelInstalled(model: string, available: seq<string>): (installed: bool)
    ensures installed <==> exists i :: 0 <= i < |available| && (Contains(available[i], model) || StartsWith(available[i], FirstField(model, ':')))
    decreases |available|
  {
    if available == [] then false
    else
      var rest := IsModelInstalled(model, available[1..]);
      assert forall i :: 1 <= i < |available| ==> available[i] == available[1..][i - 1];
      Contains(available[0], model) || StartsWith(available[0], FirstField(model, ':')) || rest
  }

  /** An installed copy of the exact model, or of any tag of its base
      name, counts as installed. */
  lemma InstalledVariants(model: string, tag: string, available: seq<string>)
    requires model in available || FirstField(model, ':') + tag in available
    ensures IsModelInstalled(model, available)
  {
    if model in available {
      var i :| 0 <= i < |available| && available[i] == model;
      assert StartsWith(available[i], model);
    } else {
      var i :| 0 <= i < |available| && available[i] == FirstField(model, ':') + tag;
      assert available[i][..|FirstField(model, ':')|] == FirstField(model, ':');
    }
  }

  /** The first position in `candidates` whose model fits in `usable`
      GB, or `|candidates|` when none does. */
  function FirstFit(candidates: seq<string>, usable: real): (k: nat)
    ensures k <= |candidates|
    ensures k < |candidates| ==> RamRequirement(candidates[k]) as real <= usable
    ensures forall j :: 0 <= j < k ==> RamRequirement(candidates[j]) as real > usable
    decreases |candidates|
  {
    if candidates == [] then 0
    else if RamRequirement(candidates[0]) as real <= usable then 0
    else
      var k := FirstFit(candidates[1..], usable);
      assert forall j :: 1 <= j < |candidates| ==> candidates[j] == candidates[1..][j - 1];
      1 + k
  }

  /** Which explanation accompanies the recommendation. */
  datatype Advice = Installed | NeedsPull | Tight

  datatype Recommendation = Recommendation(model: string, advice: Advice)

  /** `recommend_model`: the best candidate of the tier that fits, noting
      whether it still has to be pulled; the tier's smallest model when
      nothing fits. */
  function RecommendModel(speed: string, ramGb: real, vramGb: Option<real>, appleSilicon: bool, available: seq<string>): (r: Recommendation)
    ensures var candidates := Candidates(speed);
      var usable := UsableMemory(ramGb, vramGb, appleSilicon);
      && r.model in candidates
      && (r.advice == Tight <==> forall j :: 0 <= j < |candidates| ==> RamRequirement(candidates[j]) as real > usable)
      && (r.advice == Tight ==> r.model == candidates[|candidates| - 1])
      && (r.advice != Tight ==> exists k :: (0 <= k < |candidates| && r.model == candidates[k]
            && RamRequirement(candidates[k]) as real <= usable
            && forall j :: 0 <= j < k ==> RamRequirement(candidates[j]) as real > usable))
      && (r.advice == Installed <==> r.advice != Tight && IsModelInstalled(r.model, available))
  {
    Pick(Candidates(speed), UsableMemory(ramGb, vramGb, appleSilicon), available)
  }

  /** The choice among some candidates, best first: the first that fits,
      or the last when none does. */
  function Pick(candidates: seq<string>, usable: real, available: seq<string>): (r: Recommendation)
    requires candidates != []
    ensures r.model in candidates
    ensures r.advice == Tight <==> forall j :: 0 <= j < |candidates| ==> RamRequirement(candidates[j]) as real > usable
    ensures r.advice == Tight ==> r.model == candidates[|candidates| - 1]
    ensures r.advice != Tight ==> exists k :: (0 <= k < |candidates| && r.model == candidates[k]
      && RamRequirement(candidates[k]) as real <= usable
      && forall j :: 0 <= j < k ==> RamRequirement(candidates[j]) as real > usable)
    ensures r.advice == Installed <==> r.advice != Tight && IsModelInstalled(r.model, available)
  {
    var k := FirstFit(candidates, usable);
    if k < |candidates| then
      var model := candidates[k];
      Recommendation(model, if IsModelInstalled(model, available) then Installed else NeedsPull)
    else
      Recommendation(candidates[|candidates| - 1], Tight)
  }

  /** What is installed changes only the explanation, never the model. */
  lemma InstalledOnlyChangesAdvice(speed: string, ramGb: real, vramGb: Option<real>, appleSilicon: bool, a1: seq<string>, a2: seq<string>)
    ensures RecommendModel(speed, ramGb, vramGb, appleSilicon, a1).model == RecommendModel(speed, ramGb, vramGb, appleSilicon, a2).model
    ensures (RecommendModel(speed, ramGb, vramGb, appleSilicon, a1).advice == Tight) == (RecommendModel(speed, ramGb, vramGb, appleSilicon, a2).advice == Tight)
  {
  }

  /** More memory never yields a model later in the tier. */
  lemma {:induction false} FirstFitMonotone(candidates: seq<string>, small: real, large: real)
    requires small <= large
    ensures FirstFit(candidates, large) <= FirstFit(candidates, small)
    decreases |candidates|
  {
    if candidates != [] && RamRequirement(candidates[0]) as real > large {
      FirstFitMonotone(candidates[1..], small, large);
    }
  }

  /** With 16 GB of RAM and no GPU the fast tier's best model fits. */
  lemma RoomyFastTier()
    ensures RecommendModel("fast", 16.0, None, false, []) == Recommendation("llama3.2:3b", NeedsPull)
  {
    assert RamRequirement("llama3.2:3b") == 4;
  }

  /** With 1 GB nothing in the fast tier fits and its smallest model is
      suggested. */
  lemma TightFastTier()
    ensures RecommendModel("fast", 1.0, None, false, []) == Recommendation("qwen2.5:0.5b", Tight)
  {
    var c := Candidates("fast");
    assert RamRequirement(c[0]) == 4 && RamRequirement(c[1]) == 4 && RamRequirement(c[2]) == 4 && RamRequirement(c[3]) == 2;
  }

  /** An unknown speed uses the medium tier. */
  lemma UnknownSpeedIsMedium()
    ensures RecommendModel("turbo", 16.0, None, false, []).model == "gemma2:9b"
  {
    assert RamRequirement("gemma2:9b") == 8;
  }
}

=== FILE: knowledge_base.dfy ===
/**
 * The pure parts of `src/core/knowledge_base.py`: chunking a document for
 * indexing, formatting retrieved points under a character budget, the
 * score filter of `retrieve`, the best-score merge and descending sort of
 * `retrieve_multi`, the model-mismatch check, the file-name filter of the
 * directory walk, and the row formatting of CSV extraction.
 *
 * The vector store is a value: whether the collection exists, and a total
 * function from (query text, limit) to the points the store returns.
 */
module KnowledgeBase {
  import opened Strings
  import opened Results
  import opened Paths
  import Chunker

  const CHUNK_TARGET_WORDS: int := 500

  /** File types the knowledge base indexes. */
  const SUPPORTED_EXTENSIONS: set<string> := {".txt", ".md", ".pdf", ".docx", ".html", ".htm", ".csv"}

  // ---------------------------------------------------------------------
  // _chunk_text

  /** A chunk to be indexed: its text, the file it came from and its
      position in that file. */
  datatype KbChunk = KbChunk(text: string, source: string, chunkIndex: nat)

  function ChunkKbText(text: string, source: string): seq<KbChunk> {
    Tagged(Chunker.Group(Chunker.Paragraphs(text), CHUNK_TARGET_WORDS), source)
  }

  /** Each group joined by blank lines, tagged with its source and numbered
      from 0. */
  function Tagged(groups: seq<seq<string>>, source: string): (r: seq<KbChunk>)
    ensures |r| == |groups|
    ensures forall i :: 0 <= i < |r| ==> r[i] == KbChunk(Join(groups[i], Chunker.PARAGRAPH_BREAK), source, i)
  {
    seq(|groups|, i requires 0 <= i < |groups| => KbChunk(Join(groups[i], Chunker.PARAGRAPH_BREAK), source, i))
  }

  /** `_chunk_text` applies the `chunk_text` rule with a 500-word budget:
      the same texts in the same order, numbered 0, 1, 2, ..., each tagged
      with the given source; a blank document gives no chunk. */
  lemma ChunkKbTextSpec(text: string, source: string)
    ensures |ChunkKbText(text, source)| == |Chunker.ChunkText(text, CHUNK_TARGET_WORDS)|
    ensures forall i :: 0 <= i < |ChunkKbText(text, source)| ==>
      && ChunkKbText(text, source)[i].text == Chunker.ChunkText(text, CHUNK_TARGET_WORDS)[i].text
      && ChunkKbText(text, source)[i].source == source
      && ChunkKbText(text, source)[i].chunkIndex == i
    ensures ChunkKbText(text, source) == [] <==> IsBlank(text)
  {
    Chunker.ChunkTextEmptyIffBlank(text, CHUNK_TARGET_WORDS);
  }

  // ---------------------------------------------------------------------
  // points and formatting

  /** A point's id in the store: Python allows `str | int`. */
  datatype PointId = IntId(n: int) | StrId(s: string)

  /** A query result: id, similarity score, the "source" metadata entry (if
      any) and the stored document text. */
  datatype Point = Point(id: PointId, score: real, source: Option<string>, document: string)

  /** `f"[From: {source}]\n{text}"`, with "unknown" for a missing source. */
  function PointPart(p: Point): string {
    "[From: " + p.source.GetOr("unknown") + "]\n" + p.document
  }

  /** Total length of a list of strings. */
  function SumLen(parts: seq<string>): nat
    decreases |parts|
  {
    if parts == [] then 0 else |parts[0]| + SumLen(parts[1..])
  }

  lemma {:induction false} SumLenAppend(xs: seq<string>, ys: seq<string>)
    ensures SumLen(xs + ys) == SumLen(xs) + SumLen(ys)
    decreases |xs|
  {
    if xs != [] {
      assert (xs + ys)[1..] == xs[1..] + ys;
      SumLenAppend(xs[1..], ys);
    } else {
      assert xs + ys == ys;
    }
  }

  /** The parts `_format_points` emits: the points that fit whole, and
      possibly one truncated part for the point that did not. */
  datatype Formatted = Formatted(whole: seq<string>, truncated: Option<string>)

  function AllParts(f: Formatted): seq<string> {
    f.whole + (if f.truncated.Some? then [f.truncated.value] else [])
  }

  /** The loop of `_format_points` from some point on; `total` is the length
      of what has been emitted so far. */
  function FormatFrom(points: seq<Point>, maxChars: int, total: int): Formatted
    decreases |points|
  {
    if points == [] then Formatted([], None)
    else
      var part := PointPart(points[0]);
      if total + |part| > maxChars then
        var remaining := maxChars - total;
        if remaining > 100 then Formatted([], Some(part[..remaining] + "...")) else Formatted([], None)
      else
        var rest := FormatFrom(points[1..], maxChars, total + |part|);
        Formatted([part] + rest.whole, rest.truncated)
  }

  function FormatParts(points: seq<Point>, maxChars: int): Formatted {
    FormatFrom(points, maxChars, 0)
  }

  /** `_format_points`: the emitted parts joined by blank lines. */
  function FormatPoints(points: seq<Point>, maxChars: int): string {
    Join(AllParts(FormatParts(points, maxChars)), "\n\n")
  }

  /** The whole parts are the parts of the first points, in order. */
  predicate WholePrefix(f: Formatted, points: seq<Point>) {
    && |f.whole| <= |points|
    && forall i :: 0 <= i < |f.whole| ==> f.whole[i] == PointPart(points[i])
  }

  /** The whole parts fit after `total` characters; the next part does not. */
  predicate FitsAfter(f: Formatted, points: seq<Point>, maxChars: int, total: int) {
    && |f.whole| <= |points|
    && total + SumLen(f.whole) <= maxChars
    && (|f.whole| < |points| ==> total + SumLen(f.whole) + |PointPart(points[|f.whole|])| > maxChars)
  }

  /** A truncated part is the next point's part cut to the room left, and
      appears exactly when more than 100 characters of room are left. */
  predicate TailAfter(f: Formatted, points: seq<Point>, maxChars: int, total: int) {
    var remaining := maxChars - total - SumLen(f.whole);
    && |f.whole| <= |points|
    && (f.truncated.Some? ==>
          && |f.whole| < |points|
          && 100 < remaining < |PointPart(points[|f.whole|])|
          && f.truncated.value == PointPart(points[|f.whole|])[..remaining] + "...")
    && (f.truncated.None? && |f.whole| < |points| ==> remaining <= 100)
  }

  lemma {:induction false} FormatFromPrefix(points: seq<Point>, maxChars: int, total: int)
    ensures WholePrefix(FormatFrom(points, maxChars, total), points)
    decreases |points|
  {
    if points != [] {
      var part := PointPart(points[0]);
      if total + |part| <= maxChars {
        var rest := FormatFrom(points[1..], maxChars, total + |part|);
        FormatFromPrefix(points[1..], maxChars, total + |part|);
        var f := FormatFrom(points, maxChars, total);
        assert f.whole == [part] + rest.whole;
        forall i | 1 <= i < |f.whole| ensures f.whole[i] == PointPart(points[i]) {
          assert f.whole[i] == rest.whole[i - 1];
          assert points[1..][i - 1] == points[i];
        }
      }
    }
  }

  lemma {:induction false} FormatFromFits(points: seq<Point>, maxChars: int, total: int)
    requires total <= maxChars
    ensures FitsAfter(FormatFrom(points, maxChars, total), points, maxChars, total)
    ensures TailAfter(FormatFrom(points, maxChars, total), points, maxChars, total)
    decreases |points|
  {
    if points != [] {
      var part := PointPart(points[0]);
      if total + |part| <= maxChars {
        var rest := FormatFrom(points[1..], maxChars, total + |part|);
        FormatFromFits(points[1..], maxChars, total + |part|);
        var f := FormatFrom(points, maxChars, total);
        assert f.whole == [part] + rest.whole;
        assert f.truncated == rest.truncated;
        assert ([part] + rest.whole)[1..] == rest.whole;
        assert SumLen(f.whole) == |part| + SumLen(rest.whole);
        if |f.whole| < |points| {
          assert points[|f.whole|] == points[1..][|rest.whole|];
        }
      }
    }
  }

  /** `_format_points` keeps the point order: the whole parts are the parts
      of a prefix of the points, they fit in `maxChars`, the next point's
      part does not, and a truncated part (suffix "...") follows only when
      more than 100 characters remain, cut to exactly those characters.
      Everything emitted, separators excluded, is at most `maxChars + 3`. */
  lemma FormatPartsSpec(points: seq<Point>, maxChars: int)
    ensures WholePrefix(FormatParts(points, maxChars), points)
    ensures maxChars >= 0 ==>
      && FitsAfter(FormatParts(points, maxChars), points, maxChars, 0)
      && TailAfter(FormatParts(points, maxChars), points, maxChars, 0)
    ensures maxChars < 0 ==> FormatParts(points, maxChars) == Formatted([], None)
    ensures AllParts(FormatParts(points, maxChars)) != [] ==>
      SumLen(AllParts(FormatParts(points, maxChars))) <= maxChars + 3
  {
    var f := FormatParts(points, maxChars);
    FormatFromPrefix(points, maxChars, 0);
    if maxChars >= 0 {
      FormatFromFits(points, maxChars, 0);
      if f.truncated.Some? {
        assert AllParts(f) == f.whole + [f.truncated.value];
        SumLenAppend(f.whole, [f.truncated.value]);
        assert SumLen([f.truncated.value]) == |f.truncated.value|;
        assert |f.truncated.value| == maxChars - SumLen(f.whole) + 3;
      } else {
        assert AllParts(f) == f.whole;
      }
    } else if points != [] {
      assert |PointPart(points[0])| >= 0;
    }
  }

  // ---------------------------------------------------------------------
  // retrieve

  /** The vector store as the model sees it. */
  datatype Store = Store(indexed: bool, query: (string, int) -> seq<Point>)

  /** The results that pass the score threshold, in client order. */
  function Passing(points: seq<Point>, minScore: real): seq<Point>
    decreases |points|
  {
    if points == [] then []
    else (if Reaches(points[0], minScore) then [points[0]] else []) + Passing(points[1..], minScore)
  }

  /** `p.score >= min_score`. */
  predicate Reaches(p: Point, minScore: real) {
    p.score >= minScore
  }

  /** The filter keeps exactly the points reaching `minScore`. */
  lemma {:induction false} PassingSpec(points: seq<Point>, minScore: real)
    ensures |Passing(points, minScore)| <= |points|
    ensures forall p :: p in Passing(points, minScore) <==> p in points && p.score >= minScore
    decreases |points|
  {
    if points != [] {
      PassingSpec(points[1..], minScore);
      assert points == [points[0]] + points[1..];
    }
  }

  /** The filter keeps client order: it commutes with concatenation. */
  lemma {:induction false} PassingAppend(xs: seq<Point>, ys: seq<Point>, minScore: real)
    ensures Passing(xs + ys, minScore) == Passing(xs, minScore) + Passing(ys, minScore)
    decreases |xs|
  {
    if xs != [] {
      assert (xs + ys)[1..] == xs[1..] + ys;
      PassingAppend(xs[1..], ys, minScore);
    } else {
      assert xs + ys == ys;
    }
  }

  /** `retrieve`: "" when the collection is missing or no result reaches
      `minScore`; otherwise exactly the passing results, formatted in the
      order the client returned them. */
  function Retrieve(store: Store, query: string, topK: int, maxChars: int, minScore: real): (r: string)
    ensures !store.indexed ==> r == ""
    ensures (forall p :: p in store.query(query, topK) ==> p.score < minScore) ==> r == ""
    ensures store.indexed && (exists p :: p in store.query(query, topK) && p.score >= minScore) ==>
      r == FormatPoints(Passing(store.query(query, topK), minScore), maxChars)
  {
    if !store.indexed then ""
    else
      var results := store.query(query, topK);
      if results == [] then ""
      else
        var passing := Passing(results, minScore);
        if passing == [] then ""
        else
          PassingSpec(results, minScore);
          assert passing[0] in passing;
          FormatPoints(passing, maxChars)
  }

  // ---------------------------------------------------------------------
  // retrieve_multi: best score per point id

  /** Position of the entry with this id, or `|best|` when there is none. */
  function IdIndex(best: seq<Point>, id: PointId): (k: nat)
    ensures k <= |best|
    ensures k < |best| ==> best[k].id == id
    decreases |best|
  {
    if best == [] then 0 else if best[0].id == id then 0 else 1 + IdIndex(best[1..], id)
  }

  /** No entry before `IdIndex` has the id. */
  lemma {:induction false} IdIndexFirst(best: seq<Point>, id: PointId, j: int)
    requires 0 <= j < IdIndex(best, id)
    ensures best[j].id != id
    decreases |best|
  {
    if j > 0 {
      IdIndexFirst(best[1..], id, j - 1);
    }
  }

  predicate HasId(best: seq<Point>, id: PointId) {
    exists i :: 0 <= i < |best| && best[i].id == id
  }

  lemma IdIndexHasId(best: seq<Point>, id: PointId)
    ensures IdIndex(best, id) < |best| <==> HasId(best, id)
  {
    if IdIndex(best, id) < |best| {
      assert best[IdIndex(best, id)].id == id;
    } else {
      forall j | 0 <= j < |best| ensures best[j].id != id {
        IdIndexFirst(best, id, j);
      }
    }
  }

  lemma IdIndexAtMost(best: seq<Point>, i: int)
    requires 0 <= i < |best|
    ensures IdIndex(best, best[i].id) <= i
  {
    if IdIndex(best, best[i].id) > i {
      IdIndexFirst(best, best[i].id, i);
    }
  }

  /** Position of the first point with this id, or `|points|`. */
  function FirstSeen(points: seq<Point>, id: PointId): nat {
    IdIndex(points, id)
  }

  /** One step of the merge: a new id is appended (Python dicts keep
      insertion order); a known id is overwritten only by a strictly higher
      score. */
  function Absorb(best: seq<Point>, p: Point): seq<Point> {
    var k := IdIndex(best, p.id);
    if k == |best| then best + [p]
    else if p.score > best[k].score then best[k := p]
    else best
  }

  function AbsorbAll(best: seq<Point>, points: seq<Point>): seq<Point>
    decreases |points|
  {
    if points == [] then best else AbsorbAll(Absorb(best, points[0]), points[1..])
  }

  /** Everything the store returned, query after query. */
  function AllResults(store: Store, queries: seq<string>, topK: int): seq<Point>
    decreases |queries|
  {
    if queries == [] then [] else store.query(queries[0], topK) + AllResults(store, queries[1..], topK)
  }

  /** The nested loop of `retrieve_multi`: every query's results merged in
      turn. */
  function AbsorbQueries(best: seq<Point>, store: Store, queries: seq<string>, topK: int): seq<Point>
    decreases |queries|
  {
    if queries == [] then best
    else AbsorbQueries(AbsorbAll(best, store.query(queries[0], topK)), store, queries[1..], topK)
  }

  predicate UniqueIds(best: seq<Point>) {
    forall i, j :: 0 <= i < j < |best| ==> best[i].id != best[j].id
  }

  /** Every id seen has an entry. */
  predicate Covers(best: seq<Point>, seen: seq<Point>) {
    forall j :: 0 <= j < |seen| ==> HasId(best, seen[j].id)
  }

  /** Every entry is a point that was seen. */
  predicate Drawn(best: seq<Point>, seen: seq<Point>) {
    forall i :: 0 <= i < |best| ==> best[i] in seen
  }

  /** Every entry has the top score seen for its id, and is no later than
      any other point reaching that score. */
  predicate Maximal(best: seq<Point>, seen: seq<Point>) {
    forall i, j :: 0 <= i < |best| && 0 <= j < |seen| && seen[j].id == best[i].id ==>
      && seen[j].score <= best[i].score
      && (seen[j].score == best[i].score ==> best[i] in seen[..j + 1])
  }

  /** Entries are in the order their ids were first seen. */
  predicate Ordered(best: seq<Point>, seen: seq<Point>) {
    forall i, j :: 0 <= i < j < |best| ==> FirstSeen(seen, best[i].id) < FirstSeen(seen, best[j].id)
  }

  /** The merge invariant after the points `seen`. */
  predicate BestOf(best: seq<Point>, seen: seq<Point>) {
    UniqueIds(best) && Covers(best, seen) && Drawn(best, seen) && Maximal(best, seen) && Ordered(best, seen)
  }

  lemma {:induction false} FirstSeenAppend(seen: seq<Point>, p: Point, id: PointId)
    ensures FirstSeen(seen + [p], id) == if FirstSeen(seen, id) < |seen| then FirstSeen(seen, id)
                                         else if p.id == id then |seen| else |seen| + 1
    decreases |seen|
  {
    if seen != [] {
      assert (seen + [p])[0] == seen[0];
      assert (seen + [p])[1..] == seen[1..] + [p];
      FirstSeenAppend(seen[1..], p, id);
    } else {
      assert seen + [p] == [p];
    }
  }

  lemma AbsorbUnique(best: seq<Point>, p: Point)
    requires UniqueIds(best)
    ensures UniqueIds(Absorb(best, p))
  {
    var k := IdIndex(best, p.id);
    IdIndexHasId(best, p.id);
    if k < |best| && p.score > best[k].score {
      var best' := best[k := p];
      assert forall i :: 0 <= i < |best| ==> best'[i].id == best[i].id;
    }
  }

  lemma AbsorbCovers(best: seq<Point>, seen: seq<Point>, p: Point)
    requires Covers(best, seen)
    ensures Covers(Absorb(best, p), seen + [p])
  {
    var seen' := seen + [p];
    var best' := Absorb(best, p);
    var k := IdIndex(best, p.id);
    forall j | 0 <= j < |seen'| ensures HasId(best', seen'[j].id) {
      if j < |seen| {
        assert seen'[j] == seen[j];
        var i :| 0 <= i < |best| && best[i].id == seen[j].id;
        assert best'[i].id == best[i].id;
      } else if k == |best| {
        assert best'[|best|].id == p.id;
      } else {
        assert best'[k].id == p.id;
      }
    }
  }

  lemma AbsorbDrawn(best: seq<Point>, seen: seq<Point>, p: Point)
    requires Drawn(best, seen)
    ensures Drawn(Absorb(best, p), seen + [p])
  {
    var best' := Absorb(best, p);
    forall i | 0 <= i < |best'| ensures best'[i] in seen + [p] {
      if i < |best| && best'[i] == best[i] {
        assert best[i] in seen;
      }
    }
  }

  /** The points seen before `p` keep their bound after `p` is merged. */
  lemma AbsorbMaximalOld(best: seq<Point>, seen: seq<Point>, p: Point)
    requires Covers(best, seen) && Maximal(best, seen)
    ensures var seen' := seen + [p];
      var best' := Absorb(best, p);
      forall i, j :: 0 <= i < |best'| && 0 <= j < |seen| && seen'[j].id == best'[i].id ==>
        && seen'[j].score <= best'[i].score
        && (seen'[j].score == best'[i].score ==> best'[i] in seen'[..j + 1])
  {
    var seen' := seen + [p];
    var best' := Absorb(best, p);
    var k := IdIndex(best, p.id);
    IdIndexHasId(best, p.id);
    forall i, j | 0 <= i < |best'| && 0 <= j < |seen| && seen'[j].id == best'[i].id
      ensures seen'[j].score <= best'[i].score
      ensures seen'[j].score == best'[i].score ==> best'[i] in seen'[..j + 1]
    {
      assert seen'[j] == seen[j];
      assert seen'[..j + 1] == seen[..j + 1];
      if i < |best| && best'[i] != best[i] {
        assert i == k && best'[i] == p;
        assert seen[j].id == best[k].id;
      }
    }
  }

  /** `p` itself is bounded by the entry for its id after the merge. */
  lemma AbsorbMaximalNew(best: seq<Point>, seen: seq<Point>, p: Point)
    requires UniqueIds(best) && Drawn(best, seen)
    ensures var best' := Absorb(best, p);
      forall i :: 0 <= i < |best'| && p.id == best'[i].id ==>
        && p.score <= best'[i].score
        && (p.score == best'[i].score ==> best'[i] in seen + [p])
  {
    var best' := Absorb(best, p);
    var k := IdIndex(best, p.id);
    forall i | 0 <= i < |best'| && p.id == best'[i].id
      ensures p.score <= best'[i].score
      ensures p.score == best'[i].score ==> best'[i] in seen + [p]
    {
      if best'[i] != p {
        assert i < |best| && best'[i] == best[i];
        if i < k {
          IdIndexFirst(best, p.id, i);
        }
        assert best[i] in seen;
      }
    }
  }

  lemma AbsorbMaximal(best: seq<Point>, seen: seq<Point>, p: Point)
    requires UniqueIds(best) && Covers(best, seen) && Drawn(best, seen) && Maximal(best, seen)
    ensures Maximal(Absorb(best, p), seen + [p])
  {
    var seen' := seen + [p];
    var best' := Absorb(best, p);
    AbsorbMaximalOld(best, seen, p);
    AbsorbMaximalNew(best, seen, p);
    forall i, j | 0 <= i < |best'| && 0 <= j < |seen'| && seen'[j].id == best'[i].id
      ensures seen'[j].score <= best'[i].score
      ensures seen'[j].score == best'[i].score ==> best'[i] in seen'[..j + 1]
    {
      if j == |seen| {
        assert seen'[j] == p;
        assert seen'[..j + 1] == seen';
      }
    }
  }

  /** Points already seen keep the position where their id first
      appeared. */
  lemma FirstSeenKept(best: seq<Point>, seen: seq<Point>, p: Point)
    requires Drawn(best, seen)
    ensures forall i :: 0 <= i < |best| ==> FirstSeen(seen + [p], best[i].id) == FirstSeen(seen, best[i].id) < |seen|
  {
    forall i | 0 <= i < |best| ensures FirstSeen(seen + [p], best[i].id) == FirstSeen(seen, best[i].id) < |seen| {
      var m :| 0 <= m < |seen| && seen[m] == best[i];
      IdIndexAtMost(seen, m);
      FirstSeenAppend(seen, p, best[i].id);
    }
  }

  /** Seeing one more point keeps the order of the entries. */
  lemma OrderedExtend(best: seq<Point>, seen: seq<Point>, p: Point)
    requires Drawn(best, seen) && Ordered(best, seen)
    ensures Ordered(best, seen + [p])
  {
    FirstSeenKept(best, seen, p);
  }

  /** An id no entry has was first seen at the point just added. */
  lemma FirstSeenNew(best: seq<Point>, seen: seq<Point>, p: Point)
    requires Covers(best, seen) && IdIndex(best, p.id) == |best|
    ensures FirstSeen(seen + [p], p.id) == |seen|
  {
    IdIndexHasId(best, p.id);
    IdIndexHasId(seen, p.id);
    FirstSeenAppend(seen, p, p.id);
  }

  /** An entry whose id was seen after all others may go last. */
  lemma OrderedAppend(best: seq<Point>, seen: seq<Point>, p: Point)
    requires Ordered(best, seen)
    requires forall i :: 0 <= i < |best| ==> FirstSeen(seen, best[i].id) < FirstSeen(seen, p.id)
    ensures Ordered(best + [p], seen)
  {
    var best' := best + [p];
    forall i, j | 0 <= i < j < |best'| ensures FirstSeen(seen, best'[i].id) < FirstSeen(seen, best'[j].id) {
      assert best'[i] == best[i];
      if j < |best| {
        assert best'[j] == best[j];
      }
    }
  }

  /** A new id goes last, and it was seen last. */
  lemma AbsorbOrderedNew(best: seq<Point>, seen: seq<Point>, p: Point)
    requires Covers(best, seen) && Drawn(best, seen) && Ordered(best, seen)
    requires IdIndex(best, p.id) == |best|
    ensures Ordered(Absorb(best, p), seen + [p])
  {
    FirstSeenKept(best, seen, p);
    FirstSeenNew(best, seen, p);
    OrderedExtend(best, seen, p);
    OrderedAppend(best, seen + [p], p);
  }

  lemma AbsorbOrdered(best: seq<Point>, seen: seq<Point>, p: Point)
    requires UniqueIds(best) && Covers(best, seen) && Drawn(best, seen) && Ordered(best, seen)
    ensures Ordered(Absorb(best, p), seen + [p])
  {
    var k := IdIndex(best, p.id);
    if k == |best| {
      AbsorbOrderedNew(best, seen, p);
    } else {
      var best' := Absorb(best, p);
      FirstSeenKept(best, seen, p);
      assert |best'| == |best| && forall i :: 0 <= i < |best| ==> best'[i].id == best[i].id;
    }
  }

  lemma AbsorbKeepsBest(best: seq<Point>, seen: seq<Point>, p: Point)
    requires BestOf(best, seen)
    ensures BestOf(Absorb(best, p), seen + [p])
  {
    AbsorbUnique(best, p);
    AbsorbCovers(best, seen, p);
    AbsorbDrawn(best, seen, p);
    AbsorbMaximal(best, seen, p);
    AbsorbOrdered(best, seen, p);
  }

  /** Moving the first point of `points` onto `seen`. */
  lemma AppendFirst(seen: seq<Point>, points: seq<Point>)
    ensures points != [] ==> seen + [points[0]] + points[1..] == seen + points
    ensures points == [] ==> seen + points == seen
  {
    if points != [] {
      assert points == [points[0]] + points[1..];
    }
  }

  lemma {:induction false} AbsorbAllKeepsBest(best: seq<Point>, seen: seq<Point>, points: seq<Point>)
    requires BestOf(best, seen)
    ensures BestOf(AbsorbAll(best, points), seen + points)
    decreases |points|
  {
    if points != [] {
      var best1 := Absorb(best, points[0]);
      var seen1 := seen + [points[0]];
      AbsorbKeepsBest(best, seen, points[0]);
      AbsorbAllKeepsBest(best1, seen1, points[1..]);
      AppendFirst(seen, points);
    } else {
      AppendFirst(seen, points);
    }
  }

  lemma {:induction false} AbsorbAllAppend(best: seq<Point>, xs: seq<Point>, ys: seq<Point>)
    ensures AbsorbAll(best, xs + ys) == AbsorbAll(AbsorbAll(best, xs), ys)
    decreases |xs|
  {
    if xs != [] {
      assert (xs + ys)[0] == xs[0];
      assert (xs + ys)[1..] == xs[1..] + ys;
      AbsorbAllAppend(Absorb(best, xs[0]), xs[1..], ys);
    } else {
      assert xs + ys == ys;
    }
  }

  /** Merging query by query is merging all results in one pass. */
  lemma {:induction false} AbsorbQueriesIsAbsorbAll(best: seq<Point>, store: Store, queries: seq<string>, topK: int)
    ensures AbsorbQueries(best, store, queries, topK) == AbsorbAll(best, AllResults(store, queries, topK))
    decreases |queries|
  {
    if queries != [] {
      var first := store.query(queries[0], topK);
      AbsorbQueriesIsAbsorbAll(AbsorbAll(best, first), store, queries[1..], topK);
      AbsorbAllAppend(best, first, AllResults(store, queries[1..], topK));
    }
  }

  /** The merged map of `retrieve_multi`, in insertion order. */
  function BestPoints(store: Store, queries: seq<string>, topK: int): seq<Point> {
    AbsorbQueries([], store, queries, topK)
  }

  /** The merge keeps each id once, with the maximum score any query gave
      it; on equal scores the first point seen is kept; entries are in the
      order their ids were first seen. */
  lemma BestPointsSpec(store: Store, queries: seq<string>, topK: int)
    ensures BestOf(BestPoints(store, queries, topK), AllResults(store, queries, topK))
  {
    AbsorbQueriesIsAbsorbAll([], store, queries, topK);
    BestOfAbsorbAll(AllResults(store, queries, topK));
  }

  lemma BestOfAbsorbAll(all: seq<Point>)
    ensures BestOf(AbsorbAll([], all), all)
  {
    BestOfEmpty();
    AbsorbAllKeepsBest([], [], all);
    var seen: seq<Point> := [] + all;
    assert seen == all;
  }

  lemma BestOfEmpty()
    ensures BestOf([], [])
  {
  }

  // ---------------------------------------------------------------------
  // retrieve_multi: stable descending sort

  /** Insert `p` before the first entry whose score does not exceed its own. */
  function InsertByScore(p: Point, sorted: seq<Point>): seq<Point>
    decreases |sorted|
  {
    if sorted == [] || p.score >= sorted[0].score then [p] + sorted
    else [sorted[0]] + InsertByScore(p, sorted[1..])
  }

  /** `sort(key=score, reverse=True)`, which Python keeps stable. */
  function SortByScore(points: seq<Point>): seq<Point>
    decreases |points|
  {
    if points == [] then [] else InsertByScore(points[0], SortByScore(points[1..]))
  }

  /** `a` may precede `b`: a higher score, or the same score and an earlier
      rank. */
  predicate Precedes(a: Point, b: Point, rank: PointId -> int) {
    a.score > b.score || (a.score == b.score && rank(a.id) < rank(b.id))
  }

  predicate SortedDesc(points: seq<Point>, rank: PointId -> int) {
    forall i, j :: 0 <= i < j < |points| ==> Precedes(points[i], points[j], rank)
  }

  predicate RankIncreasing(points: seq<Point>, rank: PointId -> int) {
    forall i, j :: 0 <= i < j < |points| ==> rank(points[i].id) < rank(points[j].id)
  }

  lemma {:induction false} InsertByScorePerm(p: Point, sorted: seq<Point>)
    ensures multiset(InsertByScore(p, sorted)) == multiset(sorted) + multiset{p}
    decreases |sorted|
  {
    if sorted != [] && p.score < sorted[0].score {
      InsertByScorePerm(p, sorted[1..]);
      assert sorted == [sorted[0]] + sorted[1..];
    }
  }

  /** Inserting a point that has a property into points that all have it
      gives points that all have it. */
  lemma {:induction false} InsertByScoreAll(p: Point, sorted: seq<Point>, P: Point -> bool)
    requires P(p)
    requires forall i :: 0 <= i < |sorted| ==> P(sorted[i])
    ensures forall i :: 0 <= i < |InsertByScore(p, sorted)| ==> P(InsertByScore(p, sorted)[i])
    decreases |sorted|
  {
    if sorted != [] && p.score < sorted[0].score {
      assert forall i :: 0 <= i < |sorted[1..]| ==> sorted[1..][i] == sorted[i + 1];
      InsertByScoreAll(p, sorted[1..], P);
      var tail := InsertByScore(p, sorted[1..]);
      assert forall i :: 1 <= i < |tail| + 1 ==> ([sorted[0]] + tail)[i] == tail[i - 1];
    } else {
      assert forall i :: 1 <= i < |sorted| + 1 ==> ([p] + sorted)[i] == sorted[i - 1];
    }
  }

  lemma {:induction false} InsertByScoreSorted(p: Point, sorted: seq<Point>, rank: PointId -> int)
    requires SortedDesc(sorted, rank)
    requires forall i :: 0 <= i < |sorted| ==> rank(p.id) < rank(sorted[i].id)
    ensures SortedDesc(InsertByScore(p, sorted), rank)
    decreases |sorted|
  {
    if sorted != [] && p.score < sorted[0].score {
      var tail := InsertByScore(p, sorted[1..]);
      assert forall i :: 0 <= i < |sorted[1..]| ==> sorted[1..][i] == sorted[i + 1];
      InsertByScoreSorted(p, sorted[1..], rank);
      var P := (x: Point) => Precedes(sorted[0], x, rank);
      InsertByScoreAll(p, sorted[1..], P);
      var r := [sorted[0]] + tail;
      assert forall j :: 1 <= j < |r| ==> r[j] == tail[j - 1];
    } else if sorted != [] {
      var r := [p] + sorted;
      assert forall j :: 1 <= j < |r| ==> r[j] == sorted[j - 1];
    }
  }

  lemma {:induction false} InsertByScoreUnique(p: Point, sorted: seq<Point>)
    requires UniqueIds(sorted)
    requires forall i :: 0 <= i < |sorted| ==> sorted[i].id != p.id
    ensures UniqueIds(InsertByScore(p, sorted))
    decreases |sorted|
  {
    if sorted != [] && p.score < sorted[0].score {
      var tail := InsertByScore(p, sorted[1..]);
      assert forall i :: 0 <= i < |sorted[1..]| ==> sorted[1..][i] == sorted[i + 1];
      InsertByScoreUnique(p, sorted[1..]);
      var P := (x: Point) => x.id != sorted[0].id;
      InsertByScoreAll(p, sorted[1..], P);
      var r := [sorted[0]] + tail;
      assert forall j :: 1 <= j < |r| ==> r[j] == tail[j - 1];
    } else {
      var r := [p] + sorted;
      assert forall j :: 1 <= j < |r| ==> r[j] == sorted[j - 1];
    }
  }

  /** Sorting keeps exactly the same points. */
  lemma {:induction false} SortByScorePerm(points: seq<Point>)
    ensures multiset(SortByScore(points)) == multiset(points)
    ensures forall p :: p in SortByScore(points) <==> p in points
    decreases |points|
  {
    if points != [] {
      var rest := SortByScore(points[1..]);
      SortByScorePerm(points[1..]);
      InsertByScorePerm(points[0], rest);
      assert points == [points[0]] + points[1..];
      assert multiset(points) == multiset(points[1..]) + multiset{points[0]};
    }
    SameMembers(SortByScore(points), points);
  }

  /** Sequences with the same multiset have the same members. */
  lemma SameMembers(a: seq<Point>, b: seq<Point>)
    requires multiset(a) == multiset(b)
    ensures forall p :: p in a <==> p in b
  {
    forall p ensures p in a <==> p in b {
      assert p in a <==> p in multiset(a);
      assert p in b <==> p in multiset(b);
    }
  }

  /** Sorting orders the points by non-increasing score and keeps equal
      scores in their original order (for any `rank` that increases along
      the input); the ids stay distinct. */
  lemma {:induction false} SortByScoreSpec(points: seq<Point>, rank: PointId -> int)
    requires RankIncreasing(points, rank)
    ensures SortedDesc(SortByScore(points), rank)
    ensures UniqueIds(SortByScore(points))
    decreases |points|
  {
    if points != [] {
      var rest := SortByScore(points[1..]);
      SortByScoreSpec(points[1..], rank);
      SortByScorePerm(points[1..]);
      forall i | 0 <= i < |rest| ensures rank(points[0].id) < rank(rest[i].id) {
        assert rest[i] in points[1..];
        var k :| 0 <= k < |points[1..]| && points[1..][k] == rest[i];
        assert points[k + 1] == rest[i];
      }
      InsertByScoreSorted(points[0], rest, rank);
      InsertByScoreUnique(points[0], rest);
    }
  }

  /** The points `retrieve_multi` formats: merged, filtered, sorted. */
  function RankedPoints(store: Store, queries: seq<string>, topK: int, minScore: real): seq<Point> {
    SortByScore(Passing(BestPoints(store, queries, topK), minScore))
  }

  /** `retrieve_multi` returns "" when the collection is missing or nothing
      qualifies, and formats the ranked points otherwise. */
  function RetrieveMulti(store: Store, queries: seq<string>, topK: int, maxChars: int, minScore: real): (r: string)
    ensures !store.indexed ==> r == ""
    ensures (forall p :: p in AllResults(store, queries, topK) ==> p.score < minScore) ==> r == ""
    ensures store.indexed && RankedPoints(store, queries, topK, minScore) != [] ==>
      r == FormatPoints(RankedPoints(store, queries, topK, minScore), maxChars)
  {
    if !store.indexed then ""
    else
      var ranked := RankedPoints(store, queries, topK, minScore);
      if ranked == [] then ""
      else
        RankedPointsDrawn(store, queries, topK, minScore);
        assert ranked[0] in AllResults(store, queries, topK);
        FormatPoints(ranked, maxChars)
  }

  lemma RankIncreasingTail(points: seq<Point>, rank: PointId -> int)
    requires points != [] && RankIncreasing(points, rank)
    ensures RankIncreasing(points[1..], rank)
    ensures forall j :: 1 <= j < |points| ==> rank(points[0].id) < rank(points[j].id)
  {
    var tail := points[1..];
    forall i, j | 0 <= i < j < |tail| ensures rank(tail[i].id) < rank(tail[j].id) {
      assert tail[i] == points[i + 1] && tail[j] == points[j + 1];
    }
  }

  lemma RankIncreasingCons(p: Point, rest: seq<Point>, rank: PointId -> int)
    requires RankIncreasing(rest, rank)
    requires forall j :: 0 <= j < |rest| ==> rank(p.id) < rank(rest[j].id)
    ensures RankIncreasing([p] + rest, rank)
  {
    var r := [p] + rest;
    forall i, j | 0 <= i < j < |r| ensures rank(r[i].id) < rank(r[j].id) {
      assert r[j] == rest[j - 1];
      if i > 0 {
        assert r[i] == rest[i - 1];
      }
    }
  }

  /** Filtering keeps the entries in their order. */
  lemma {:induction false} PassingKeepsOrder(best: seq<Point>, rank: PointId -> int, minScore: real)
    requires RankIncreasing(best, rank)
    ensures RankIncreasing(Passing(best, minScore), rank)
    decreases |best|
  {
    if best != [] {
      RankIncreasingTail(best, rank);
      PassingKeepsOrder(best[1..], rank, minScore);
      var rest := Passing(best[1..], minScore);
      if best[0].score >= minScore {
        PassingSpec(best[1..], minScore);
        forall j | 0 <= j < |rest| ensures rank(best[0].id) < rank(rest[j].id) {
          assert rest[j] in best[1..];
          var k :| 0 <= k < |best[1..]| && best[1..][k] == rest[j];
          assert best[k + 1] == rest[j];
        }
        RankIncreasingCons(best[0], rest, rank);
      } else {
        assert Passing(best, minScore) == [] + rest;
      }
    }
  }

  /** Keeping some of the entries keeps them drawn from `seen`. */
  lemma SubsetKeepsDrawn(a: seq<Point>, b: seq<Point>, seen: seq<Point>)
    requires forall i :: 0 <= i < |b| ==> b[i] in a
    requires Drawn(a, seen)
    ensures Drawn(b, seen)
  {
    forall i | 0 <= i < |b| ensures b[i] in seen {
      var k :| 0 <= k < |a| && a[k] == b[i];
    }
  }

  /** Keeping some of the entries keeps them maximal. */
  lemma SubsetKeepsMaximal(a: seq<Point>, b: seq<Point>, seen: seq<Point>)
    requires forall i :: 0 <= i < |b| ==> b[i] in a
    requires Maximal(a, seen)
    ensures Maximal(b, seen)
  {
    forall i, j | 0 <= i < |b| && 0 <= j < |seen| && seen[j].id == b[i].id
      ensures seen[j].score <= b[i].score
      ensures seen[j].score == b[i].score ==> b[i] in seen[..j + 1]
    {
      var k :| 0 <= k < |a| && a[k] == b[i];
      assert seen[j].id == a[k].id;
    }
  }

  /** The filtered merge is in first-seen order. */
  lemma PassingBestOrdered(store: Store, queries: seq<string>, topK: int, minScore: real)
    ensures RankIncreasing(Passing(BestPoints(store, queries, topK), minScore),
                           id => FirstSeen(AllResults(store, queries, topK), id))
  {
    var all := AllResults(store, queries, topK);
    var best := BestPoints(store, queries, topK);
    BestPointsSpec(store, queries, topK);
    var rank := id => FirstSeen(all, id);
    assert RankIncreasing(best, rank) by {
      assert Ordered(best, all);
    }
    PassingKeepsOrder(best, rank, minScore);
  }

  /** Every ranked point is one the store returned, reaching `minScore`,
      with the top score seen for its id (the first such point on a tie). */
  lemma RankedPointsDrawn(store: Store, queries: seq<string>, topK: int, minScore: real)
    ensures var ranked := RankedPoints(store, queries, topK, minScore);
      && (forall i :: 0 <= i < |ranked| ==> ranked[i].score >= minScore)
      && Drawn(ranked, AllResults(store, queries, topK))
      && Maximal(ranked, AllResults(store, queries, topK))
  {
    var all := AllResults(store, queries, topK);
    var best := BestPoints(store, queries, topK);
    BestPointsSpec(store, queries, topK);
    var passing := Passing(best, minScore);
    PassingSpec(best, minScore);
    SortByScorePerm(passing);
    var ranked := SortByScore(passing);
    forall i | 0 <= i < |ranked| ensures ranked[i] in best && ranked[i].score >= minScore {
      assert ranked[i] in passing;
    }
    SubsetKeepsDrawn(best, ranked, all);
    SubsetKeepsMaximal(best, ranked, all);
  }

  /** Each id appears once among the ranked points, and they come in
      non-increasing score order, ties in the order their ids were first
      seen. */
  lemma RankedPointsSorted(store: Store, queries: seq<string>, topK: int, minScore: real)
    ensures UniqueIds(RankedPoints(store, queries, topK, minScore))
    ensures SortedDesc(RankedPoints(store, queries, topK, minScore),
                       id => FirstSeen(AllResults(store, queries, topK), id))
  {
    var all := AllResults(store, queries, topK);
    PassingBestOrdered(store, queries, topK, minScore);
    SortByScoreSpec(Passing(BestPoints(store, queries, topK), minScore), id => FirstSeen(all, id));
  }

  /** An id seen with a score of at least `minScore` survives the filter
      of a merge. */
  lemma PassingCovers(best: seq<Point>, seen: seq<Point>, minScore: real)
    requires Covers(best, seen) && Maximal(best, seen)
    ensures forall j :: 0 <= j < |seen| && seen[j].score >= minScore ==>
      HasId(Passing(best, minScore), seen[j].id)
  {
    forall j | 0 <= j < |seen| && seen[j].score >= minScore ensures HasId(Passing(best, minScore), seen[j].id) {
      assert HasId(best, seen[j].id);
      var b :| 0 <= b < |best| && best[b].id == seen[j].id;
      assert seen[j].score <= best[b].score;
      PassingHasId(best, minScore, b);
    }
  }

  /** A point reaching `minScore` leaves its id among the passing ones. */
  lemma PassingHasId(points: seq<Point>, minScore: real, b: nat)
    requires b < |points| && points[b].score >= minScore
    ensures HasId(Passing(points, minScore), points[b].id)
  {
    PassingSpec(points, minScore);
    var passing := Passing(points, minScore);
    assert points[b] in passing;
    var i :| 0 <= i < |passing| && passing[i] == points[b];
    assert passing[i].id == points[b].id;
  }

  /** Sorting keeps the ids present. */
  lemma SortKeepsIds(points: seq<Point>, id: PointId)
    requires HasId(points, id)
    ensures HasId(SortByScore(points), id)
  {
    SortByScorePerm(points);
    var k :| 0 <= k < |points| && points[k].id == id;
    assert points[k] in SortByScore(points);
    var i :| 0 <= i < |SortByScore(points)| && SortByScore(points)[i] == points[k];
  }

  /** Every id some query scored at least `minScore` is among the ranked
      points. */
  lemma RankedPointsComplete(store: Store, queries: seq<string>, topK: int, minScore: real)
    ensures var all := AllResults(store, queries, topK);
      forall j :: 0 <= j < |all| && all[j].score >= minScore ==>
        HasId(RankedPoints(store, queries, topK, minScore), all[j].id)
  {
    var all := AllResults(store, queries, topK);
    var best := BestPoints(store, queries, topK);
    BestPointsSpec(store, queries, topK);
    PassingCovers(best, all, minScore);
    forall j | 0 <= j < |all| && all[j].score >= minScore
      ensures HasId(RankedPoints(store, queries, topK, minScore), all[j].id)
    {
      SortKeepsIds(Passing(best, minScore), all[j].id);
    }
  }

  // ---------------------------------------------------------------------
  // check_model_mismatch

  /** The model recorded with an existing index when it differs from the
      current one; `None` otherwise. A missing or empty record means no
      mismatch. */
  function CheckModelMismatch(indexed: bool, recordedModel: Option<string>, currentModel: string): (r: Option<string>)
    ensures r.Some? <==> indexed && recordedModel.Some? && recordedModel.value != [] && recordedModel.value != currentModel
    ensures r.Some? ==> r == recordedModel
  {
    if !indexed then None
    else if recordedModel.Some? && recordedModel.value != [] && recordedModel.value != currentModel then recordedModel
    else None
  }

  // ---------------------------------------------------------------------
  // _find_supported_files

  /** A file the directory walk keeps: not hidden, with a supported
      extension in any letter case. */
  predicate IsSupportedFile(path: string) {
    var name := Basename(path);
    !StartsWith(name, ".") && Lower(Extension(name)) in SUPPORTED_EXTENSIONS
  }

  /** The filter of `_find_supported_files` over the walk's file paths,
      given in walk order with each directory's names sorted. */
  function FindSupportedFiles(paths: seq<string>): (r: seq<string>)
    ensures forall i :: 0 <= i < |r| ==> r[i] in paths && IsSupportedFile(r[i])
    ensures forall p :: p in paths && IsSupportedFile(p) ==> p in r
  {
    var keep: string -> bool := IsSupportedFile;
    var r := Filter(paths, keep);
    assert forall i :: 0 <= i < |r| ==> keep(r[i]);
    r
  }

  /** The supported files keep the walk's order: those of a concatenation
      are those of its first part followed by those of its second, and a
      single path is kept exactly when it is supported. */
  lemma FindSupportedFilesAppend(xs: seq<string>, ys: seq<string>)
    ensures FindSupportedFiles(xs + ys) == FindSupportedFiles(xs) + FindSupportedFiles(ys)
    ensures forall p :: FindSupportedFiles([p]) == if IsSupportedFile(p) then [p] else []
  {
    var keep: string -> bool := IsSupportedFile;
    FilterAppend(xs, ys, keep);
    forall p ensures FindSupportedFiles([p]) == if IsSupportedFile(p) then [p] else [] {
      FilterOne(p, keep);
    }
  }

  /** A hidden file is never kept, whatever its extension. */
  lemma HiddenFilesSkipped(dir: string, name: string)
    requires StartsWith(name, ".")
    requires forall i :: 0 <= i < |name| ==> name[i] != '/'
    ensures !IsSupportedFile(dir + "/" + name)
  {
    BasenameOfJoin(dir, name);
  }

  /** A visible file whose extension is supported in some letter case is
      kept. */
  lemma SupportedFilesKept(dir: string, stem: string, ext: string)
    requires stem != [] && stem[0] != '.'
    requires forall i :: 0 <= i < |stem| ==> stem[i] != '/'
    requires ext != [] && ext[0] == '.'
    requires forall i :: 1 <= i < |ext| ==> ext[i] != '.' && ext[i] != '/'
    requires Lower(ext) in SUPPORTED_EXTENSIONS
    ensures IsSupportedFile(dir + "/" + (stem + ext))
  {
    var name := stem + ext;
    forall i | 0 <= i < |name| ensures name[i] != '/' {
      if i >= |stem| {
        assert name[i] == ext[i - |stem|];
      } else {
        assert name[i] == stem[i];
      }
    }
    BasenameOfJoin(dir, name);
    ExtensionOfSuffixed(stem, ext);
    assert !StartsWith(name, ".") by {
      assert name[..1][0] == stem[0];
    }
  }

  // ---------------------------------------------------------------------
  // _extract_csv

  /** "header: value" for each column both rows have whose value is not
      blank, in column order. */
  function CsvPairs(header: seq<string>, row: seq<string>): seq<string>
    decreases |header|
  {
    if header == [] || row == [] then []
    else (if !IsBlank(row[0]) then [header[0] + ": " + row[0]] else []) + CsvPairs(header[1..], row[1..])
  }

  function CsvLine(header: seq<string>, row: seq<string>): string {
    Join(CsvPairs(header, row), "; ")
  }

  /** The text of a CSV file given its parsed rows: one line per data row. */
  function ExtractCsv(rows: seq<seq<string>>): string {
    if rows == [] then "" else Join(CsvLines(rows[0], rows[1..]), "\n")
  }

  /** One line per data row. */
  function CsvLines(header: seq<string>, data: seq<seq<string>>): (r: seq<string>)
    ensures |r| == |data| && forall i :: 0 <= i < |r| ==> r[i] == CsvLine(header, data[i])
  {
    seq(|data|, i requires 0 <= i < |data| => CsvLine(header, data[i]))
  }

  predicate NoNewline(s: string) {
    forall i :: 0 <= i < |s| ==> s[i] != '\n'
  }

  lemma {:induction false} JoinNoNewline(parts: seq<string>, sep: string)
    requires NoNewline(sep) && forall k :: 0 <= k < |parts| ==> NoNewline(parts[k])
    ensures NoNewline(Join(parts, sep))
    decreases |parts|
  {
    if |parts| > 1 {
      JoinNoNewline(parts[1..], sep);
    }
  }

  lemma {:induction false} CsvPairsNoNewline(header: seq<string>, row: seq<string>)
    requires forall k :: 0 <= k < |header| ==> NoNewline(header[k])
    requires forall k :: 0 <= k < |row| ==> NoNewline(row[k])
    ensures forall k :: 0 <= k < |CsvPairs(header, row)| ==> NoNewline(CsvPairs(header, row)[k])
    decreases |header|
  {
    if header != [] && row != [] {
      CsvPairsNoNewline(header[1..], row[1..]);
    }
  }

  /** `s` is the pair of some column both rows have whose value is not
      blank. */
  predicate PairOfColumn(s: string, header: seq<string>, row: seq<string>) {
    exists j :: 0 <= j < |header| && j < |row| && !IsBlank(row[j]) && s == header[j] + ": " + row[j]
  }

  lemma PairOfColumnShift(s: string, header: seq<string>, row: seq<string>)
    requires header != [] && row != []
    requires PairOfColumn(s, header[1..], row[1..])
    ensures PairOfColumn(s, header, row)
  {
    var j :| 0 <= j < |header[1..]| && j < |row[1..]| && !IsBlank(row[1..][j]) && s == header[1..][j] + ": " + row[1..][j];
    assert row[j + 1] == row[1..][j] && header[j + 1] == header[1..][j];
  }

  /** The pairs of a CSV row are exactly those of `zip(header, row)` with a
      non-blank value. */
  lemma {:induction false} CsvPairsSpec(header: seq<string>, row: seq<string>)
    ensures forall i :: 0 <= i < |CsvPairs(header, row)| ==> PairOfColumn(CsvPairs(header, row)[i], header, row)
    ensures forall j :: 0 <= j < |header| && j < |row| && !IsBlank(row[j]) ==>
      header[j] + ": " + row[j] in CsvPairs(header, row)
    decreases |header|
  {
    if header != [] && row != [] {
      var head := if !IsBlank(row[0]) then [header[0] + ": " + row[0]] else [];
      var rest := CsvPairs(header[1..], row[1..]);
      CsvPairsSpec(header[1..], row[1..]);
      assert CsvPairs(header, row) == head + rest;
      forall i | 0 <= i < |head + rest| ensures PairOfColumn((head + rest)[i], header, row) {
        if i < |head| {
          assert (head + rest)[i] == header[0] + ": " + row[0];
        } else {
          assert (head + rest)[i] == rest[i - |head|];
          PairOfColumnShift((head + rest)[i], header, row);
        }
      }
      forall j | 0 <= j < |header| && j < |row| && !IsBlank(row[j]) ensures header[j] + ": " + row[j] in head + rest {
        if j > 0 {
          assert header[1..][j - 1] == header[j] && row[1..][j - 1] == row[j];
        }
      }
    }
  }

  /** Every value filled in: one pair per column both rows have, in column
      order. */
  lemma {:induction false} CsvPairsFilled(header: seq<string>, row: seq<string>)
    requires forall j :: 0 <= j < |row| ==> !IsBlank(row[j])
    ensures |CsvPairs(header, row)| == (if |header| < |row| then |header| else |row|)
    ensures forall j :: 0 <= j < |CsvPairs(header, row)| ==> CsvPairs(header, row)[j] == header[j] + ": " + row[j]
    decreases |header|
  {
    if header != [] && row != [] {
      var rest := CsvPairs(header[1..], row[1..]);
      assert forall j :: 0 <= j < |row[1..]| ==> !IsBlank(row[1..][j]) by {
        forall j | 0 <= j < |row[1..]| ensures !IsBlank(row[1..][j]) {
          assert row[1..][j] == row[j + 1];
        }
      }
      CsvPairsFilled(header[1..], row[1..]);
      assert CsvPairs(header, row) == [header[0] + ": " + row[0]] + rest;
      forall j | 0 < j < |CsvPairs(header, row)| ensures CsvPairs(header, row)[j] == header[j] + ": " + row[j] {
        assert CsvPairs(header, row)[j] == rest[j - 1];
        assert header[1..][j - 1] == header[j] && row[1..][j - 1] == row[j];
      }
    }
  }

  /** CSV text: an empty file gives ""; otherwise, when no cell holds a line
      break, the text splits back into exactly one line per data row, each
      listing that row's non-blank cells as "header: value". */
  lemma ExtractCsvSpec(rows: seq<seq<string>>)
    requires forall r, k :: 0 <= r < |rows| && 0 <= k < |rows[r]| ==> NoNewline(rows[r][k])
    ensures rows == [] ==> ExtractCsv(rows) == ""
    ensures |rows| == 1 ==> ExtractCsv(rows) == ""
    ensures |rows| >= 2 ==>
      var lines := Split(ExtractCsv(rows), "\n");
      && |lines| == |rows| - 1
      && forall i :: 0 <= i < |lines| ==> lines[i] == Join(CsvPairs(rows[0], rows[i + 1]), "; ")
  {
    if |rows| >= 2 {
      var header, data := rows[0], rows[1..];
      var lines := CsvLines(header, data);
      forall i | 0 <= i < |lines| ensures !Contains(lines[i] + "\n"[..0], "\n") {
        assert data[i] == rows[i + 1];
        CsvLineClean(header, data[i]);
      }
      SplitJoin(lines, "\n");
    }
  }

  /** A line of cells without line breaks holds none. */
  lemma CsvLineClean(header: seq<string>, row: seq<string>)
    requires forall k :: 0 <= k < |header| ==> NoNewline(header[k])
    requires forall k :: 0 <= k < |row| ==> NoNewline(row[k])
    ensures !Contains(CsvLine(header, row) + "\n"[..0], "\n")
  {
    var line := CsvLine(header, row);
    CsvPairsNoNewline(header, row);
    JoinNoNewline(CsvPairs(header, row), "; ");
    assert line + "\n"[..0] == line;
    AvoidsFirstChar(line, "\n");
  }

}

=== FILE: legacy_chunker.dfy ===
/**
 * `chunk_transcript` of the older `src/chunker.py`, written as the loop it
 * is there. Its behaviour is that of `Chunker.ChunkTranscript`, which the
 * method's first postcondition states; the others restate the properties
 * the loop guarantees in the terms of `src/chunker.py`.
 */
module LegacyChunker {
  import opened Chunker

  method ChunkTranscript(segments: seq<Segment>, chunkMinutes: int) returns (chunks: seq<TimedChunk>)
    ensures chunks == Chunker.ChunkTranscript(segments, chunkMinutes)
    ensures ChunkSegments(chunks) == segments
    ensures chunks == [] <==> segments == []
    ensures chunks != [] ==> chunks[0].startTime == 0.0
    ensures forall i :: 0 < i < |chunks| ==> chunks[i].startTime == chunks[i - 1].endTime
    ensures forall i :: 0 <= i < |chunks| - 1 ==>
      chunks[i].endTime - chunks[i].startTime >= (chunkMinutes * 60) as real
    ensures ChunksShaped(chunks)
  {
    var chunkSeconds := (chunkMinutes * 60) as real;
    chunks := [];
    var current: seq<Segment> := [];
    var chunkStart := 0.0;
    var i := 0;
    while i < |segments|
      invariant 0 <= i <= |segments|
      invariant chunks + ChunksFrom(segments[i..], chunkSeconds, chunkStart, current)
             == ChunksFrom(segments, chunkSeconds, 0.0, [])
    {
      var seg := segments[i];
      assert segments[i..][1..] == segments[i + 1..];
      current := current + [seg];
      if seg.end - chunkStart >= chunkSeconds {
        chunks := chunks + [TimedChunk(chunkStart, seg.end, JoinedText(current), current)];
        chunkStart := seg.end;
        current := [];
      }
      i := i + 1;
    }
    if current != [] {
      chunks := chunks + [TimedChunk(chunkStart, current[|current| - 1].end, JoinedText(current), current)];
    }
    ChunkTranscriptSpec(segments, chunkMinutes);
  }
}

=== FILE: legacy_prompts.dfy ===
/**
 * The older `src/prompts.py`: the same timestamp, part-numbering and
 * segment-numbering code as `src/core/prompts.py`, with the meeting wording
 * fixed. Each member shares the definition in `Prompts` and states the
 * guarantees in the terms of this file.
 */
module LegacyPrompts {
  import opened Strings
  import opened Results
  import Prompts
  import Chunker

  /** `format_timestamp`: "m:ss" below one hour, "h:mm:ss" from one hour
      on, reading back as the whole seconds for non-negative input. */
  function FormatTimestamp(seconds: real): (r: string)
    ensures 0.0 <= seconds ==> Prompts.ParseTimestamp(r) == Some(seconds.Floor)
    ensures 0.0 <= seconds < 3600.0 ==> |Split(r, ":")| == 2
    ensures 3600.0 <= seconds ==> |Split(r, ":")| == 3
  {
    Prompts.FormatTimestampRoundTrip(seconds);
    Prompts.FormatTimestamp(seconds)
  }

  /** The "(Part i+1 of n, covering a to b)" line of `chunk_summary_prompt`. */
  function ChunkCaption(chunk: Chunker.TimedChunk, chunkIndex: nat, totalChunks: nat): string {
    Prompts.ChunkCaption(chunk, chunkIndex, totalChunks)
  }

  /** The caption determines the chunk index and the chunk count. */
  lemma ChunkCaptionInjective(c1: Chunker.TimedChunk, i: nat, n: nat, c2: Chunker.TimedChunk, j: nat, m: nat)
    requires ChunkCaption(c1, i, n) == ChunkCaption(c2, j, m)
    ensures i == j && n == m
  {
    Prompts.ChunkCaptionInjective(c1, i, n, c2, j, m);
  }

  /** The `combined` text of `consolidation_prompt`: it splits back, at
      the separator, into one "### Segment i+1" block per summary in input
      order. */
  function CombinedSummaries(summaries: seq<string>): (r: string)
    ensures summaries != [] && (forall k :: 0 <= k < |summaries| ==> Prompts.SeparableSummary(summaries[k])) ==>
      var blocks := Split(r, Prompts.SEGMENT_SEPARATOR);
      && |blocks| == |summaries|
      && forall i :: 0 <= i < |blocks| ==> blocks[i] == "### Segment " + NatToString(i + 1) + "\n" + summaries[i]
  {
    if summaries != [] && (forall k :: 0 <= k < |summaries| ==> Prompts.SeparableSummary(summaries[k])) then
      Prompts.CombinedSummariesSplitBack(summaries);
      Prompts.CombinedSummaries(summaries)
    else
      Prompts.CombinedSummaries(summaries)
  }
}

=== FILE: llm.dfy ===
/**
 * The decisions `src/core/llm.py` makes around its LLM calls: which
 * provider a model name belongs to, the request it sends, how many times
 * it tries, how it copies API keys from the configuration into the
 * environment, and how it reads the ranking the model returns.
 *
 * The completion service is a parameter: a function from the request and
 * the attempt number to a reply or an error. JSON decoding is a parameter
 * too.
 */
module Llm {
  import opened Strings
  import opened Results

  const DEFAULT_NUM_CTX: int := 8192
  const OPENAI_PREFIXES: seq<string> := ["gpt-", "o1-", "o3-", "o4-", "chatgpt-"]

  datatype Provider = OpenAI | Anthropic | Ollama

  /** `detect_provider`, on the ASCII-lower-cased name. */
  function DetectProvider(modelName: string): (r: Provider)
    ensures r == OpenAI <==> exists k :: 0 <= k < |OPENAI_PREFIXES| && StartsWith(Lower(modelName), OPENAI_PREFIXES[k])
    ensures r == Anthropic <==> r != OpenAI && StartsWith(Lower(modelName), "claude-")
    ensures r == Ollama <==>
      (forall k :: 0 <= k < |OPENAI_PREFIXES| ==> !StartsWith(Lower(modelName), OPENAI_PREFIXES[k]))
      && !StartsWith(Lower(modelName), "claude-")
  {
    var lower := Lower(modelName);
    if exists k :: 0 <= k < |OPENAI_PREFIXES| && StartsWith(lower, OPENAI_PREFIXES[k]) then OpenAI
    else if StartsWith(lower, "claude-") then Anthropic
    else Ollama
  }

  /** The provider does not depend on letter case. */
  lemma DetectProviderCaseBlind(modelName: string)
    ensures DetectProvider(Lower(modelName)) == DetectProvider(modelName)
  {
    assert Lower(Lower(modelName)) == Lower(modelName);
  }

  /** An upper-case OpenAI name is still an OpenAI name. */
  lemma UpperCaseOpenAI()
    ensures DetectProvider("GPT-4") == OpenAI
  {
    assert StartsWith(Lower("GPT-4"), OPENAI_PREFIXES[0]);
  }

  /** A capitalised Claude name is an Anthropic name. */
  lemma CapitalisedClaude()
    ensures DetectProvider("Claude-3") == Anthropic
  {
    var lower := Lower("Claude-3");
    assert lower[..7] == "claude-";
    assert lower[1] == 'l';
  }

  /** The model string passed to the completion call. */
  function ModelString(modelName: string): (r: string)
    ensures DetectProvider(modelName) == Ollama ==> r == "ollama/" + modelName
    ensures DetectProvider(modelName) != Ollama ==> r == modelName
  {
    if DetectProvider(modelName) == Ollama then "ollama/" + modelName else modelName
  }

  /** The keyword arguments of the completion call; the temperature is the
      constant 0.3 and is not modelled. */
  datatype Request = Request(model: string, systemPrompt: string, prompt: string, timeout: int, numCtx: Option<int>)

  function BuildRequest(prompt: string, systemPrompt: string, modelName: string, numCtx: int, timeout: int): (r: Request)
    ensures r.numCtx.Some? <==> DetectProvider(modelName) == Ollama
    ensures r.numCtx.Some? ==> r.numCtx.value == numCtx
    ensures r.model == ModelString(modelName) && r.prompt == prompt && r.systemPrompt == systemPrompt && r.timeout == timeout
  {
    Request(ModelString(modelName), systemPrompt, prompt, timeout,
            if DetectProvider(modelName) == Ollama then Some(numCtx) else None)
  }

  /** Stripping the "ollama/" prefix from the model string gives back the
      name the caller passed, for every provider. */
  lemma ModelStringRecoverable(modelName: string)
    ensures var r := ModelString(modelName);
      if DetectProvider(modelName) == Ollama then StartsWith(r, "ollama/") && r[7..] == modelName else r == modelName
  {
  }

  // ---------------------------------------------------------------------
  // call_llm

  /** How `call_llm` ends: with the reply text, by re-raising the last
      error, or (when `retries` is negative) by falling off the empty loop
      and returning `None`. */
  datatype CallOutcome = Reply(text: string) | Raised(error: string) | NoAttempt

  /** The outcome of the attempts from `attempt` to `retries`. */
  function AttemptsFrom(complete: (Request, nat) -> Result<string, string>, req: Request, attempt: nat, retries: int): CallOutcome
    requires attempt <= retries
    decreases retries - attempt
  {
    match complete(req, attempt)
    case Ok(text) => Reply(text)
    case Err(e) => if attempt < retries then AttemptsFrom(complete, req, attempt + 1, retries) else Raised(e)
  }

  /** `call_llm`: attempts 0, 1, ..., `retries` in turn, stopping at the
      first reply. */
  method CallLlm(complete: (Request, nat) -> Result<string, string>, prompt: string, systemPrompt: string,
                 modelName: string, numCtx: int, retries: int, timeout: int)
    returns (outcome: CallOutcome, attempts: nat)
    ensures retries < 0 <==> outcome == NoAttempt
    ensures retries < 0 ==> attempts == 0
    ensures retries >= 0 ==> 1 <= attempts <= retries + 1
    ensures var req := BuildRequest(prompt, systemPrompt, modelName, numCtx, timeout);
      && (forall k :: 0 <= k < attempts - 1 ==> complete(req, k).Err?)
      && (outcome.Reply? ==> complete(req, attempts - 1) == Ok(outcome.text))
      && (outcome.Raised? ==> attempts == retries + 1 && complete(req, retries) == Err(outcome.error))
    ensures retries >= 0 ==> outcome == AttemptsFrom(complete, BuildRequest(prompt, systemPrompt, modelName, numCtx, timeout), 0, retries)
  {
    var req := BuildRequest(prompt, systemPrompt, modelName, numCtx, timeout);
    outcome := NoAttempt;
    attempts := 0;
    var attempt := 0;
    while attempt < retries + 1
      invariant 0 <= attempt
      invariant retries >= 0 ==> attempt <= retries
      invariant retries < 0 ==> attempt == 0
      invariant attempts == attempt
      invariant forall k :: 0 <= k < attempt ==> complete(req, k).Err?
      invariant outcome == NoAttempt
      invariant retries >= 0 && attempt <= retries ==>
        AttemptsFrom(complete, req, 0, retries) == AttemptsFrom(complete, req, attempt, retries)
      decreases retries + 1 - attempt
    {
      var result := complete(req, attempt);
      attempts := attempt + 1;
      match result {
        case Ok(text) =>
          outcome := Reply(text);
          return;
        case Err(e) =>
          if attempt < retries {
            attempt := attempt + 1;
          } else {
            outcome := Raised(e);
            return;
          }
      }
    }
  }

  // ---------------------------------------------------------------------
  // _set_api_keys_from_config

  const KEY_MAP: seq<(string, string)> := [("openai_api_key", "OPENAI_API_KEY"), ("anthropic_api_key", "ANTHROPIC_API_KEY")]

  /** One entry of the key map: copy a non-empty configured key into an
      environment variable that is unset or empty. */
  function SetKey(llm: map<string, string>, env: map<string, string>, configKey: string, envKey: string): map<string, string> {
    if configKey in llm && llm[configKey] != "" && (envKey !in env || env[envKey] == "") then env[envKey := llm[configKey]]
    else env
  }

  /** `_set_api_keys_from_config` on the environment as a map; a missing
      or empty configuration changes nothing, and a configuration without
      an "llm" section acts as an empty one. */
  function SetApiKeys(config: Option<map<string, map<string, string>>>, env: map<string, string>): (r: map<string, string>)
    ensures forall k :: k in env && k != "OPENAI_API_KEY" && k != "ANTHROPIC_API_KEY" ==> k in r && r[k] == env[k]
    ensures r.Keys <= env.Keys + {"OPENAI_API_KEY", "ANTHROPIC_API_KEY"}
    ensures forall k :: k in env && env[k] != "" ==> k in r && r[k] == env[k]
    ensures forall i :: 0 <= i < |KEY_MAP| ==>
      var (configKey, envKey) := KEY_MAP[i];
      var llm := if config.Some? && "llm" in config.value then config.value["llm"] else map[];
      envKey in r && r[envKey] != "" <==> (envKey in env && env[envKey] != "") || (configKey in llm && llm[configKey] != "")
    ensures forall i :: 0 <= i < |KEY_MAP| ==>
      var (configKey, envKey) := KEY_MAP[i];
      var llm := if config.Some? && "llm" in config.value then config.value["llm"] else map[];
      if (envKey !in env || env[envKey] == "") && configKey in llm && llm[configKey] != "" then
        envKey in r && r[envKey] == llm[configKey]
      else
        (envKey in r <==> envKey in env) && (envKey in env ==> r[envKey] == env[envKey])
  {
    if config.None? || config.value == map[] then env
    else
      var llm := if "llm" in config.value then config.value["llm"] else map[];
      SetKey(llm, SetKey(llm, env, "openai_api_key", "OPENAI_API_KEY"), "anthropic_api_key", "ANTHROPIC_API_KEY")
  }

  // ---------------------------------------------------------------------
  // rank_articles

  /** The JSON values an index list can hold, as far as the filter can
      tell them apart: Python's `bool` is an `int`, so `true` counts as 1. */
  datatype JsonValue = JInt(n: int) | JBool(b: bool) | JOther

  /** The text from the first "[" to the last "]" of `text`; `None` when
      either is missing (Python's `index`/`rindex` raise); empty when the
      last "]" comes before the first "[". */
  function BracketSpan(text: string): (r: Option<string>)
    ensures r.None? <==> IndexOf(text, '[') < 0 || LastIndexOf(text, ']') < 0
    ensures r.Some? && r.value != [] ==> r.value[0] == '[' && r.value[|r.value| - 1] == ']'
    ensures r.Some? ==> (r.value == [] <==> LastIndexOf(text, ']') < IndexOf(text, '['))
    ensures r.Some? && r.value != [] ==>
      var start := IndexOf(text, '[');
      && 0 <= start && start + |r.value| <= |text| && text[start..start + |r.value|] == r.value
      && (forall j :: 0 <= j < start ==> text[j] != '[')
      && (forall j :: start + |r.value| <= j < |text| ==> text[j] != ']')
  {
    var start := IndexOf(text, '[');
    var last := LastIndexOf(text, ']');
    if start < 0 || last < 0 then None
    else if last + 1 <= start then Some([])
    else Some(text[start..last + 1])
  }

  /** The span `rank_articles` hands to the JSON decoder: the bracketed
      part of the stripped response. */
  function JsonSpan(response: string): Option<string> {
    BracketSpan(Strip(response))
  }

  /** The integer value a JSON element contributes, if any. */
  function AsIndex(v: JsonValue): Option<int> {
    match v
    case JInt(n) => Some(n)
    case JBool(b) => Some(if b then 1 else 0)
    case JOther => None
  }

  /** `[i for i in indices if isinstance(i, int) and 0 <= i < n]`. */
  function ValidIndices(values: seq<JsonValue>, n: int): (r: seq<int>)
    ensures forall k :: 0 <= k < |r| ==> 0 <= r[k] < n
    ensures |r| <= |values|
    decreases |values|
  {
    if values == [] then []
    else
      var rest := ValidIndices(values[1..], n);
      var v := AsIndex(values[0]);
      if v.Some? && 0 <= v.value < n then [v.value] + rest else rest
  }

  /** The valid indices keep the reply's order: those of a concatenation
      are those of its first part followed by those of its second, and one
      value gives its index exactly when it is an integer (or boolean) in
      range. */
  lemma {:induction false} ValidIndicesAppend(xs: seq<JsonValue>, ys: seq<JsonValue>, n: int)
    ensures ValidIndices(xs + ys, n) == ValidIndices(xs, n) + ValidIndices(ys, n)
    ensures forall v :: ValidIndices([v], n) == if AsIndex(v).Some? && 0 <= AsIndex(v).value < n then [AsIndex(v).value] else []
    decreases |xs|
  {
    if xs == [] {
      assert xs + ys == ys;
    } else {
      assert (xs + ys)[1..] == xs[1..] + ys;
      ValidIndicesAppend(xs[1..], ys, n);
    }
    forall v ensures ValidIndices([v], n) == if AsIndex(v).Some? && 0 <= AsIndex(v).value < n then [AsIndex(v).value] else [] {
      assert [v][1..] == [];
    }
  }

  /** `list(range(min(max_articles, n)))`. */
  function DefaultOrder(maxArticles: int, n: nat): (r: seq<int>)
    ensures |r| == if maxArticles < 0 then 0 else if maxArticles < n then maxArticles else n
    ensures forall k :: 0 <= k < |r| ==> r[k] == k
  {
    var m := if maxArticles < n then maxArticles else n;
    if m <= 0 then [] else seq(m, k requires 0 <= k < m => k)
  }

  /** `rank_articles` after the model's reply: the decoded indices that
      name an article, in reply order, cut by `[:max_articles]`; the
      default order when there is no bracketed span or it does not
      decode. */
  function RankArticles(decode: string -> Option<seq<JsonValue>>, response: string, n: nat, maxArticles: int): (r: seq<int>)
    ensures forall k :: 0 <= k < |r| ==> 0 <= r[k] < n
    ensures maxArticles >= 0 ==> |r| <= maxArticles
    ensures JsonSpan(response).None? ==> r == DefaultOrder(maxArticles, n)
    ensures JsonSpan(response).Some? && decode(JsonSpan(response).value).None? ==> r == DefaultOrder(maxArticles, n)
    ensures JsonSpan(response).Some? && decode(JsonSpan(response).value).Some? ==>
      r == Prefix(ValidIndices(decode(JsonSpan(response).value).value, n), maxArticles)
  {
    match JsonSpan(response)
    case None => DefaultOrder(maxArticles, n)
    case Some(span) =>
      match decode(span)
      case None => DefaultOrder(maxArticles, n)
      case Some(values) =>
        var valid := ValidIndices(values, n);
        var r := Prefix(valid, maxArticles);
        assert forall k :: 0 <= k < |r| ==> r[k] == valid[k];
        r
  }

  /** The filter keeps exactly the elements that name an article, in
      their order: a value outside the range, or one that is not a number,
      is dropped, and nothing is added. */
  lemma {:induction false} ValidIndicesSpec(values: seq<JsonValue>, n: int)
    ensures forall i :: i in ValidIndices(values, n) <==>
      0 <= i < n && exists k :: 0 <= k < |values| && AsIndex(values[k]) == Some(i)
    ensures (forall k :: 0 <= k < |values| ==> values[k].JInt? && 0 <= values[k].n < n) ==>
      |ValidIndices(values, n)| == |values|
    decreases |values|
  {
    if values != [] {
      ValidIndicesSpec(values[1..], n);
      forall i ensures i in ValidIndices(values, n) <==>
        0 <= i < n && exists k :: 0 <= k < |values| && AsIndex(values[k]) == Some(i)
      {
        if 0 <= i < n && exists k :: 0 <= k < |values| && AsIndex(values[k]) == Some(i) {
          var k :| 0 <= k < |values| && AsIndex(values[k]) == Some(i);
          if k > 0 {
            assert values[1..][k - 1] == values[k];
          }
        }
        if i in ValidIndices(values[1..], n) {
          var k :| 0 <= k < |values[1..]| && AsIndex(values[1..][k]) == Some(i);
          assert values[k + 1] == values[1..][k];
        }
      }
    }
  }

  /** A reply of integers that all name an article keeps every one of
      them, in place. */
  lemma {:induction false} ValidIndicesAllValid(values: seq<JsonValue>, n: int)
    requires forall k :: 0 <= k < |values| ==> values[k].JInt? && 0 <= values[k].n < n
    ensures |ValidIndices(values, n)| == |values|
    ensures forall k :: 0 <= k < |values| ==> ValidIndices(values, n)[k] == values[k].n
    decreases |values|
  {
    if values != [] {
      assert forall k :: 0 <= k < |values[1..]| ==> values[1..][k] == values[k + 1];
      ValidIndicesAllValid(values[1..], n);
    }
  }

  /** A JSON `true` selects the article at index 1 (and `false` the one
      at 0), as `isinstance(True, int)` holds in Python. */
  lemma BooleansAreIndices()
    ensures ValidIndices([JBool(true), JBool(false), JOther], 2) == [1, 0]
  {
  }
}

=== FILE: loader.dfy ===
/**
 * `load_input_text` of `src/podcast/loader.py`: the podcast input read
 * from one file, or from every supported file of a directory. The file
 * system is an input: what kind of thing the path names, the file paths
 * the directory walk yields, and the text extraction gives for each file
 * (`None` when it fails).
 */
module Loader {
  import opened Strings
  import opened Results
  import opened Paths
  import KnowledgeBase

  datatype PathKind = IsFile | IsDir | Missing

  /** The four `ValueError`s, each naming the path. */
  datatype LoadError =
    | CouldNotExtract(path: string)
    | NoSupportedFiles(path: string)
    | NoExtractableText(path: string)
    | PathMissing(path: string)

  /** The combined text and the files it came from. */
  datatype Loaded = Loaded(text: string, files: seq<string>)

  /** `text and text.strip()`: extraction succeeded with something other
      than white space. */
  predicate HasText(text: Option<string>) {
    text.Some? && !IsBlank(text.value)
  }

  /** The files of `files`, in order, whose extracted text is not blank. */
  function UsedFiles(files: seq<string>, extract: string -> Option<string>): (r: seq<string>)
    ensures |r| <= |files|
    ensures forall f :: f in r <==> f in files && HasText(extract(f))
    decreases |files|
  {
    if files == [] then []
    else
      var rest := UsedFiles(files[1..], extract);
      assert forall f :: f in files <==> f == files[0] || f in files[1..];
      if HasText(extract(files[0])) then [files[0]] + rest else rest
  }

  /** The used files keep their order: those of a concatenation are those
      of its first part followed by those of its second, and one file is
      used exactly when its text is not blank. */
  lemma {:induction false} UsedFilesAppend(xs: seq<string>, ys: seq<string>, extract: string -> Option<string>)
    ensures UsedFiles(xs + ys, extract) == UsedFiles(xs, extract) + UsedFiles(ys, extract)
    ensures forall f :: UsedFiles([f], extract) == if HasText(extract(f)) then [f] else []
    decreases |xs|
  {
    if xs == [] {
      assert xs + ys == ys;
    } else {
      assert (xs + ys)[1..] == xs[1..] + ys;
      UsedFilesAppend(xs[1..], ys, extract);
    }
  }

  /** The header "--- name ---" line and the stripped text of one file. */
  function Part(path: string, text: string): string {
    "--- " + Basename(path) + " ---\n" + Strip(text)
  }

  function Parts(used: seq<string>, extract: string -> Option<string>): (r: seq<string>)
    requires forall k :: 0 <= k < |used| ==> HasText(extract(used[k]))
    ensures |r| == |used|
    ensures forall k :: 0 <= k < |used| ==> HasText(extract(used[k])) && r[k] == Part(used[k], extract(used[k]).value)
  {
    seq(|used|, k requires 0 <= k < |used| && HasText(extract(used[k])) => Part(used[k], extract(used[k]).value))
  }

  function LoadInputText(path: string, kind: PathKind, walk: seq<string>, extract: string -> Option<string>): (r: Result<Loaded, LoadError>)
    ensures kind.IsFile? ==> (r.Ok? <==> HasText(extract(path)))
    ensures kind.IsFile? && r.Ok? ==> r.value == Loaded(Strip(extract(path).value), [path])
    ensures kind.IsFile? && r.Err? ==> r.error == CouldNotExtract(path)
    ensures kind.Missing? ==> r == Err(PathMissing(path))
  {
    match kind
    case IsFile =>
      var text := extract(path);
      if !HasText(text) then Err(CouldNotExtract(path)) else Ok(Loaded(Strip(text.value), [path]))
    case IsDir =>
      var files := KnowledgeBase.FindSupportedFiles(walk);
      if files == [] then Err(NoSupportedFiles(path))
      else
        var used := UsedFiles(files, extract);
        if used == [] then Err(NoExtractableText(path))
        else Ok(Loaded(Join(Parts(used, extract), "\n\n"), used))
    case Missing => Err(PathMissing(path))
  }

  /** A single file's input is its stripped text, which is never empty. */
  lemma SingleFileText(path: string, walk: seq<string>, extract: string -> Option<string>)
    requires HasText(extract(path))
    ensures var r := LoadInputText(path, IsFile, walk, extract);
      r.Ok? && r.value.files == [path] && r.value.text != []
      && !IsSpace(r.value.text[0]) && !IsSpace(r.value.text[|r.value.text| - 1])
      && Contains(extract(path).value, r.value.text)
  {
    var text := extract(path).value;
    var t := Strip(text);
    StripContainsSelf(text);
    var r := LoadInputText(path, IsFile, walk, extract);
    assert r.value == Loaded(t, [path]);
  }

  lemma StripContainsSelf(text: string)
    ensures Contains(text, Strip(text))
  {
    var t := Strip(text);
    assert StartsWith(t, t);
    StripContains(text, t);
  }

  /** The files a directory's input can use: supported files of the walk
      with text. */
  predicate Usable(f: string, walk: seq<string>, extract: string -> Option<string>) {
    f in walk && KnowledgeBase.IsSupportedFile(f) && HasText(extract(f))
  }

  /** The files a directory's input reads, given its walk. */
  function WalkedFiles(walk: seq<string>, extract: string -> Option<string>): seq<string> {
    UsedFiles(KnowledgeBase.FindSupportedFiles(walk), extract)
  }

  lemma UsedFromWalk(walk: seq<string>, extract: string -> Option<string>)
    ensures forall f :: f in UsedFiles(KnowledgeBase.FindSupportedFiles(walk), extract) <==> Usable(f, walk, extract)
  {
  }

  /** A directory without any supported file is reported as such, and
      only then. */
  lemma NoSupportedFilesIff(path: string, walk: seq<string>, extract: string -> Option<string>)
    ensures (forall f :: f in walk ==> !KnowledgeBase.IsSupportedFile(f))
        <==> LoadInputText(path, IsDir, walk, extract) == Err(NoSupportedFiles(path))
  {
    var files := KnowledgeBase.FindSupportedFiles(walk);
    if files != [] {
      assert files[0] in walk && KnowledgeBase.IsSupportedFile(files[0]);
    }
  }

  lemma DirectoryResult(path: string, walk: seq<string>, extract: string -> Option<string>)
    ensures var r := LoadInputText(path, IsDir, walk, extract);
      var used := WalkedFiles(walk, extract);
      (r.Ok? <==> used != []) && (r.Ok? ==> r.value.files == used)
  {
  }

  /** The files a directory's input reads follow the walk's order: those
      of a concatenated walk are those of its first part followed by those
      of its second, and a walk of one path uses it exactly when it is a
      supported file with text. */
  lemma WalkedFilesOrder(xs: seq<string>, ys: seq<string>, extract: string -> Option<string>)
    ensures WalkedFiles(xs + ys, extract) == WalkedFiles(xs, extract) + WalkedFiles(ys, extract)
    ensures forall f :: WalkedFiles([f], extract) == if Usable(f, [f], extract) then [f] else []
  {
    KnowledgeBase.FindSupportedFilesAppend(xs, ys);
    UsedFilesAppend(KnowledgeBase.FindSupportedFiles(xs), KnowledgeBase.FindSupportedFiles(ys), extract);
    forall f ensures WalkedFiles([f], extract) == if Usable(f, [f], extract) then [f] else [] {
      KnowledgeBase.FindSupportedFilesAppend([f], []);
      UsedFilesAppend([f], [], extract);
    }
  }

  /** A directory's input is read exactly when some supported file has
      text. */
  lemma DirectoryReadIff(path: string, walk: seq<string>, extract: string -> Option<string>)
    ensures LoadInputText(path, IsDir, walk, extract).Ok? <==> exists f :: Usable(f, walk, extract)
  {
    var used := UsedFiles(KnowledgeBase.FindSupportedFiles(walk), extract);
    DirectoryResult(path, walk, extract);
    UsedFromWalk(walk, extract);
    if used != [] {
      assert Usable(used[0], walk, extract);
    }
  }

  /** A directory's input lists exactly the supported files with text. */
  lemma DirectoryFiles(path: string, walk: seq<string>, extract: string -> Option<string>)
    ensures var r := LoadInputText(path, IsDir, walk, extract);
      r.Ok? ==> forall f :: f in r.value.files <==> Usable(f, walk, extract)
  {
    DirectoryResult(path, walk, extract);
    UsedFromWalk(walk, extract);
  }

  /** A part holds no blank-line separator when the stripped text holds
      none and the file name holds no line break. */
  lemma PartAvoidsSep(path: string, text: string)
    requires !IsBlank(text)
    requires NoNewline(Basename(path))
    requires !Contains(Strip(text), "\n\n")
    ensures !Contains(Part(path, text) + "\n", "\n\n")
  {
    var head := "--- " + Basename(path) + " ---";
    var body := Strip(text);
    assert Part(path, text) + "\n" == head + ("\n" + (body + "\n"));
    forall i | 0 <= i < |head| ensures head[i] != '\n' {
      if 4 <= i < 4 + |Basename(path)| {
        assert head[i] == Basename(path)[i - 4];
      }
    }
    BreakThenNonBreak(body);
    if Contains(head + ("\n" + (body + "\n")), "\n\n") {
      ContainsSkip(head, "\n" + (body + "\n"), "\n\n");
    }
  }

  /** "\n" + body + "\n" holds no "\n\n" when `body` starts and ends with
      something other than a newline and holds none itself. */
  lemma BreakThenNonBreak(body: string)
    requires body != [] && body[0] != '\n' && body[|body| - 1] != '\n'
    requires !Contains(body, "\n\n")
    ensures !Contains("\n" + (body + "\n"), "\n\n")
  {
    EndsWithoutSep(body, '\n');
    var s := "\n" + (body + "\n");
    assert !StartsWith(s, "\n\n") by {
      assert s[1] == body[0];
    }
    assert s[1..] == body + "\n";
  }

  lemma {:induction false} EndsWithoutSep(p: string, c: char)
    requires p != [] && p[|p| - 1] != c
    requires !Contains(p, [c, c])
    ensures !Contains(p + [c], [c, c])
    decreases |p|
  {
    var s := p + [c];
    if |p| == 1 {
      assert !StartsWith(s, [c, c]) by {
        assert s[0] == p[0];
      }
      assert s[1..] == [c];
      assert !StartsWith(s[1..], [c, c]);
      assert s[1..][1..] == [];
    } else {
      assert !StartsWith(s, [c, c]) by {
        assert s[..2] == p[..2];
      }
      assert s[1..] == p[1..] + [c];
      EndsWithoutSep(p[1..], c);
    }
  }

  /** Parts that avoid the separator come back from `split`. */
  lemma PartsSplit(used: seq<string>, extract: string -> Option<string>)
    requires used != []
    requires forall k :: 0 <= k < |used| ==>
      HasText(extract(used[k])) && NoNewline(Basename(used[k])) && !Contains(Strip(extract(used[k]).value), "\n\n")
    ensures Split(Join(Parts(used, extract), "\n\n"), "\n\n") == Parts(used, extract)
  {
    var parts := Parts(used, extract);
    forall k | 0 <= k < |parts| ensures !Contains(parts[k] + "\n\n"[..1], "\n\n") {
      assert "\n\n"[..1] == "\n";
      PartAvoidsSep(used[k], extract(used[k]).value);
    }
    SplitJoin(parts, "\n\n");
  }

  predicate NoNewline(s: string) {
    forall i :: 0 <= i < |s| ==> s[i] != '\n'
  }

  /** The combined text of a directory splits at its blank lines back into
      one "--- name ---" part per used file, in order, whenever no
      supported walked file with text has a stripped text holding a blank
      line itself or a name holding a line break. */
  lemma DirectoryTextSplits(path: string, walk: seq<string>, extract: string -> Option<string>)
    requires forall f :: f in KnowledgeBase.FindSupportedFiles(walk) && HasText(extract(f)) ==>
      NoNewline(Basename(f)) && !Contains(Strip(extract(f).value), "\n\n")
    ensures var r := LoadInputText(path, IsDir, walk, extract); r.Ok? ==>
      var pieces := Split(r.value.text, "\n\n");
      && |pieces| == |r.value.files|
      && forall k :: 0 <= k < |pieces| ==>
        pieces[k] == "--- " + Basename(r.value.files[k]) + " ---\n" + Strip(extract(r.value.files[k]).value)
  {
    var files := KnowledgeBase.FindSupportedFiles(walk);
    var used := UsedFiles(files, extract);
    if files != [] && used != [] {
      forall k | 0 <= k < |used|
        ensures HasText(extract(used[k])) && NoNewline(Basename(used[k])) && !Contains(Strip(extract(used[k]).value), "\n\n")
      {
        assert used[k] in used;
      }
      PartsSplit(used, extract);
    }
  }
}

=== FILE: paths.dfy ===
/**
 * The parts of POSIX `os.path` the model needs: `basename` and the
 * extension returned by `splitext`.
 */
module Paths {
  import opened Strings

  /** `os.path.basename`: everything after the last '/'. */
  function Basename(path: string): (r: string)
    ensures |r| <= |path| && r == path[|path| - |r|..]
    ensures forall i :: 0 <= i < |r| ==> r[i] != '/'
  {
    path[LastIndexOf(path, '/') + 1..]
  }

  /** The extension `os.path.splitext(path)[1]`: from the last '.' of the
      file name on, unless that dot only belongs to the name's leading
      dots (".bashrc" has no extension). */
  function Extension(path: string): (r: string)
    ensures |r| <= |path| && r == path[|path| - |r|..]
    ensures r == [] || (r[0] == '.' && forall i :: 1 <= i < |r| ==> r[i] != '.' && r[i] != '/')
  {
    var sepIndex := LastIndexOf(path, '/');
    var dotIndex := LastIndexOf(path, '.');
    if dotIndex > sepIndex && !(forall k :: sepIndex + 1 <= k < dotIndex ==> path[k] == '.') then
      path[dotIndex..]
    else
      []
  }

  /** A name with a non-dot character before its last suffix ".xyz" has
      exactly that suffix as its extension. */
  lemma ExtensionOfSuffixed(stem: string, ext: string)
    requires stem != [] && stem[0] != '.'
    requires forall i :: 0 <= i < |stem| ==> stem[i] != '/'
    requires ext != [] && ext[0] == '.'
    requires forall i :: 1 <= i < |ext| ==> ext[i] != '.' && ext[i] != '/'
    ensures Extension(stem + ext) == ext
  {
    var path := stem + ext;
    var sepIndex := LastIndexOf(path, '/');
    var dotIndex := LastIndexOf(path, '.');
    assert path[|stem|] == '.';
    assert dotIndex == |stem|;
    assert sepIndex == -1;
    assert path[0] != '.';
    assert path[dotIndex..] == ext;
  }

  /** The base name of "dir/name" is `name` when `name` holds no '/'. */
  lemma BasenameOfJoin(dir: string, name: string)
    requires forall i :: 0 <= i < |name| ==> name[i] != '/'
    ensures Basename(dir + "/" + name) == name
  {
    var path := dir + "/" + name;
    var k := LastIndexOf(path, '/');
    assert path[|dir|] == '/';
    assert k == |dir|;
    assert path[k + 1..] == name;
  }
}

=== FILE: prompts.dfy ===
/**
 * The parts of `src/core/prompts.py` that carry behaviour rather than
 * prose: timestamps, the part and segment numbering of the summary
 * prompts, the word-target table, the truncation rules of the article
 * prompts and the style switch of the knowledge-base enhancement prompt.
 */
module Prompts {
  import opened Strings
  import opened Results
  import opened Articles
  import Chunker

  // ---------------------------------------------------------------------
  // format_timestamp

  /** Python's `seconds // 3600`, `(seconds % 3600) // 60` and
      `seconds % 60` on a float agree with floor division of the whole
      seconds; Dafny's `/` and `%` floor for a positive divisor. */
  function Hours(seconds: real): int { seconds.Floor / 3600 }
  function Minutes(seconds: real): nat { (seconds.Floor % 3600) / 60 }
  function Secs(seconds: real): nat { seconds.Floor % 60 }

  /** `format_timestamp`: "h:mm:ss" from one hour on, "m:ss" below. */
  function FormatTimestamp(seconds: real): (r: string)
    ensures |r| >= 4 && r[|r| - 3] == ':'
    ensures IsDigit(r[|r| - 2]) && IsDigit(r[|r| - 1])
  {
    var h := Hours(seconds);
    if h > 0 then NatToString(h) + ":" + Pad2(Minutes(seconds)) + ":" + Pad2(Secs(seconds))
    else NatToString(Minutes(seconds)) + ":" + Pad2(Secs(seconds))
  }

  predicate AllDigits(s: string) {
    forall i :: 0 <= i < |s| ==> IsDigit(s[i])
  }

  /** Reads "m:ss" or "h:mm:ss" back into seconds: the reference reading
      of a timestamp. */
  function ParseTimestamp(t: string): Option<int> {
    var fields := Split(t, ":");
    if |fields| == 2 && AllDigits(fields[0]) && AllDigits(fields[1]) && |fields[1]| == 2 then
      Some(60 * ParseNat(fields[0]) + ParseNat(fields[1]))
    else if |fields| == 3 && AllDigits(fields[0]) && AllDigits(fields[1]) && AllDigits(fields[2])
         && |fields[1]| == 2 && |fields[2]| == 2 then
      Some(3600 * ParseNat(fields[0]) + 60 * ParseNat(fields[1]) + ParseNat(fields[2]))
    else None
  }

  lemma DigitsAvoidColon(s: string)
    requires AllDigits(s)
    ensures !Contains(s + ":"[..0], ":")
  {
    assert s + ":"[..0] == s;
    AvoidsFirstChar(s, ":");
  }

  lemma SplitTwoFields(a: string, b: string)
    requires AllDigits(a) && AllDigits(b)
    ensures Split(a + ":" + b, ":") == [a, b]
  {
    DigitsAvoidColon(a);
    DigitsAvoidColon(b);
    assert Join([a, b], ":") == a + ":" + b;
    SplitJoin([a, b], ":");
  }

  lemma SplitThreeFields(a: string, b: string, c: string)
    requires AllDigits(a) && AllDigits(b) && AllDigits(c)
    ensures Split(a + ":" + b + ":" + c, ":") == [a, b, c]
  {
    DigitsAvoidColon(a);
    DigitsAvoidColon(b);
    DigitsAvoidColon(c);
    assert Join([b, c], ":") == b + ":" + c by {
      assert [b, c][1..] == [c];
    }
    assert Join([a, b, c], ":") == a + ":" + b + ":" + c by {
      assert [a, b, c][1..] == [b, c];
    }
    SplitJoin([a, b, c], ":");
  }

  /** The hour, minute and second fields decompose the whole seconds. */
  lemma TimestampFields(seconds: real)
    ensures 0 <= Minutes(seconds) < 60 && 0 <= Secs(seconds) < 60
    ensures Hours(seconds) > 0 ==> 3600 * Hours(seconds) + 60 * Minutes(seconds) + Secs(seconds) == seconds.Floor
    ensures 60 * Minutes(seconds) + Secs(seconds) == seconds.Floor % 3600
  {
    var n := seconds.Floor;
    var r := n % 3600;
    assert n == 3600 * (n / 3600) + r;
    assert r == 60 * (r / 60) + r % 60;
    assert n % 60 == r % 60 by {
      assert n == 60 * (60 * (n / 3600) + r / 60) + r % 60;
    }
  }

  /** The timestamp reads back as the whole seconds, modulo an hour when
      the hour field is dropped: so exactly for 0 <= seconds, and for a
      negative time as the minute-of-hour Python's floor division gives.
      It has two fields below one hour and three from one hour on. */
  lemma FormatTimestampRoundTrip(seconds: real)
    ensures 0.0 <= seconds ==> ParseTimestamp(FormatTimestamp(seconds)) == Some(seconds.Floor)
    ensures seconds < 0.0 ==> ParseTimestamp(FormatTimestamp(seconds)) == Some(seconds.Floor % 3600)
    ensures 0.0 <= seconds < 3600.0 ==> |Split(FormatTimestamp(seconds), ":")| == 2
    ensures 3600.0 <= seconds ==> |Split(FormatTimestamp(seconds), ":")| == 3
  {
    TimestampFields(seconds);
    var h := Hours(seconds);
    var m := Minutes(seconds);
    var s := Secs(seconds);
    if h > 0 {
      ReadHourStamp(h, m, s);
      assert seconds >= 3600.0;
    } else {
      ReadMinuteStamp(m, s);
      if 0.0 <= seconds {
        assert seconds.Floor < 3600;
      }
    }
  }

  /** "h:mm:ss" reads back as its seconds, in three fields. */
  lemma ReadHourStamp(h: nat, m: nat, s: nat)
    requires m < 60 && s < 60
    ensures var t := NatToString(h) + ":" + Pad2(m) + ":" + Pad2(s);
      ParseTimestamp(t) == Some(3600 * h + 60 * m + s) && |Split(t, ":")| == 3
  {
    ParsePad2(m);
    ParsePad2(s);
    ParseNatToString(h);
    SplitThreeFields(NatToString(h), Pad2(m), Pad2(s));
  }

  /** "m:ss" reads back as its seconds, in two fields. */
  lemma ReadMinuteStamp(m: nat, s: nat)
    requires s < 60
    ensures var t := NatToString(m) + ":" + Pad2(s);
      ParseTimestamp(t) == Some(60 * m + s) && |Split(t, ":")| == 2
  {
    ParsePad2(s);
    ParseNatToString(m);
    SplitTwoFields(NatToString(m), Pad2(s));
  }


  // ---------------------------------------------------------------------
  // chunk_summary_prompt and consolidation_prompt numbering

  /** "Part i+1 of n": chunk indexes are shown counted from one. */
  function PartLabel(chunkIndex: nat, totalChunks: nat): string {
    "Part " + NatToString(chunkIndex + 1) + " of " + NatToString(totalChunks)
  }

  /** The part of a caption after the part label: the time span. */
  function CaptionTail(chunk: Chunker.TimedChunk): string {
    ", covering " + FormatTimestamp(chunk.startTime) + " to " + FormatTimestamp(chunk.endTime) + ")"
  }

  /** The parenthesised line of `chunk_summary_prompt` that places a chunk:
      its part number and the time span it covers. */
  function ChunkCaption(chunk: Chunker.TimedChunk, chunkIndex: nat, totalChunks: nat): string {
    "(" + (PartLabel(chunkIndex, totalChunks) + CaptionTail(chunk))
  }

  /** A part label followed by a non-digit determines the chunk index and
      the chunk count. */
  lemma PartLabelInjective(i: nat, n: nat, t1: string, j: nat, m: nat, t2: string)
    requires t1 != [] && !IsDigit(t1[0]) && t2 != [] && !IsDigit(t2[0])
    requires PartLabel(i, n) + t1 == PartLabel(j, m) + t2
    ensures i == j && n == m
  {
    var d1, d2 := NatToString(i + 1), NatToString(j + 1);
    var e1, e2 := NatToString(n), NatToString(m);
    var r1, r2 := " of " + (e1 + t1), " of " + (e2 + t2);
    assert PartLabel(i, n) + t1 == "Part " + (d1 + r1);
    assert PartLabel(j, m) + t2 == "Part " + (d2 + r2);
    CancelPrefix("Part ", d1 + r1, d2 + r2);
    assert r1[0] == ' ' && r2[0] == ' ';
    DigitsPrefixUnique(d1, r1, d2, r2);
    NatToStringInjective(i + 1, j + 1);
    CancelPrefix(" of ", e1 + t1, e2 + t2);
    DigitsPrefixUnique(e1, t1, e2, t2);
    NatToStringInjective(n, m);
  }



  /** Different chunks get different captions: the caption determines the
      chunk index and the chunk count. */
  lemma ChunkCaptionInjective(c1: Chunker.TimedChunk, i: nat, n: nat, c2: Chunker.TimedChunk, j: nat, m: nat)
    requires ChunkCaption(c1, i, n) == ChunkCaption(c2, j, m)
    ensures i == j && n == m
  {
    var x1 := PartLabel(i, n) + CaptionTail(c1);
    var x2 := PartLabel(j, m) + CaptionTail(c2);
    assert x1 == ChunkCaption(c1, i, n)[1..];
    assert x2 == ChunkCaption(c2, j, m)[1..];
    PartLabelInjective(i, n, CaptionTail(c1), j, m, CaptionTail(c2));
  }

  /** The heading and body of one summary in `consolidation_prompt`. */
  function SegmentBlock(i: nat, summary: string): string {
    "### Segment " + NatToString(i + 1) + "\n" + summary
  }

  const SEGMENT_SEPARATOR: string := "\n\n---\n\n"

  /** The `combined` text of `consolidation_prompt`. */
  function CombinedSummaries(summaries: seq<string>): string {
    Join(seq(|summaries|, i requires 0 <= i < |summaries| => SegmentBlock(i, summaries[i])), SEGMENT_SEPARATOR)
  }

  /** A summary that, between its heading's line break and the separator
      that follows it, does not itself produce the separator. */
  predicate SeparableSummary(summary: string) {
    !Contains("\n" + summary + SEGMENT_SEPARATOR[..|SEGMENT_SEPARATOR| - 1], SEGMENT_SEPARATOR)
  }

  lemma SegmentBlockSeparable(i: nat, summary: string)
    requires SeparableSummary(summary)
    ensures !Contains(SegmentBlock(i, summary) + SEGMENT_SEPARATOR[..|SEGMENT_SEPARATOR| - 1], SEGMENT_SEPARATOR)
  {
    var head := "### Segment " + NatToString(i + 1);
    var tail := "\n" + summary + SEGMENT_SEPARATOR[..|SEGMENT_SEPARATOR| - 1];
    assert SegmentBlock(i, summary) + SEGMENT_SEPARATOR[..|SEGMENT_SEPARATOR| - 1] == head + tail;
    forall k | 0 <= k < |head| ensures head[k] != '\n' {
      if k >= 12 {
        assert head[k] == NatToString(i + 1)[k - 12];
      }
    }
    if Contains(head + tail, SEGMENT_SEPARATOR) {
      ContainsSkip(head, tail, SEGMENT_SEPARATOR);
    }
  }

  /** Splitting the combined text at the separator gives back one block per
      summary, in input order, the i-th headed "### Segment i+1". */
  lemma CombinedSummariesSplitBack(summaries: seq<string>)
    requires summaries != []
    requires forall k :: 0 <= k < |summaries| ==> SeparableSummary(summaries[k])
    ensures var blocks := Split(CombinedSummaries(summaries), SEGMENT_SEPARATOR);
      && |blocks| == |summaries|
      && forall i :: 0 <= i < |blocks| ==> blocks[i] == "### Segment " + NatToString(i + 1) + "\n" + summaries[i]
  {
    var blocks := seq(|summaries|, i requires 0 <= i < |summaries| => SegmentBlock(i, summaries[i]));
    forall k | 0 <= k < |blocks|
      ensures !Contains(blocks[k] + SEGMENT_SEPARATOR[..|SEGMENT_SEPARATOR| - 1], SEGMENT_SEPARATOR)
    {
      SegmentBlockSeparable(k, summaries[k]);
    }
    SplitJoin(blocks, SEGMENT_SEPARATOR);
  }

  // ---------------------------------------------------------------------
  // LENGTH_WORD_TARGETS

  const LENGTH_WORD_TARGETS: map<string, nat> := map["short" := 400, "medium" := 900, "long" := 1800]

  /** `LENGTH_WORD_TARGETS.get(target_length, 900)`. */
  function WordTarget(targetLength: string): (r: nat)
    ensures r == 400 <==> targetLength == "short"
    ensures r == 1800 <==> targetLength == "long"
    ensures r == 900 <==> targetLength != "short" && targetLength != "long"
  {
    if targetLength in LENGTH_WORD_TARGETS then LENGTH_WORD_TARGETS[targetLength] else 900
  }

  // ---------------------------------------------------------------------
  // article_ranking_prompt, solo_script_prompt, two_host_script_prompt

  /** One line of the ranking prompt's article list: the article's
      position from 0, its title in brackets and the first 200 characters
      of its summary. */
  function RankingLine(i: nat, a: Article): string {
    NatToString(i) + ". [" + a.title + "] — " + Prefix(a.summary, 200)
  }

  function RankingList(articles: seq<Article>): string {
    Join(seq(|articles|, i requires 0 <= i < |articles| => RankingLine(i, articles[i])), "\n")
  }

  predicate SingleLine(s: string) {
    forall i :: 0 <= i < |s| ==> s[i] != '\n'
  }

  lemma {:induction false} RankingLineSingle(i: nat, a: Article)
    requires SingleLine(a.title) && SingleLine(a.summary)
    ensures SingleLine(RankingLine(i, a))
  {
    var p := Prefix(a.summary, 200);
    assert SingleLine(p) by {
      forall k | 0 <= k < |p| ensures p[k] != '\n' {
        assert p[k] == a.summary[k];
      }
    }
    var d := NatToString(i);
    assert SingleLine(d) by {
      forall k | 0 <= k < |d| ensures d[k] != '\n' {
        assert IsDigit(d[k]);
      }
    }
  }

  /** With one-line titles and summaries the ranking list has one line per
      article, in order, starting with its index from 0, and no summary
      contributes more than 200 characters. */
  lemma RankingListLines(articles: seq<Article>)
    requires articles != []
    requires forall k :: 0 <= k < |articles| ==> SingleLine(articles[k].title) && SingleLine(articles[k].summary)
    ensures var lines := Split(RankingList(articles), "\n");
      && |lines| == |articles|
      && forall i :: 0 <= i < |lines| ==>
           lines[i] == NatToString(i) + ". [" + articles[i].title + "] — " + Prefix(articles[i].summary, 200)
    ensures forall i :: 0 <= i < |articles| ==>
      |Prefix(articles[i].summary, 200)| <= 200 && articles[i].summary[..|Prefix(articles[i].summary, 200)|] == Prefix(articles[i].summary, 200)
  {
    var lines := seq(|articles|, i requires 0 <= i < |articles| => RankingLine(i, articles[i]));
    forall k | 0 <= k < |lines| ensures !Contains(lines[k] + "\n"[..0], "\n") {
      RankingLineSingle(k, articles[k]);
      assert lines[k] + "\n"[..0] == lines[k];
      AvoidsFirstChar(lines[k], "\n");
    }
    SplitJoin(lines, "\n");
  }

  /** The text a script prompt shows for an article: its content when it
      has one (even an empty one), its summary otherwise, cut to 2000
      characters. */
  function ArticleBody(a: Article): (r: string)
    ensures |r| <= 2000
    ensures a.content.Some? ==>
      |r| <= |a.content.value| && r == a.content.value[..|r|] && (|r| < 2000 ==> r == a.content.value)
    ensures a.content.None? ==>
      |r| <= |a.summary| && r == a.summary[..|r|] && (|r| < 2000 ==> r == a.summary)
  {
    Prefix(a.content.GetOr(a.summary), 2000)
  }

  /** One article block of the script prompts. */
  function ArticleBlock(a: Article): string {
    "### " + a.title + "\nSource: " + a.url + "\n\n" + ArticleBody(a)
  }

  /** The `article_blocks` text shared by both script prompts: the blocks
      joined by the same separator as the combined summaries. */
  function ArticleBlocks(articles: seq<Article>): (r: string)
    ensures r == [] <==> articles == []
  {
    var blocks := seq(|articles|, i requires 0 <= i < |articles| => ArticleBlock(articles[i]));
    if blocks == [] then []
    else JoinStartsWithHead(blocks, SEGMENT_SEPARATOR); Join(blocks, SEGMENT_SEPARATOR)
  }

  /** A block's first line is its heading: the title after "### ". */
  lemma ArticleBlockHeading(a: Article)
    requires SingleLine(a.title)
    ensures FirstField(ArticleBlock(a), '\n') == "### " + a.title
  {
    var t := "### " + a.title;
    assert ArticleBlock(a) == (t + ['\n']) + ("Source: " + a.url + "\n\n" + ArticleBody(a));
    assert forall i :: 0 <= i < |t| ==> t[i] != '\n' by {
      assert forall i :: 4 <= i < |t| ==> t[i] == a.title[i - 4];
    }
    FirstFieldIs(ArticleBlock(a), '\n', t);
  }

  /** A body that cannot complete the separator, even run on into the
      next one. */
  predicate SeparableBody(body: string) {
    !Contains("\n\n" + body + SEGMENT_SEPARATOR[..|SEGMENT_SEPARATOR| - 1], SEGMENT_SEPARATOR)
  }

  /** An article whose title and URL are one line each and whose body is
      separable has a block that does not complete the separator. */
  lemma ArticleBlockSeparable(a: Article)
    requires SingleLine(a.title) && SingleLine(a.url) && SeparableBody(ArticleBody(a))
    ensures !Contains(ArticleBlock(a) + SEGMENT_SEPARATOR[..|SEGMENT_SEPARATOR| - 1], SEGMENT_SEPARATOR)
  {
    var sep := SEGMENT_SEPARATOR;
    var head := "### " + a.title;
    var source := "Source: " + a.url;
    var tail := "\n\n" + ArticleBody(a) + sep[..|sep| - 1];
    var mid := ['\n'] + (source + tail);
    assert ArticleBlock(a) + sep[..|sep| - 1] == head + mid;
    assert forall i :: 0 <= i < |head| ==> head[i] != '\n' by {
      assert forall i :: 4 <= i < |head| ==> head[i] == a.title[i - 4];
    }
    assert forall i :: 0 <= i < |source| ==> source[i] != '\n' by {
      assert forall i :: 8 <= i < |source| ==> source[i] == a.url[i - 8];
    }
    if Contains(head + mid, sep) {
      ContainsSkip(head, mid, sep);
      assert !StartsWith(mid, sep) by {
        assert mid[1] == 'S';
      }
      assert mid[1..] == source + tail;
      ContainsSkip(source, tail, sep);
      assert false;
    }
  }

  /** Splitting the article blocks at the separator gives back one block
      per article, in order: its heading, its source line, a blank line
      and its body. */
  lemma ArticleBlocksSplitBack(articles: seq<Article>)
    requires articles != []
    requires forall k :: 0 <= k < |articles| ==>
      SingleLine(articles[k].title) && SingleLine(articles[k].url) && SeparableBody(ArticleBody(articles[k]))
    ensures var blocks := Split(ArticleBlocks(articles), SEGMENT_SEPARATOR);
      && |blocks| == |articles|
      && forall i :: 0 <= i < |blocks| ==>
           blocks[i] == "### " + articles[i].title + "\nSource: " + articles[i].url + "\n\n" + ArticleBody(articles[i])
  {
    var blocks := seq(|articles|, i requires 0 <= i < |articles| => ArticleBlock(articles[i]));
    forall k | 0 <= k < |blocks|
      ensures !Contains(blocks[k] + SEGMENT_SEPARATOR[..|SEGMENT_SEPARATOR| - 1], SEGMENT_SEPARATOR)
    {
      ArticleBlockSeparable(articles[k]);
    }
    SplitJoin(blocks, SEGMENT_SEPARATOR);
  }

  // ---------------------------------------------------------------------
  // kb_enhance_podcast_prompt

  const TWO_HOST_FORMAT_NOTE: string :=
    "Keep every line prefixed with \"ALEX:\" or \"SAM:\". Add KB-informed remarks as natural dialogue exchanges."
  const SOLO_FORMAT_NOTE: string := "Keep the single-host narrative style."

  /** The format note: the ALEX/SAM instruction exactly for the
      "two_host" style, the single-host note for every other style. */
  function FormatNote(style: string): (r: string)
    ensures r == TWO_HOST_FORMAT_NOTE <==> style == "two_host"
    ensures r == SOLO_FORMAT_NOTE <==> style != "two_host"
  {
    if style == "two_host" then TWO_HOST_FORMAT_NOTE else SOLO_FORMAT_NOTE
  }
}

=== FILE: results.dfy ===
/** Absent values and error results, in place of Python's `None` and of
    exceptions / `sys.exit` calls. */
module Results {

  /** A value that may be missing (`None` in Python). */
  datatype Option<+T> = None | Some(value: T) {

    function GetOr(default: T): T {
      match this
      case Some(v) => v
      case None => default
    }
  }

  /** Either a value or the error that stopped the computation. */
  datatype Result<+T, +E> = Ok(value: T) | Err(error: E)

  /** Success, or the error that a check reported. */
  datatype Outcome<+E> = Pass | Fail(error: E)
}

=== FILE: scriptwriter.dfy ===
/**
 * The article plumbing of `generate_podcast` in
 * `src/podcast/scriptwriter.py`: configuration defaults, whether to enrich
 * at all, the URL-de-duplicating merge of web-search results into the RSS
 * articles, selection by the ranked indices, filling in article content,
 * and the sources markdown. Fetching, ranking replies, extraction and the
 * script itself are inputs.
 */
module Scriptwriter {
  import opened Strings
  import opened Results
  import opened Articles
  import Llm
  import Prompts

  const DEFAULT_MAX_ARTICLES: int := 5
  const DEFAULT_STYLE: string := "solo"
  const DEFAULT_TARGET_LENGTH: string := "medium"

  /** The "podcast" section of the configuration; absent keys are `None`. */
  datatype PodcastSection = PodcastSection(maxArticles: Option<int>, style: Option<string>, targetLength: Option<string>)

  datatype Settings = Settings(maxArticles: int, style: string, targetLength: string)

  /** The three `podcast_cfg.get(key, default)` lookups. */
  function ResolveSettings(section: PodcastSection): (s: Settings)
    ensures section.maxArticles.None? ==> s.maxArticles == DEFAULT_MAX_ARTICLES
    ensures section.maxArticles.Some? ==> s.maxArticles == section.maxArticles.value
    ensures section.style.None? ==> s.style == DEFAULT_STYLE
    ensures section.style.Some? ==> s.style == section.style.value
    ensures section.targetLength.None? ==> s.targetLength == DEFAULT_TARGET_LENGTH
    ensures section.targetLength.Some? ==> s.targetLength == section.targetLength.value
  {
    Settings(section.maxArticles.GetOr(DEFAULT_MAX_ARTICLES), section.style.GetOr(DEFAULT_STYLE),
             section.targetLength.GetOr(DEFAULT_TARGET_LENGTH))
  }

  /** An empty configuration gives a medium-length solo show with up to
      five articles, and the medium length targets 900 words. */
  lemma EmptyConfigDefaults()
    ensures ResolveSettings(PodcastSection(None, None, None)) == Settings(5, "solo", "medium")
    ensures Prompts.WordTarget(ResolveSettings(PodcastSection(None, None, None)).targetLength) == 900
  {
  }

  /** `bool(feed_urls) or web_search_enabled`. */
  function EnrichmentEnabled(feedUrls: seq<string>, webSearch: bool): (r: bool)
    ensures r <==> feedUrls != [] || webSearch
  {
    |feedUrls| > 0 || webSearch
  }

  // ---------------------------------------------------------------------
  // Merging web results

  /** The URLs of a list of articles, as a set: the `seen` set of the loop
      always equals this set for the list built so far. */
  function UrlSet(articles: seq<Article>): set<string> {
    set i | 0 <= i < |articles| :: articles[i].url
  }

  /** The loop that appends each web article whose URL is not yet among
      the articles. */
  function MergeWebArticles(articles: seq<Article>, web: seq<Article>): (r: seq<Article>)
    ensures |articles| <= |r| <= |articles| + |web| && r[..|articles|] == articles
    ensures forall i :: |articles| <= i < |r| ==> r[i] in web
    decreases |web|
  {
    if web == [] then articles
    else if web[0].url in UrlSet(articles) then MergeWebArticles(articles, web[1..])
    else
      var r := MergeWebArticles(articles + [web[0]], web[1..]);
      assert r[..|articles|] == (articles + [web[0]])[..|articles|];
      r
  }

  /** Appending an article with an unseen URL keeps the URLs unique. */
  lemma AppendUnique(articles: seq<Article>, a: Article)
    requires a.url !in UrlSet(articles)
    ensures UniqueUrls(articles) ==> UniqueUrls(articles + [a])
    ensures UrlSet(articles + [a]) == UrlSet(articles) + {a.url}
  {
    var r := articles + [a];
    if UniqueUrls(articles) {
      forall i, j | 0 <= i < j < |r| ensures r[i].url != r[j].url {
        if j == |articles| {
          assert r[i].url in UrlSet(articles);
        }
      }
    }
    assert forall i :: 0 <= i < |articles| ==> r[i] == articles[i];
    assert r[|articles|] == a;
  }

  /** Unique URLs stay unique, and the URLs after the merge are those of
      the articles and of the web results together. */
  lemma {:induction false} MergeWebArticlesSpec(articles: seq<Article>, web: seq<Article>)
    ensures UniqueUrls(articles) ==> UniqueUrls(MergeWebArticles(articles, web))
    ensures UrlSet(MergeWebArticles(articles, web)) == UrlSet(articles) + UrlSet(web)
    decreases |web|
  {
    if web != [] {
      assert UrlSet(web) == {web[0].url} + UrlSet(web[1..]) by {
        assert forall i :: 1 <= i < |web| ==> web[i] == web[1..][i - 1];
        assert forall i :: 0 <= i < |web[1..]| ==> web[1..][i] == web[i + 1];
      }
      if web[0].url in UrlSet(articles) {
        MergeWebArticlesSpec(articles, web[1..]);
      } else {
        AppendUnique(articles, web[0]);
        MergeWebArticlesSpec(articles + [web[0]], web[1..]);
      }
    }
  }

  /** The loop walks the web results in order: merging a concatenation
      merges the first part, then the second into that result. */
  lemma {:induction false} MergeWebArticlesAppend(articles: seq<Article>, w1: seq<Article>, w2: seq<Article>)
    ensures MergeWebArticles(articles, w1 + w2) == MergeWebArticles(MergeWebArticles(articles, w1), w2)
    decreases |w1|
  {
    if w1 == [] {
      assert w1 + w2 == w2;
    } else {
      assert (w1 + w2)[0] == w1[0];
      assert (w1 + w2)[1..] == w1[1..] + w2;
      if w1[0].url in UrlSet(articles) {
        MergeWebArticlesAppend(articles, w1[1..], w2);
      } else {
        MergeWebArticlesAppend(articles + [w1[0]], w1[1..], w2);
      }
    }
  }

  /** One web result is appended at the end exactly when its URL is not
      among the articles yet. */
  lemma MergeWebArticlesOne(articles: seq<Article>, w: Article)
    ensures MergeWebArticles(articles, [w]) == if w.url in UrlSet(articles) then articles else articles + [w]
  {
    assert [w][1..] == [];
  }

  // ---------------------------------------------------------------------
  // Selection and content

  /** `[all_articles[i] for i in top_indices]`. */
  function SelectArticles(all: seq<Article>, indices: seq<int>): (r: seq<Article>)
    requires forall k :: 0 <= k < |indices| ==> 0 <= indices[k] < |all|
    ensures |r| == |indices|
    ensures forall k :: 0 <= k < |r| ==> r[k] == all[indices[k]]
  {
    seq(|indices|, k requires 0 <= k < |indices| => all[indices[k]])
  }

  /** The articles of a ranking, in ranked order: the ranking only names
      existing articles, so the selection is always defined, and it holds
      no more than `max_articles` of them. */
  lemma SelectRanked(all: seq<Article>, decode: string -> Option<seq<Llm.JsonValue>>, response: string, maxArticles: int)
    ensures var ranking := Llm.RankArticles(decode, response, |all|, maxArticles);
      && (forall k :: 0 <= k < |ranking| ==> 0 <= ranking[k] < |all|)
      && var selected := SelectArticles(all, ranking);
      && (forall k :: 0 <= k < |selected| ==> selected[k] in all)
      && (maxArticles >= 0 ==> |selected| <= maxArticles)
  {
  }

  /** `article["content"] = text or article.get("summary", "")`, for the
      extracted text `extract(url)` (`None` when extraction fails). */
  function WithContent(a: Article, extract: string -> Option<string>): (r: Article)
    ensures r.title == a.title && r.url == a.url && r.summary == a.summary && r.origin == a.origin
    ensures r.content.Some?
    ensures extract(a.url).Some? && extract(a.url).value != [] ==> r.content.value == extract(a.url).value
    ensures extract(a.url).None? || extract(a.url).value == [] ==> r.content.value == a.summary
  {
    var text := extract(a.url);
    a.(content := Some(if text.Some? && text.value != [] then text.value else a.summary))
  }

  /** `text or article.get("summary", "")`. */
  function ExtractedOrSummary(a: Article, extract: string -> Option<string>): string {
    var text := extract(a.url);
    if text.Some? && text.value != [] then text.value else a.summary
  }

  /** Stage 3 of `generate_podcast`: every selected article, in place,
      gets its extracted text, or its summary, as content; nothing else
      about it changes. */
  function FillContent(selected: seq<Article>, extract: string -> Option<string>): (r: seq<Article>)
    ensures |r| == |selected|
    ensures forall k :: 0 <= k < |r| ==>
      && r[k].title == selected[k].title && r[k].url == selected[k].url
      && r[k].summary == selected[k].summary && r[k].origin == selected[k].origin
      && r[k].content == Some(ExtractedOrSummary(selected[k], extract))
  {
    seq(|selected|, k requires 0 <= k < |selected| => WithContent(selected[k], extract))
  }

  /** The article blocks of the script prompt built after extraction split
      back, in selection order, into each article's heading, its source
      line and the first 2000 characters of its extracted text or
      summary. */
  lemma FilledBlocksSplitBack(selected: seq<Article>, extract: string -> Option<string>)
    requires selected != []
    requires forall k :: 0 <= k < |selected| ==>
      && Prompts.SingleLine(selected[k].title) && Prompts.SingleLine(selected[k].url)
      && Prompts.SeparableBody(Prefix(ExtractedOrSummary(selected[k], extract), 2000))
    ensures var blocks := Split(Prompts.ArticleBlocks(FillContent(selected, extract)), Prompts.SEGMENT_SEPARATOR);
      && |blocks| == |selected|
      && forall i :: 0 <= i < |blocks| ==>
           blocks[i] == "### " + selected[i].title + "\nSource: " + selected[i].url + "\n\n"
                        + Prefix(ExtractedOrSummary(selected[i], extract), 2000)
  {
    var filled := FillContent(selected, extract);
    assert forall k :: 0 <= k < |filled| ==>
      Prompts.ArticleBody(filled[k]) == Prefix(ExtractedOrSummary(selected[k], extract), 2000);
    Prompts.ArticleBlocksSplitBack(filled);
  }

  /** The script prompt shows an article's extracted text when there is
      any, and its summary otherwise, cut to 2000 characters. */
  lemma PromptBodyAfterExtraction(a: Article, extract: string -> Option<string>)
    ensures var body := Prompts.ArticleBody(WithContent(a, extract));
      var whole := if extract(a.url).Some? && extract(a.url).value != [] then extract(a.url).value else a.summary;
      |body| <= 2000 && |body| <= |whole| && body == whole[..|body|] && (|whole| <= 2000 ==> body == whole)
  {
  }

  /** Stage 1 of `generate_podcast`: the RSS articles when feeds are
      configured, with the web results merged in when search is on. */
  function FetchedArticles(feedUrls: seq<string>, webSearch: bool, rss: seq<Article>, web: seq<Article>): (r: seq<Article>)
    ensures forall a :: a in r ==> (feedUrls != [] && a in rss) || (webSearch && a in web)
    ensures feedUrls != [] ==> |rss| <= |r| && r[..|rss|] == rss
    ensures UniqueUrls(rss) ==> UniqueUrls(r)
    ensures webSearch ==> UrlSet(web) <= UrlSet(r)
  {
    var fetched := if feedUrls != [] then rss else [];
    if webSearch then
      MergeWebArticlesSpec(fetched, web);
      var all := MergeWebArticles(fetched, web);
      assert forall a :: a in all ==> a in fetched || a in web by {
        forall a | a in all ensures a in fetched || a in web {
          var i :| 0 <= i < |all| && all[i] == a;
          if i < |fetched| {
            assert all[..|fetched|][i] == fetched[i];
          }
        }
      }
      all
    else
      fetched
  }

  /** Which web results stage 1 appends, and in what order: with no web
      results it yields the RSS articles when feeds are configured, and
      one more web result is appended at the end exactly when search is
      on and its URL is not among the articles gathered so far. */
  lemma FetchedArticlesStep(feedUrls: seq<string>, webSearch: bool, rss: seq<Article>, web: seq<Article>, w: Article)
    ensures FetchedArticles(feedUrls, webSearch, rss, []) == if feedUrls != [] then rss else []
    ensures var before := FetchedArticles(feedUrls, webSearch, rss, web);
      FetchedArticles(feedUrls, webSearch, rss, web + [w])
        == if webSearch && w.url !in UrlSet(before) then before + [w] else before
  {
    var fetched := if feedUrls != [] then rss else [];
    if webSearch {
      MergeWebArticlesAppend(fetched, web, [w]);
      MergeWebArticlesOne(MergeWebArticles(fetched, web), w);
    }
  }

  /** Stages 1 and 2 of `generate_podcast`: nothing without enrichment;
      otherwise the fetched articles the ranking reply selects, in ranked
      order. */
  function GatherArticles(settings: Settings, feedUrls: seq<string>, webSearch: bool, rss: seq<Article>, web: seq<Article>,
                          decode: string -> Option<seq<Llm.JsonValue>>, response: string): (r: seq<Article>)
    ensures !EnrichmentEnabled(feedUrls, webSearch) ==> r == []
    ensures forall k :: 0 <= k < |r| ==> (feedUrls != [] && r[k] in rss) || (webSearch && r[k] in web)
    ensures settings.maxArticles >= 0 ==> |r| <= settings.maxArticles
  {
    if !EnrichmentEnabled(feedUrls, webSearch) then []
    else
      var all := FetchedArticles(feedUrls, webSearch, rss, web);
      if all == [] then []
      else
        SelectRanked(all, decode, response, settings.maxArticles);
        SelectArticles(all, Llm.RankArticles(decode, response, |all|, settings.maxArticles))
  }

  // ---------------------------------------------------------------------
  // Sources markdown

  /** Each line followed by "\n": the string a loop of `+= f"...\n"`
      builds. */
  function Terminated(lines: seq<string>): string
    decreases |lines|
  {
    if lines == [] then [] else lines[0] + "\n" + Terminated(lines[1..])
  }

  function FileLines(sourceFiles: seq<string>): seq<string> {
    seq(|sourceFiles|, i requires 0 <= i < |sourceFiles| => "- " + sourceFiles[i])
  }

  function ArticleLines(selected: seq<Article>): seq<string> {
    seq(|selected|, i requires 0 <= i < |selected| => NatToString(i + 1) + ". [" + selected[i].title + "](" + selected[i].url + ")")
  }

  /** The markdown of `generate_podcast`: the primary sources, then the
      supplementary articles numbered from 1 when there are any. */
  function SourcesMarkdown(sourceFiles: seq<string>, selected: seq<Article>): string {
    TITLE_LINE + "\n\n" + PRIMARY_HEADING + "\n"
    + (if sourceFiles != [] then Terminated(FileLines(sourceFiles)) else PROVIDED_TEXT_LINE + "\n")
    + (if selected != [] then "\n" + ARTICLES_HEADING + "\n" + Terminated(ArticleLines(selected)) else "")
  }

  /** The lines of the markdown, as a list: the heading, the primary
      input, and the supplementary articles. */
  function SourceLines(sourceFiles: seq<string>, selected: seq<Article>): seq<string> {
    HeadLines() + PrimaryLines(sourceFiles) + SupplementLines(selected)
  }

  function HeadLines(): seq<string> {
    [TITLE_LINE, "", PRIMARY_HEADING]
  }

  function PrimaryLines(sourceFiles: seq<string>): seq<string> {
    if sourceFiles != [] then FileLines(sourceFiles) else [PROVIDED_TEXT_LINE]
  }

  function SupplementLines(selected: seq<Article>): seq<string> {
    if selected != [] then ["", ARTICLES_HEADING] + ArticleLines(selected) else []
  }

  lemma {:induction false} TerminatedAppend(a: seq<string>, b: seq<string>)
    ensures Terminated(a + b) == Terminated(a) + Terminated(b)
    decreases |a|
  {
    if a == [] {
      assert a + b == b;
    } else {
      assert (a + b)[1..] == a[1..] + b;
      TerminatedAppend(a[1..], b);
    }
  }

  /** Cutting newline-terminated lines at "\n" gives the lines back, and
      one empty piece after the last newline. */
  lemma {:induction false} TerminatedSplit(lines: seq<string>)
    requires forall k :: 0 <= k < |lines| ==> NoBreak(lines[k])
    ensures Split(Terminated(lines), "\n") == lines + [""]
    decreases |lines|
  {
    if lines == [] {
      assert Split([], "\n") == [[]];
    } else {
      var p := lines[0];
      assert p + "\n"[..0] == p;
      if Contains(p, "\n") {
        AvoidsFirstChar(p, "\n");
      }
      SplitAfterPiece(p, "\n", Terminated(lines[1..]));
      TerminatedSplit(lines[1..]);
      assert lines + [""] == [p] + (lines[1..] + [""]);
    }
  }

  predicate NoBreak(s: string) {
    forall i :: 0 <= i < |s| ==> s[i] != '\n'
  }

  lemma TerminatedCons(line: string, rest: seq<string>)
    ensures Terminated([line] + rest) == line + "\n" + Terminated(rest)
  {
    assert ([line] + rest)[1..] == rest;
  }

  const TITLE_LINE: string := "# Podcast Sources"
  const PRIMARY_HEADING: string := "## Primary Input"
  const PROVIDED_TEXT_LINE: string := "- (provided text)"
  const ARTICLES_HEADING: string := "## Supplementary Articles"

  lemma HeadText()
    ensures Terminated(HeadLines()) == TITLE_LINE + "\n\n" + PRIMARY_HEADING + "\n"
  {
    TerminatedCons(TITLE_LINE, ["", PRIMARY_HEADING]);
    TerminatedCons("", [PRIMARY_HEADING]);
    TerminatedCons(PRIMARY_HEADING, []);
  }

  lemma PrimaryText(sourceFiles: seq<string>)
    ensures Terminated(PrimaryLines(sourceFiles))
         == if sourceFiles != [] then Terminated(FileLines(sourceFiles)) else PROVIDED_TEXT_LINE + "\n"
  {
    if sourceFiles == [] {
      TerminatedCons(PROVIDED_TEXT_LINE, []);
    }
  }

  lemma SupplementText(selected: seq<Article>)
    ensures Terminated(SupplementLines(selected))
         == if selected != [] then "\n" + ARTICLES_HEADING + "\n" + Terminated(ArticleLines(selected)) else ""
  {
    if selected != [] {
      TerminatedAppend(["", ARTICLES_HEADING], ArticleLines(selected));
      TerminatedCons("", [ARTICLES_HEADING]);
      TerminatedCons(ARTICLES_HEADING, []);
    }
  }

  /** The markdown is its lines, each ended by a newline. */
  lemma SourcesMarkdownIsLines(sourceFiles: seq<string>, selected: seq<Article>)
    ensures SourcesMarkdown(sourceFiles, selected) == Terminated(SourceLines(sourceFiles, selected))
  {
    TerminatedAppend(HeadLines() + PrimaryLines(sourceFiles), SupplementLines(selected));
    TerminatedAppend(HeadLines(), PrimaryLines(sourceFiles));
    HeadText();
    PrimaryText(sourceFiles);
    SupplementText(selected);
  }

  /** When no file name, title or URL holds a newline, the markdown read
      line by line is exactly: the title, a blank line, the primary-input
      heading, one "- f" line per source file (or "- (provided text)"),
      and, only with a selection, a blank line, the articles heading and
      "i. [title](url)" numbered from 1. */
  lemma SourcesMarkdownLines(sourceFiles: seq<string>, selected: seq<Article>)
    requires forall k :: 0 <= k < |sourceFiles| ==> NoBreak(sourceFiles[k])
    requires forall k :: 0 <= k < |selected| ==> NoBreak(selected[k].title) && NoBreak(selected[k].url)
    ensures Split(SourcesMarkdown(sourceFiles, selected), "\n") == SourceLines(sourceFiles, selected) + [""]
  {
    SourcesMarkdownIsLines(sourceFiles, selected);
    var head, primary, supplement := HeadLines(), PrimaryLines(sourceFiles), SupplementLines(selected);
    assert AllNoBreak(head);
    PrimaryNoBreak(sourceFiles);
    SupplementNoBreak(selected);
    AllNoBreakAppend(head, primary);
    AllNoBreakAppend(head + primary, supplement);
    TerminatedSplit(SourceLines(sourceFiles, selected));
  }

  lemma PrimaryNoBreak(sourceFiles: seq<string>)
    requires forall k :: 0 <= k < |sourceFiles| ==> NoBreak(sourceFiles[k])
    ensures AllNoBreak(PrimaryLines(sourceFiles))
  {
    var primary := PrimaryLines(sourceFiles);
    forall k | 0 <= k < |primary| ensures NoBreak(primary[k]) {
      if sourceFiles != [] {
        NoBreakConcat("- ", sourceFiles[k]);
      }
    }
  }

  lemma SupplementNoBreak(selected: seq<Article>)
    requires forall k :: 0 <= k < |selected| ==> NoBreak(selected[k].title) && NoBreak(selected[k].url)
    ensures AllNoBreak(SupplementLines(selected))
  {
    var supplement := SupplementLines(selected);
    forall k | 0 <= k < |supplement| ensures NoBreak(supplement[k]) {
      if k >= 2 {
        ArticleLineNoBreak(selected, k - 2);
      }
    }
  }

  predicate AllNoBreak(lines: seq<string>) {
    forall k :: 0 <= k < |lines| ==> NoBreak(lines[k])
  }

  lemma AllNoBreakAppend(a: seq<string>, b: seq<string>)
    requires AllNoBreak(a) && AllNoBreak(b)
    ensures AllNoBreak(a + b)
  {
    forall k | 0 <= k < |a + b| ensures NoBreak((a + b)[k]) {
      if k >= |a| {
        assert (a + b)[k] == b[k - |a|];
      }
    }
  }

  lemma NoBreakConcat(a: string, b: string)
    requires NoBreak(a) && NoBreak(b)
    ensures NoBreak(a + b)
  {
    forall i | 0 <= i < |a + b| ensures (a + b)[i] != '\n' {
      if i >= |a| {
        assert (a + b)[i] == b[i - |a|];
      }
    }
  }

  lemma ArticleLineNoBreak(selected: seq<Article>, i: int)
    requires forall k :: 0 <= k < |selected| ==> NoBreak(selected[k].title) && NoBreak(selected[k].url)
    requires 0 <= i < |selected|
    ensures NoBreak(ArticleLines(selected)[i])
  {
    var number := NatToString(i + 1);
    assert NoBreak(number) by {
      forall c | 0 <= c < |number| ensures number[c] != '\n' {
        assert IsDigit(number[c]);
      }
    }
    NoBreakConcat(number, ". [");
    NoBreakConcat(number + ". [", selected[i].title);
    NoBreakConcat(number + ". [" + selected[i].title, "](");
    NoBreakConcat(number + ". [" + selected[i].title + "](", selected[i].url);
    NoBreakConcat(number + ". [" + selected[i].title + "](" + selected[i].url, ")");
  }
}

=== FILE: strings.dfy ===
/**
 * Python `str` semantics that the rest of the model relies on: whitespace
 * (`str.isspace`), `strip`, `split(sep)`, `split()` word counting, `join`,
 * `splitlines`, ASCII `lower`, prefix slicing `s[:n]`, and `str(n)` for
 * natural numbers together with its inverse.
 */
module Strings {

  /** `str.isspace()` for one character: the ASCII controls 9-13 and 28-31,
      the space, and the Unicode white-space characters Python recognises. */
  predicate IsSpace(c: char) {
    || c == ' '
    || ('\t' <= c <= '\r')
    || ('\U{1C}' <= c <= '\U{1F}')
    || c == '\U{85}' || c == '\U{A0}' || c == '\U{1680}'
    || ('\U{2000}' <= c <= '\U{200A}')
    || c == '\U{2028}' || c == '\U{2029}' || c == '\U{202F}' || c == '\U{205F}' || c == '\U{3000}'
  }

  /** A string made of white space only (the empty string included). */
  predicate IsBlank(s: string) {
    forall i :: 0 <= i < |s| ==> IsSpace(s[i])
  }

  /** The characters `str.splitlines` breaks a line at. */
  predicate IsLineBreak(c: char) {
    || c == '\n' || c == '\r' || c == '\U{B}' || c == '\U{C}'
    || ('\U{1C}' <= c <= '\U{1E}')
    || c == '\U{85}' || c == '\U{2028}' || c == '\U{2029}'
  }

  predicate StartsWith(s: string, prefix: string) {
    |prefix| <= |s| && s[..|prefix|] == prefix
  }

  /** `t in s` for strings: `t` occurs as a contiguous piece of `s`. */
  predicate Contains(s: string, t: string)
    decreases |s|
  {
    StartsWith(s, t) || (s != [] && Contains(s[1..], t))
  }

  // ---------------------------------------------------------------------
  // strip

  /** The index of the first character of `s` at or after `from` that
      `drop` keeps (or `|s|`). */
  function FirstKept(s: string, drop: char -> bool, from: nat): (k: nat)
    requires from <= |s|
    ensures from <= k <= |s|
    ensures k == |s| || !drop(s[k])
    ensures forall i :: from <= i < k ==> drop(s[i])
    decreases |s| - from
  {
    if from < |s| && drop(s[from]) then FirstKept(s, drop, from + 1) else from
  }

  /** The end of `s[..stop]` once the characters `drop` selects are removed
      from its right: just after the last kept character before `stop`
      (or 0). */
  function KeptEnd(s: string, drop: char -> bool, stop: nat): (k: nat)
    requires stop <= |s|
    ensures k <= stop
    ensures k == 0 || !drop(s[k - 1])
    ensures forall i :: k <= i < stop ==> drop(s[i])
    decreases stop
  {
    if stop > 0 && drop(s[stop - 1]) then KeptEnd(s, drop, stop - 1) else stop
  }

  /** `s.lstrip(chars)` for the set of characters `drop` selects. */
  function TrimStart(s: string, drop: char -> bool): (r: string)
    ensures |r| <= |s| && r == s[|s| - |r|..]
    ensures r == [] || !drop(r[0])
    ensures forall i :: 0 <= i < |s| - |r| ==> drop(s[i])
  {
    s[FirstKept(s, drop, 0)..]
  }

  /** `s.strip(chars)`: both ends trimmed; the result is a contiguous slice
      of `s` that neither starts nor ends with a dropped character. */
  function StripWith(s: string, drop: char -> bool): (r: string)
    ensures |r| <= |s|
    ensures r == [] || (!drop(r[0]) && !drop(r[|r| - 1]))
    ensures |s| - |TrimStart(s, drop)| + |r| <= |s|
    ensures r == s[|s| - |TrimStart(s, drop)|..|s| - |TrimStart(s, drop)| + |r|]
    ensures r == [] <==> forall i :: 0 <= i < |s| ==> drop(s[i])
  {
    var a := FirstKept(s, drop, 0);
    if a == |s| then []
    else
      var b := KeptEnd(s, drop, |s|);
      s[a..b]
  }

  /** Number of characters `strip` removes from the front of `s`. */
  function StripOffset(s: string): nat {
    |s| - |TrimStart(s, IsSpace)|
  }

  /** `s.strip()`. */
  function Strip(s: string): (r: string)
    ensures |r| <= |s|
    ensures r == [] <==> IsBlank(s)
    ensures r == [] || (!IsSpace(r[0]) && !IsSpace(r[|r| - 1]))
    ensures StripOffset(s) + |r| <= |s| && r == s[StripOffset(s)..StripOffset(s) + |r|]
  {
    StripWith(s, IsSpace)
  }

  /** Text that neither starts nor ends with white space is its own
      strip. */
  lemma StripUnpadded(s: string)
    requires s != [] && !IsSpace(s[0]) && !IsSpace(s[|s| - 1])
    ensures Strip(s) == s
  {
    assert FirstKept(s, IsSpace, 0) == 0;
    assert KeptEnd(s, IsSpace, |s|) == |s|;
  }

  // ---------------------------------------------------------------------
  // split / join

  /** `s.split(sep)` for a non-empty separator: cut at the leftmost
      occurrence, then keep cutting the remainder. */
  function Split(s: string, sep: string): (r: seq<string>)
    requires sep != []
    ensures |r| >= 1
    decreases |s|
  {
    if StartsWith(s, sep) then [[]] + Split(s[|sep|..], sep)
    else if s == [] then [[]]
    else
      var rest := Split(s[1..], sep);
      [[s[0]] + rest[0]] + rest[1..]
  }

  /** `sep.join(parts)`. */
  function Join(parts: seq<string>, sep: string): string
    decreases |parts|
  {
    if parts == [] then []
    else if |parts| == 1 then parts[0]
    else parts[0] + sep + Join(parts[1..], sep)
  }

  /** Concatenation of a sequence of sequences, in order. */
  function Flatten<T>(xss: seq<seq<T>>): seq<T>
    decreases |xss|
  {
    if xss == [] then [] else xss[0] + Flatten(xss[1..])
  }

  /** `str.splitlines()`, except that every line-break character ends a
      line (so "\r\n" gives one extra empty line and a trailing break one
      trailing empty line); every caller skips empty lines. */
  function Lines(s: string): (r: seq<string>)
    ensures |r| >= 1
    decreases |s|
  {
    if s == [] then [[]]
    else if IsLineBreak(s[0]) then [[]] + Lines(s[1..])
    else
      var rest := Lines(s[1..]);
      [[s[0]] + rest[0]] + rest[1..]
  }

  /** Number of maximal runs of non-space characters: `len(s.split())`. */
  function WordCount(s: string): nat {
    WordStarts(s, true)
  }

  function WordStarts(s: string, afterSpace: bool): nat
    decreases |s|
  {
    if s == [] then 0
    else (if afterSpace && !IsSpace(s[0]) then 1 else 0) + WordStarts(s[1..], IsSpace(s[0]))
  }

  // ---------------------------------------------------------------------
  // slicing, case, numbers

  /** Python's `xs[:n]`, negative `n` counting from the end. */
  function Prefix<T>(xs: seq<T>, n: int): (r: seq<T>)
    ensures |r| <= |xs| && r == xs[..|r|]
    ensures n >= 0 ==> |r| == if n <= |xs| then n else |xs|
    ensures n < 0 ==> |r| == if |xs| + n >= 0 then |xs| + n else 0
  {
    if n >= 0 then (if n <= |xs| then xs[..n] else xs)
    else if |xs| + n >= 0 then xs[..|xs| + n]
    else []
  }

  function LowerChar(c: char): char {
    if 'A' <= c <= 'Z' then (c as int + 32) as char else c
  }

  /** `s.lower()` restricted to ASCII letters. */
  function Lower(s: string): (r: string)
    ensures |r| == |s|
    ensures forall i :: 0 <= i < |s| ==> r[i] == LowerChar(s[i])
  {
    seq(|s|, i requires 0 <= i < |s| => LowerChar(s[i]))
  }

  predicate IsDigit(c: char) {
    '0' as int <= c as int <= '9' as int
  }

  function DigitChar(d: nat): char
    requires d < 10
  {
    ('0' as int + d) as char
  }

  /** `str(n)` for a natural number: decimal, no leading zeros. */
  function NatToString(n: nat): (r: string)
    ensures r != []
    ensures forall i :: 0 <= i < |r| ==> IsDigit(r[i])
    ensures |r| > 1 ==> r[0] != '0'
    decreases n
  {
    if n < 10 then [DigitChar(n)] else NatToString(n / 10) + [DigitChar(n % 10)]
  }

  /** Value of a string of decimal digits. */
  function ParseNat(s: string): nat
    requires forall i :: 0 <= i < |s| ==> IsDigit(s[i])
    decreases |s|
  {
    if s == [] then 0
    else 10 * ParseNat(s[..|s| - 1]) + DigitValue(s[|s| - 1])
  }

  function DigitValue(c: char): nat
    requires IsDigit(c)
  {
    c as int - '0' as int
  }

  /** `format(n, "02d")`: at least two digits, zero padded. */
  function Pad2(n: nat): (r: string)
    ensures |r| >= 2
    ensures forall i :: 0 <= i < |r| ==> IsDigit(r[i])
    ensures n < 100 ==> |r| == 2
  {
    if n < 10 then ['0', DigitChar(n)]
    else
      assert n < 100 ==> |NatToString(n / 10)| == 1;
      NatToString(n)
  }

  // ---------------------------------------------------------------------
  // searching

  /** Index of the first occurrence of `c` in `s`, or -1. */
  function IndexOf(s: string, c: char): (k: int)
    ensures -1 <= k < |s|
    ensures k >= 0 ==> s[k] == c
    ensures forall j :: 0 <= j < |s| && (k < 0 || j < k) ==> s[j] != c
    decreases |s|
  {
    if s == [] then -1
    else if s[0] == c then 0
    else var k := IndexOf(s[1..], c); if k < 0 then -1 else k + 1
  }

  /** Index of the last occurrence of `c` in `s`, or -1. */
  function LastIndexOf(s: string, c: char): (k: int)
    ensures -1 <= k < |s|
    ensures k >= 0 ==> s[k] == c
    ensures forall j :: k < j < |s| ==> s[j] != c
    decreases |s|
  {
    if s == [] then -1
    else if s[|s| - 1] == c then |s| - 1
    else LastIndexOf(s[..|s| - 1], c)
  }

  // ---------------------------------------------------------------------
  // lemmas

  /** Reading back the decimal rendering gives the number. */
  lemma {:induction false} ParseNatToString(n: nat)
    ensures ParseNat(NatToString(n)) == n
    decreases n
  {
    if n >= 10 {
      ParseNatToString(n / 10);
      var s := NatToString(n);
      assert s[..|s| - 1] == NatToString(n / 10);
    }
  }

  /** Reading back a zero-padded rendering gives the number. */
  lemma ParsePad2(n: nat)
    ensures ParseNat(Pad2(n)) == n
  {
    if n < 10 {
      var s := Pad2(n);
      assert s[..1] == ['0'];
      assert ParseNat(['0']) == 0 by {
        assert ['0'][..0] == [];
      }
    } else {
      ParseNatToString(n);
    }
  }

  /** Decimal rendering is one-to-one. */
  lemma NatToStringInjective(m: nat, n: nat)
    requires NatToString(m) == NatToString(n)
    ensures m == n
  {
    ParseNatToString(m);
    ParseNatToString(n);
  }

  lemma StartsWithAppend(a: string, b: string, t: string)
    requires StartsWith(a, t)
    ensures StartsWith(a + b, t)
  {
    assert (a + b)[..|t|] == a[..|t|];
  }

  /** Whatever occurs in `a` occurs in `a + b`. */
  lemma {:induction false} ContainsAppend(a: string, b: string, t: string)
    requires Contains(a, t)
    ensures Contains(a + b, t)
    decreases |a|
  {
    if StartsWith(a, t) {
      StartsWithAppend(a, b, t);
    } else {
      assert a != [];
      ContainsAppend(a[1..], b, t);
      assert (a + b)[1..] == a[1..] + b;
    }
  }

  /** Whatever occurs in a slice of `s` occurs in `s`. */
  lemma {:induction false} ContainsSlice(s: string, i: int, j: int, t: string)
    requires 0 <= i <= j <= |s|
    requires Contains(s[i..j], t)
    ensures Contains(s, t)
    decreases i
  {
    if i == 0 {
      assert s == s[..j] + s[j..];
      assert s[0..j] == s[..j];
      ContainsAppend(s[..j], s[j..], t);
    } else {
      assert s[1..][i - 1..j - 1] == s[i..j];
      ContainsSlice(s[1..], i - 1, j - 1, t);
    }
  }

  /** A piece found inside a named slice of `s` is found in `s`. */
  lemma ContainsWithin(s: string, i: int, u: string, t: string)
    requires 0 <= i && i + |u| <= |s| && s[i..i + |u|] == u
    ensures Contains(u, t) ==> Contains(s, t)
  {
    if Contains(u, t) {
      ContainsSlice(s, i, i + |u|, t);
    }
  }

  /** Stripping finds no piece that was not there before. */
  lemma StripContains(s: string, t: string)
    ensures Contains(Strip(s), t) ==> Contains(s, t)
  {
    ContainsWithin(s, StripOffset(s), Strip(s), t);
  }

  /** The first piece of a split is a prefix of the string. */
  lemma {:induction false} SplitFirstIsPrefix(s: string, sep: string)
    requires sep != []
    ensures |Split(s, sep)[0]| <= |s| && Split(s, sep)[0] == s[..|Split(s, sep)[0]|]
    decreases |s|
  {
    if !StartsWith(s, sep) && s != [] {
      var rest := Split(s[1..], sep);
      SplitFirstIsPrefix(s[1..], sep);
      var head := Split(s, sep)[0];
      assert head == [s[0]] + rest[0];
      assert s[..|head|] == [s[0]] + s[1..][..|rest[0]|];
    }
  }

  /** No piece of `s.split(sep)` contains `sep`. */
  lemma {:induction false} SplitPiecesAvoidSep(s: string, sep: string)
    requires sep != []
    ensures forall k :: 0 <= k < |Split(s, sep)| ==> !Contains(Split(s, sep)[k], sep)
    decreases |s|
  {
    var r := Split(s, sep);
    if StartsWith(s, sep) {
      SplitPiecesAvoidSep(s[|sep|..], sep);
      assert !Contains([], sep);
      forall k | 1 <= k < |r| ensures !Contains(r[k], sep) {
        assert r[k] == Split(s[|sep|..], sep)[k - 1];
      }
    } else if s != [] {
      var rest := Split(s[1..], sep);
      SplitPiecesAvoidSep(s[1..], sep);
      SplitFirstIsPrefix(s[1..], sep);
      var p := [s[0]] + rest[0];
      assert p == s[..|p|];
      assert !StartsWith(p, sep);
      assert p[1..] == rest[0];
      assert !Contains(p, sep);
      forall k | 1 <= k < |r| ensures !Contains(r[k], sep) {
        assert r[k] == rest[k];
      }
    }
  }

  /** Splitting a blank string gives only blank pieces. */
  lemma {:induction false} SplitBlank(s: string, sep: string)
    requires sep != [] && IsBlank(s)
    ensures forall k :: 0 <= k < |Split(s, sep)| ==> IsBlank(Split(s, sep)[k])
    decreases |s|
  {
    var r := Split(s, sep);
    if StartsWith(s, sep) {
      SplitBlank(s[|sep|..], sep);
      forall k | 1 <= k < |r| ensures IsBlank(r[k]) {
        assert r[k] == Split(s[|sep|..], sep)[k - 1];
      }
    } else if s != [] {
      var rest := Split(s[1..], sep);
      SplitBlank(s[1..], sep);
      forall k | 1 <= k < |r| ensures IsBlank(r[k]) {
        assert r[k] == rest[k];
      }
    }
  }

  /** Joining the pieces of a split with the same separator gives back the
      string. */
  lemma {:induction false} JoinSplit(s: string, sep: string)
    requires sep != []
    ensures Join(Split(s, sep), sep) == s
    decreases |s|
  {
    if StartsWith(s, sep) {
      JoinSplit(s[|sep|..], sep);
      JoinSplitAtSep(s, sep);
    } else if s != [] {
      JoinSplit(s[1..], sep);
      JoinSplitAtChar(s, sep);
    }
  }

  /** Joining a part in front of at least one other. */
  lemma JoinPrepend(p: string, parts: seq<string>, sep: string)
    requires parts != []
    ensures Join([p] + parts, sep) == p + sep + Join(parts, sep)
  {
    assert ([p] + parts)[1..] == parts;
  }

  /** The step of `JoinSplit` at a separator. */
  lemma JoinSplitAtSep(s: string, sep: string)
    requires sep != [] && StartsWith(s, sep)
    requires Join(Split(s[|sep|..], sep), sep) == s[|sep|..]
    ensures Join(Split(s, sep), sep) == s
  {
    var rest := s[|sep|..];
    var tail := Split(rest, sep);
    assert Split(s, sep) == [[]] + tail;
    JoinPrepend([], tail, sep);
    var empty: string := [];
    assert empty + sep + rest == sep + rest;
    assert s == s[..|sep|] + rest;
    calc {
      Join(Split(s, sep), sep);
      Join([[]] + tail, sep);
      empty + sep + Join(tail, sep);
      empty + sep + rest;
      s;
    }
  }

  /** The step of `JoinSplit` at a character that starts no separator. */
  lemma JoinSplitAtChar(s: string, sep: string)
    requires sep != [] && !StartsWith(s, sep) && s != []
    requires Join(Split(s[1..], sep), sep) == s[1..]
    ensures Join(Split(s, sep), sep) == s
  {
    var rest := Split(s[1..], sep);
    assert Split(s, sep) == [[s[0]] + rest[0]] + rest[1..];
    JoinCons(s[0], rest, sep);
    assert s == [s[0]] + s[1..];
  }

  /** The first part leads the joined text. */
  lemma JoinStartsWithHead(parts: seq<string>, sep: string)
    requires parts != []
    ensures |Join(parts, sep)| >= |parts[0]| && Join(parts, sep)[..|parts[0]|] == parts[0]
  {
    if |parts| > 1 {
      assert Join(parts, sep) == parts[0] + (sep + Join(parts[1..], sep));
    }
  }

  /** Prepending a character to the first piece prepends it to the join. */
  lemma JoinCons(c: char, parts: seq<string>, sep: string)
    requires parts != []
    ensures Join([[c] + parts[0]] + parts[1..], sep) == [c] + Join(parts, sep)
  {
    var r := [[c] + parts[0]] + parts[1..];
    assert r[1..] == parts[1..];
  }

  /** Blank pieces joined by a blank separator give a blank string. */
  lemma {:induction false} JoinBlank(parts: seq<string>, sep: string)
    requires IsBlank(sep)
    requires forall k :: 0 <= k < |parts| ==> IsBlank(parts[k])
    ensures IsBlank(Join(parts, sep))
    decreases |parts|
  {
    if |parts| > 1 {
      JoinBlank(parts[1..], sep);
    }
  }

  /** A piece that keeps `sep` out of itself and out of its junction with
      the next separator is cut off by `split` exactly where `join` put it. */
  lemma {:induction false} SplitAfterPiece(p: string, sep: string, rest: string)
    requires sep != []
    requires !Contains(p + sep[..|sep| - 1], sep)
    ensures Split(p + sep + rest, sep) == [p] + Split(rest, sep)
    decreases |p|
  {
    var s := p + sep + rest;
    if p == [] {
      assert s == sep + rest;
      assert StartsWith(s, sep);
      assert s[|sep|..] == rest;
    } else {
      var q := p + sep[..|sep| - 1];
      assert s[..|sep|] == q[..|sep|];
      assert !StartsWith(q, sep);
      assert !StartsWith(s, sep);
      assert q[1..] == p[1..] + sep[..|sep| - 1];
      SplitAfterPiece(p[1..], sep, rest);
      assert s[1..] == p[1..] + sep + rest;
      assert [s[0]] + p[1..] == p;
    }
  }

  /** A string free of `sep` is a single piece. */
  lemma {:induction false} SplitWhole(p: string, sep: string)
    requires sep != [] && !Contains(p, sep)
    ensures Split(p, sep) == [p]
    decreases |p|
  {
    if p != [] {
      SplitWhole(p[1..], sep);
      assert [p[0]] + p[1..] == p;
    }
  }

  /** `split` undoes `join` when no piece can be confused with the
      separator. */
  lemma {:induction false} SplitJoin(parts: seq<string>, sep: string)
    requires sep != [] && parts != []
    requires forall k :: 0 <= k < |parts| ==> !Contains(parts[k] + sep[..|sep| - 1], sep)
    ensures Split(Join(parts, sep), sep) == parts
    decreases |parts|
  {
    if |parts| == 1 {
      if Contains(parts[0], sep) {
        ContainsAppend(parts[0], sep[..|sep| - 1], sep);
      }
      SplitWhole(parts[0], sep);
    } else {
      SplitJoin(parts[1..], sep);
      SplitAfterPiece(parts[0], sep, Join(parts[1..], sep));
      assert parts == [parts[0]] + parts[1..];
    }
  }

  /** Concatenation distributes over appending one more sequence. */
  lemma {:induction false} FlattenAppend<T>(xss: seq<seq<T>>, ys: seq<T>)
    ensures Flatten(xss + [ys]) == Flatten(xss) + ys
    decreases |xss|
  {
    if xss != [] {
      assert (xss + [ys])[1..] == xss[1..] + [ys];
      FlattenAppend(xss[1..], ys);
    }
  }

  /** A string without the character `c` never contains a pattern that
      starts with `c`. */
  lemma {:induction false} AvoidsFirstChar(s: string, t: string)
    requires t != []
    requires forall i :: 0 <= i < |s| ==> s[i] != t[0]
    ensures !Contains(s, t)
    decreases |s|
  {
    if s != [] {
      AvoidsFirstChar(s[1..], t);
      assert !StartsWith(s, t) by {
        if |t| <= |s| {
          assert s[..|t|][0] == s[0];
        }
      }
    }
  }

  /** An occurrence of `t` in `a + b` lies within `b` when `a` never holds
      the first character of `t`. */
  lemma {:induction false} ContainsSkip(a: string, b: string, t: string)
    requires t != []
    requires forall i :: 0 <= i < |a| ==> a[i] != t[0]
    requires Contains(a + b, t)
    ensures Contains(b, t)
    decreases |a|
  {
    if a != [] {
      assert (a + b)[1..] == a[1..] + b;
      ContainsSkip(a[1..], b, t);
    } else {
      assert a + b == b;
    }
  }

  /** A common prefix can be cancelled. */
  lemma CancelPrefix(p: string, a: string, b: string)
    requires p + a == p + b
    ensures a == b
  {
    assert a == (p + a)[|p|..];
    assert b == (p + b)[|p|..];
  }

  /** A run of digits followed by a non-digit is determined by the string:
      two such decompositions agree. */
  lemma {:induction false} DigitsPrefixUnique(d1: string, r1: string, d2: string, r2: string)
    requires forall i :: 0 <= i < |d1| ==> IsDigit(d1[i])
    requires forall i :: 0 <= i < |d2| ==> IsDigit(d2[i])
    requires r1 != [] && !IsDigit(r1[0]) && r2 != [] && !IsDigit(r2[0])
    requires d1 + r1 == d2 + r2
    ensures d1 == d2 && r1 == r2
    decreases |d1|
  {
    var c := (d1 + r1)[0];
    assert c == if d1 != [] then d1[0] else r1[0];
    assert c == if d2 != [] then d2[0] else r2[0];
    if d1 == [] {
      assert d1 + r1 == r1 && d2 + r2 == r2;
    } else {
      assert (d1 + r1)[1..] == d1[1..] + r1;
      assert (d2 + r2)[1..] == d2[1..] + r2;
      DigitsPrefixUnique(d1[1..], r1, d2[1..], r2);
      assert d1 == [d1[0]] + d1[1..];
      assert d2 == [d2[0]] + d2[1..];
    }
  }

  /** The first piece of a split at one character ends just before the
      first occurrence of that character. */
  lemma {:induction false} SplitHeadChar(s: string, c: char)
    ensures Split(s, [c])[0] == if IndexOf(s, c) < 0 then s else s[..IndexOf(s, c)]
    decreases |s|
  {
    if s != [] && s[0] != c {
      SplitHeadChar(s[1..], c);
      assert !StartsWith(s, [c]);
      var rest := Split(s[1..], [c]);
      assert Split(s, [c])[0] == [s[0]] + rest[0];
      var k := IndexOf(s[1..], c);
      if k >= 0 {
        assert IndexOf(s, c) == k + 1;
        assert s[..k + 1] == [s[0]] + s[1..][..k];
      } else {
        assert IndexOf(s, c) < 0;
        assert s == [s[0]] + s[1..];
      }
    }
  }

  /** `s.split(c)[0]`: the part of `s` before its first `c`, or all of
      `s` when there is none. */
  function FirstField(s: string, c: char): (r: string)
    ensures |r| <= |s| && r == s[..|r|]
    ensures forall i :: 0 <= i < |r| ==> r[i] != c
    ensures |r| == |s| || s[|r|] == c
  {
    SplitHeadChar(s, c);
    Split(s, [c])[0]
  }

  /** The first field is `t` exactly when `s` is `t` without any `c`, or
      `t` (free of `c`) followed by `c` and anything. */
  lemma FirstFieldIs(s: string, c: char, t: string)
    ensures FirstField(s, c) == t <==>
      ((forall i :: 0 <= i < |t| ==> t[i] != c) && (s == t || StartsWith(s, t + [c])))
  {
    var r := FirstField(s, c);
    if (forall i :: 0 <= i < |t| ==> t[i] != c) && StartsWith(s, t + [c]) {
      SplitHeadChar(s, c);
      assert s[|t|] == c;
      assert forall j :: 0 <= j < |t| ==> s[j] == t[j];
      assert IndexOf(s, c) == |t|;
    }
  }

  // ---------------------------------------------------------------------
  // filtering

  /** `[x for x in xs if keep(x)]`. */
  function Filter<T>(xs: seq<T>, keep: T -> bool): (r: seq<T>)
    ensures |r| <= |xs|
    ensures forall i :: 0 <= i < |r| ==> r[i] in xs && keep(r[i])
    ensures forall x :: x in xs && keep(x) ==> x in r
    decreases |xs|
  {
    if xs == [] then []
    else
      var rest := Filter(xs[1..], keep);
      assert forall x :: x in xs ==> x == xs[0] || x in xs[1..];
      if keep(xs[0]) then [xs[0]] + rest else rest
  }

  /** Filtering keeps the input's order: the kept elements of a
      concatenation are those of its first part followed by those of its
      second, and one element is kept exactly when `keep` holds of it. */
  lemma {:induction false} FilterAppend<T>(xs: seq<T>, ys: seq<T>, keep: T -> bool)
    ensures Filter(xs + ys, keep) == Filter(xs, keep) + Filter(ys, keep)
    decreases |xs|
  {
    if xs == [] {
      assert xs + ys == ys;
    } else {
      assert (xs + ys)[1..] == xs[1..] + ys;
      FilterAppend(xs[1..], ys, keep);
    }
  }

  lemma FilterOne<T>(x: T, keep: T -> bool)
    ensures Filter([x], keep) == if keep(x) then [x] else []
  {
  }
}

=== FILE: tts.dfy ===
/**
 * The text side of two-host speech synthesis in `src/podcast/tts.py`:
 * reading a script of "ALEX:" / "SAM:" turns, removing the speaker labels
 * for single-voice synthesis, and choosing a voice per turn. The audio
 * itself (subprocesses, temporary files, concatenation) is not modelled:
 * a synthesis is described by the plan of texts and voices it would send.
 */
module Tts {
  import opened Strings
  import opened Results

  /** One `(speaker, text)` pair of `_parse_two_host_script`. */
  datatype Turn = Turn(speaker: string, text: string)

  /** The match of `^(ALEX|SAM):\s*(.*)` against a stripped line: the
      speaker and the rest of the line after the label and its following
      whitespace. */
  function Label(line: string): (r: Option<(string, string)>)
    ensures r.Some? ==> r.value.0 == "ALEX" || r.value.0 == "SAM"
    ensures r.Some? <==> StartsWith(line, "ALEX:") || StartsWith(line, "SAM:")
    ensures r.Some? ==> r.value.1 == [] || !IsSpace(r.value.1[0])
  {
    if StartsWith(line, "ALEX:") then Some(("ALEX", TrimStart(line[5..], IsSpace)))
    else if StartsWith(line, "SAM:") then Some(("SAM", TrimStart(line[4..], IsSpace)))
    else None
  }

  predicate Labelled(line: string) {
    Label(line).Some?
  }

  /** The text a labelled line opens its turn with: none when the label
      stands alone. */
  function Opening(line: string): seq<string>
    requires Labelled(line)
  {
    var body := Label(line).value.1;
    if body != [] then [body] else []
  }

  // ---------------------------------------------------------------------
  // The parser as written: a left-to-right fold over the lines.

  /** `segments`, `current_speaker` and `current_lines`. */
  datatype ParseState = ParseState(segments: seq<Turn>, speaker: Option<string>, current: seq<string>)

  /** The turn still being collected, if it has any text. */
  function Pending(speaker: Option<string>, current: seq<string>): seq<Turn> {
    if speaker.Some? && current != [] then [Turn(speaker.value, Join(current, " "))] else []
  }

  /** One stripped line: blank lines are skipped, a labelled line closes
      the pending turn and opens a new one, any other line continues the
      open turn or, before the first label, is dropped. */
  function Consume(st: ParseState, line: string): ParseState {
    if line == [] then st
    else if Labelled(line) then
      ParseState(st.segments + Pending(st.speaker, st.current), Some(Label(line).value.0), Opening(line))
    else if st.speaker.Some? then
      st.(current := st.current + [line])
    else
      st
  }

  /** The loop over the raw lines followed by the final flush. */
  function ParseFrom(st: ParseState, lines: seq<string>): seq<Turn>
    decreases |lines|
  {
    if lines == [] then st.segments + Pending(st.speaker, st.current)
    else ParseFrom(Consume(st, Strip(lines[0])), lines[1..])
  }

  /** `_parse_two_host_script`. */
  function ParseTwoHostScript(script: string): seq<Turn> {
    ParseFrom(ParseState([], None, []), Lines(script))
  }

  // ---------------------------------------------------------------------
  // The reference reading: a script is a preamble followed by blocks, each
  // a labelled line and the unlabelled lines after it.

  /** No line is empty. */
  predicate NoEmptyLine(lines: seq<string>) {
    forall k :: 0 <= k < |lines| ==> lines[k] != []
  }

  /** The stripped, non-blank lines, in order. */
  function Clean(lines: seq<string>): (r: seq<string>)
    ensures NoEmptyLine(r)
    decreases |lines|
  {
    if lines == [] then []
    else if Strip(lines[0]) == [] then Clean(lines[1..])
    else [Strip(lines[0])] + Clean(lines[1..])
  }

  /** How many lines at the front carry no label. */
  function Unlabelled(lines: seq<string>): (n: nat)
    ensures n <= |lines|
    decreases |lines|
  {
    if lines == [] || Labelled(lines[0]) then 0 else 1 + Unlabelled(lines[1..])
  }

  /** The turns of a script: lines before a label are dropped; a label
      gathers the text after it and every unlabelled line up to the next
      label, joined by single spaces, and yields a turn when that text is
      not empty. */
  function Turns(lines: seq<string>): seq<Turn>
    decreases |lines|
  {
    if lines == [] then []
    else if !Labelled(lines[0]) then Turns(lines[1..])
    else
      var n := Unlabelled(lines[1..]);
      Pending(Some(Label(lines[0]).value.0), Opening(lines[0]) + lines[1..1 + n]) + Turns(lines[1 + n..])
  }

  /** Number of labelled lines. */
  function LabelCount(lines: seq<string>): nat
    decreases |lines|
  {
    if lines == [] then 0 else (if Labelled(lines[0]) then 1 else 0) + LabelCount(lines[1..])
  }

  /** Skipping blank lines and stripping the others is the same as running
      the loop on the cleaned lines. */
  lemma {:induction false} ParseFromClean(st: ParseState, lines: seq<string>)
    ensures ParseFrom(st, lines) == CleanParse(st, Clean(lines))
    decreases |lines|
  {
    if lines != [] {
      ParseFromClean(Consume(st, Strip(lines[0])), lines[1..]);
    }
  }

  /** The loop on lines that are already stripped and non-blank. */
  function CleanParse(st: ParseState, lines: seq<string>): seq<Turn>
    decreases |lines|
  {
    if lines == [] then st.segments + Pending(st.speaker, st.current)
    else CleanParse(Consume(st, lines[0]), lines[1..])
  }

  /** What the loop does with a labelled line. */
  lemma ConsumeLabelled(st: ParseState, line: string)
    requires line != [] && Labelled(line)
    ensures Consume(st, line) == ParseState(st.segments + Pending(st.speaker, st.current), Some(Label(line).value.0), Opening(line))
  {
  }

  /** A labelled line opens a block made of the unlabelled lines after it. */
  lemma TurnsLabelledHead(lines: seq<string>)
    requires lines != [] && Labelled(lines[0])
    ensures var n := Unlabelled(lines[1..]);
      Turns(lines) == Pending(Some(Label(lines[0]).value.0), Opening(lines[0]) + lines[1..][..n]) + Turns(lines[1..][n..])
  {
    var n := Unlabelled(lines[1..]);
    assert lines[1..][..n] == lines[1..1 + n];
    assert lines[1..][n..] == lines[1 + n..];
  }

  /** A labelled line closes the pending turn and opens the next block. */
  lemma LabelledStep(st: ParseState, lines: seq<string>)
    requires lines != [] && lines[0] != [] && Labelled(lines[0])
    requires var st' := Consume(st, lines[0]);
      var n' := Unlabelled(lines[1..]);
      CleanParse(st', lines[1..]) == st'.segments + Pending(st'.speaker, st'.current + lines[1..][..n']) + Turns(lines[1..][n'..])
    ensures CleanParse(st, lines) == st.segments + Pending(st.speaker, st.current) + Turns(lines)
  {
    var st' := Consume(st, lines[0]);
    var rest := lines[1..];
    ConsumeLabelled(st, lines[0]);
    TurnsLabelledHead(lines);
    var n' := Unlabelled(rest);
    var a := st.segments + Pending(st.speaker, st.current);
    var b := Pending(st'.speaker, st'.current + rest[..n']);
    var c := Turns(rest[n'..]);
    assert CleanParse(st, lines) == CleanParse(st', rest);
    Regroup(a, b, c);
  }

  lemma Regroup<T>(a: seq<T>, b: seq<T>, c: seq<T>)
    ensures a + b + c == a + (b + c)
  {
  }

  /** Moving the head of `s` onto the end of `a`. */
  lemma ShiftHead<T>(a: seq<T>, s: seq<T>, n: nat)
    requires 0 < |s| && n < |s|
    ensures (a + [s[0]]) + s[1..][..n] == a + s[..1 + n]
  {
    assert s[..1 + n] == [s[0]] + s[1..][..n];
  }

  /** An unlabelled line joins the open turn. */
  lemma ContinuationStep(st: ParseState, lines: seq<string>)
    requires st.speaker.Some?
    requires lines != [] && lines[0] != [] && !Labelled(lines[0])
    requires var st' := Consume(st, lines[0]);
      var n' := Unlabelled(lines[1..]);
      CleanParse(st', lines[1..]) == st'.segments + Pending(st'.speaker, st'.current + lines[1..][..n']) + Turns(lines[1..][n'..])
    ensures var n := Unlabelled(lines);
      CleanParse(st, lines) == st.segments + Pending(st.speaker, st.current + lines[..n]) + Turns(lines[n..])
  {
    var st' := Consume(st, lines[0]);
    assert st' == st.(current := st.current + [lines[0]]);
    var n' := Unlabelled(lines[1..]);
    assert Unlabelled(lines) == 1 + n';
    ShiftHead(st.current, lines, n');
    assert lines[1..][n'..] == lines[1 + n'..];
  }

  /** The loop with a turn open: the pending turn takes the leading
      unlabelled lines, and the blocks follow. */
  lemma {:induction false} CleanParseOpen(st: ParseState, lines: seq<string>)
    requires st.speaker.Some?
    requires NoEmptyLine(lines)
    ensures var n := Unlabelled(lines);
      CleanParse(st, lines) == st.segments + Pending(st.speaker, st.current + lines[..n]) + Turns(lines[n..])
    decreases |lines|
  {
    if lines == [] {
      assert st.current + lines[..0] == st.current;
    } else if Labelled(lines[0]) {
      NoEmptyLineDrop(lines, 1);
      var st' := Consume(st, lines[0]);
      ConsumeLabelled(st, lines[0]);
      CleanParseOpen(st', lines[1..]);
      LabelledStep(st, lines);
      assert Unlabelled(lines) == 0;
      assert st.current + lines[..0] == st.current;
      assert lines[0..] == lines;
    } else {
      NoEmptyLineDrop(lines, 1);
      CleanParseOpen(Consume(st, lines[0]), lines[1..]);
      ContinuationStep(st, lines);
    }
  }

  /** Before the first label the loop drops an unlabelled line. */
  lemma IdleSkip(st: ParseState, lines: seq<string>)
    requires st.speaker.None? && lines != [] && lines[0] != [] && !Labelled(lines[0])
    ensures CleanParse(st, lines) == CleanParse(st, lines[1..])
    ensures Turns(lines) == Turns(lines[1..])
  {
    assert Consume(st, lines[0]) == st;
  }

  /** The loop before the first label: it reads the blocks. */
  lemma {:induction false} CleanParseIdle(st: ParseState, lines: seq<string>)
    requires st.speaker.None?
    requires NoEmptyLine(lines)
    ensures CleanParse(st, lines) == st.segments + Turns(lines)
    decreases |lines|
  {
    NoEmptyLineDrop(lines, 1);
    if lines == [] {
    } else if Labelled(lines[0]) {
      var st' := Consume(st, lines[0]);
      ConsumeLabelled(st, lines[0]);
      CleanParseOpen(st', lines[1..]);
      LabelledStep(st, lines);
      assert st.segments + Pending(st.speaker, st.current) == st.segments;
    } else {
      IdleSkip(st, lines);
      CleanParseIdle(st, lines[1..]);
    }
  }

  /** Dropping lines from the front keeps them non-empty. */
  lemma NoEmptyLineDrop(lines: seq<string>, n: nat)
    requires NoEmptyLine(lines)
    ensures n <= |lines| ==> NoEmptyLine(lines[n..])
  {
    if n <= |lines| {
      assert forall k :: 0 <= k < |lines[n..]| ==> lines[n..][k] == lines[n + k];
    }
  }

  /** The parser reads a script as its blocks, over the stripped non-blank
      lines. */
  lemma ParseIsTurns(script: string)
    ensures ParseTwoHostScript(script) == Turns(Clean(Lines(script)))
  {
    var st := ParseState([], None, []);
    ParseFromClean(st, Lines(script));
    CleanParseIdle(st, Clean(Lines(script)));
  }

  /** Every turn is spoken by ALEX or SAM and has text. */
  predicate Spoken(turns: seq<Turn>) {
    forall i :: 0 <= i < |turns| ==> (turns[i].speaker == "ALEX" || turns[i].speaker == "SAM") && turns[i].text != []
  }

  /** Every label is followed by text on its own line. */
  predicate LabelsCarryText(lines: seq<string>) {
    forall k :: 0 <= k < |lines| && Labelled(lines[k]) ==> Label(lines[k]).value.1 != []
  }

  lemma SpokenAppend(a: seq<Turn>, b: seq<Turn>)
    requires Spoken(a) && Spoken(b)
    ensures Spoken(a + b)
  {
  }

  lemma LabelsCarryTextDrop(lines: seq<string>, n: nat)
    requires LabelsCarryText(lines) && n <= |lines|
    ensures LabelsCarryText(lines[n..])
  {
    assert forall k :: 0 <= k < |lines[n..]| ==> lines[n..][k] == lines[n + k];
  }

  /** A block holds one label. */
  lemma BlockLabelCount(lines: seq<string>)
    requires lines != [] && Labelled(lines[0])
    ensures LabelCount(lines) == 1 + LabelCount(lines[1 + Unlabelled(lines[1..])..])
  {
    var n := Unlabelled(lines[1..]);
    UnlabelledCount(lines[1..]);
    LabelCountSplit(lines[1..], n);
    assert lines[1..][n..] == lines[1 + n..];
  }

  /** A block yields at most one turn, spoken and with text, and exactly
      one when its label carries text. */
  lemma BlockTurn(lines: seq<string>)
    requires lines != [] && Labelled(lines[0]) && NoEmptyLine(lines)
    ensures var p := Pending(Some(Label(lines[0]).value.0), Opening(lines[0]) + lines[1..1 + Unlabelled(lines[1..])]);
      Spoken(p) && |p| <= 1 && (Label(lines[0]).value.1 != [] ==> |p| == 1)
  {
    var n := Unlabelled(lines[1..]);
    var (speaker, body) := Label(lines[0]).value;
    var block := lines[1..1 + n];
    var contents := Opening(lines[0]) + block;
    if contents != [] {
      if body != [] {
        assert contents[0] == body;
      } else {
        assert contents == block;
        assert block[0] == lines[1];
      }
    }
    PendingSpoken(speaker, contents);
  }

  /** An open turn with a speaker and a non-empty first line is one
      spoken turn. */
  lemma PendingSpoken(speaker: string, contents: seq<string>)
    requires speaker == "ALEX" || speaker == "SAM"
    requires contents != [] ==> contents[0] != []
    ensures var p := Pending(Some(speaker), contents);
      Spoken(p) && |p| <= 1 && (contents != [] ==> |p| == 1)
  {
    if contents != [] {
      JoinStartsWithHead(contents, " ");
    }
  }

  /** Every turn is spoken by ALEX or SAM and has text; there are at most
      as many turns as labels, and exactly as many when every label is
      followed by text on its own line. */
  lemma {:induction false} TurnsWellFormed(lines: seq<string>)
    requires NoEmptyLine(lines)
    ensures Spoken(Turns(lines))
    ensures |Turns(lines)| <= LabelCount(lines)
    ensures LabelsCarryText(lines) ==> |Turns(lines)| == LabelCount(lines)
    decreases |lines|
  {
    if lines != [] {
      if !Labelled(lines[0]) {
        NoEmptyLineDrop(lines, 1);
        if LabelsCarryText(lines) {
          LabelsCarryTextDrop(lines, 1);
        }
        TurnsWellFormed(lines[1..]);
      } else {
        var n := Unlabelled(lines[1..]);
        var rest := lines[1 + n..];
        NoEmptyLineDrop(lines, 1 + n);
        if LabelsCarryText(lines) {
          LabelsCarryTextDrop(lines, 1 + n);
        }
        TurnsWellFormed(rest);
        BlockLabelCount(lines);
        BlockTurn(lines);
        var p := Pending(Some(Label(lines[0]).value.0), Opening(lines[0]) + lines[1..1 + n]);
        assert Turns(lines) == p + Turns(rest);
        SpokenAppend(p, Turns(rest));
      }
    }
  }

  /** Unlabelled lines contribute no label. */
  lemma {:induction false} UnlabelledCount(lines: seq<string>)
    ensures LabelCount(lines[..Unlabelled(lines)]) == 0
    decreases |lines|
  {
    if lines != [] && !Labelled(lines[0]) {
      UnlabelledCount(lines[1..]);
      assert lines[..Unlabelled(lines)] == [lines[0]] + lines[1..][..Unlabelled(lines[1..])];
    }
  }

  /** Labels of a sequence are those of its two halves. */
  lemma {:induction false} LabelCountSplit(lines: seq<string>, n: nat)
    requires n <= |lines|
    ensures LabelCount(lines) == LabelCount(lines[..n]) + LabelCount(lines[n..])
    decreases n
  {
    if n > 0 {
      LabelCountSplit(lines[1..], n - 1);
      assert lines[1..][..n - 1] == lines[1..n];
      assert lines[..n][1..] == lines[1..n];
      assert lines[1..][n - 1..] == lines[n..];
    }
  }

  /** A script in which no line starts with a label has no turns; lines
      before the first label never matter. */
  lemma {:induction false} TurnsSkipPreamble(pre: seq<string>, lines: seq<string>)
    requires forall k :: 0 <= k < |pre| ==> !Labelled(pre[k])
    ensures Turns(pre + lines) == Turns(lines)
    decreases |pre|
  {
    if pre != [] {
      assert (pre + lines)[0] == pre[0];
      assert (pre + lines)[1..] == pre[1..] + lines;
      assert Turns(pre + lines) == Turns(pre[1..] + lines);
      assert forall k :: 0 <= k < |pre[1..]| ==> pre[1..][k] == pre[k + 1];
      TurnsSkipPreamble(pre[1..], lines);
    } else {
      assert pre + lines == lines;
    }
  }

  /** A continuation line joins the turn before it with a single space,
      and the next label opens a new turn, even for the same speaker. */
  lemma ContinuationJoins(first: string, more: string, second: string)
    requires Labelled(first) && Label(first).value.1 != []
    requires more != [] && !Labelled(more)
    requires Labelled(second) && Label(second).value.1 != []
    ensures Turns([first, more, second]) ==
      [Turn(Label(first).value.0, Label(first).value.1 + " " + more), Turn(Label(second).value.0, Label(second).value.1)]
  {
    var lines := [first, more, second];
    var rest := [more, second];
    assert lines[1..] == rest;
    assert Unlabelled(rest) == 1 by {
      assert rest[1..] == [second];
    }
    TurnsLabelledHead(lines);
    assert rest[..1] == [more];
    assert rest[1..] == [second];
    OpeningJoins(first, more);
    OneLineTurns(second);
  }

  /** A labelled line with text, followed by one continuation line. */
  lemma OpeningJoins(first: string, more: string)
    requires Labelled(first) && Label(first).value.1 != []
    ensures Pending(Some(Label(first).value.0), Opening(first) + [more])
         == [Turn(Label(first).value.0, Label(first).value.1 + " " + more)]
  {
    var a := Label(first).value.1;
    assert Opening(first) + [more] == [a, more];
    assert Join([a, more], " ") == a + " " + more;
  }

  /** A labelled line with text, alone, is one turn. */
  lemma OneLineTurns(line: string)
    requires Labelled(line) && Label(line).value.1 != []
    ensures Turns([line]) == [Turn(Label(line).value.0, Label(line).value.1)]
  {
    TurnsLabelledHead([line]);
    assert [line][1..] == [];
    assert Opening(line) + [] == [Label(line).value.1];
  }


  /** The parser's output: speakers ALEX or SAM only, non-empty texts, none
      for a script without labels, and the empty script parses to nothing. */
  lemma ParseTwoHostScriptSpec(script: string)
    ensures Spoken(ParseTwoHostScript(script))
    ensures (forall k :: 0 <= k < |Clean(Lines(script))| ==> !Labelled(Clean(Lines(script))[k])) ==>
      ParseTwoHostScript(script) == []
    ensures script == [] ==> ParseTwoHostScript(script) == []
  {
    ParseIsTurns(script);
    var lines := Clean(Lines(script));
    TurnsWellFormed(lines);
    if forall k :: 0 <= k < |lines| ==> !Labelled(lines[k]) {
      TurnsSkipPreamble(lines, []);
      assert lines + [] == lines;
    }
  }

  // ---------------------------------------------------------------------
  // Label stripping for single-voice synthesis

  /** The whitespace `\s*` swallows after a label, newlines included. */
  function LeadingSpace(s: string): nat
    ensures LeadingSpace(s) <= |s|
  {
    |s| - |TrimStart(s, IsSpace)|
  }

  /** Length of the match of `(ALEX|SAM):\s*` at the front of `s`, or 0. */
  function LabelMatch(s: string): (k: nat)
    ensures k <= |s|
    ensures k > 0 <==> StartsWith(s, "ALEX:") || StartsWith(s, "SAM:")
  {
    if StartsWith(s, "ALEX:") then 5 + LeadingSpace(s[5..])
    else if StartsWith(s, "SAM:") then 4 + LeadingSpace(s[4..])
    else 0
  }

  /** `re.sub(r"^(ALEX|SAM):\s*", "", s, flags=re.MULTILINE)` from a
      position where `^` matches: at the start, and right after each "\n",
      including one the previous match swallowed. A label found there is
      dropped with the white space after it. */
  function StripFromLineStart(s: string): (r: string)
    ensures |r| <= |s|
    decreases |s|, 1
  {
    var k := LabelMatch(s);
    if k == 0 then StripMidLine(s)
    else if s[k - 1] == '\n' then StripFromLineStart(s[k..])
    else StripMidLine(s[k..])
  }

  /** The same substitution from a position where `^` does not match: the
      text is copied up to and including the next "\n". */
  function StripMidLine(s: string): (r: string)
    ensures |r| <= |s|
    decreases |s|, 0
  {
    if s == [] then []
    else if s[0] == '\n' then [s[0]] + StripFromLineStart(s[1..])
    else [s[0]] + StripMidLine(s[1..])
  }

  /** The text the base `synthesize_two_host` sends to `synthesize`. */
  function StripLabels(script: string): (r: string)
    ensures |r| <= |script|
  {
    StripFromLineStart(script)
  }

  /** Text with no "\n" after a line start is left alone. */
  lemma {:induction false} StripLabelsMidLine(s: string)
    requires forall i :: 0 <= i < |s| ==> s[i] != '\n'
    ensures StripMidLine(s) == s
    decreases |s|
  {
    if s != [] {
      StripLabelsMidLine(s[1..]);
    }
  }

  /** Text in which no "ALEX:" or "SAM:" occurs is left alone, wherever
      the substitution starts on it. */
  lemma {:induction false} StripLabelsNoLabel(s: string)
    requires !Contains(s, "ALEX:") && !Contains(s, "SAM:")
    ensures StripFromLineStart(s) == s && StripMidLine(s) == s
    decreases |s|
  {
    if s != [] {
      StripLabelsNoLabel(s[1..]);
    }
  }

  /** On a single line, stripping the labels leaves exactly the text the
      parser reads after the label, and the whole line when it has none. */
  lemma StripLabelsLine(line: string)
    requires forall i :: 0 <= i < |line| ==> line[i] != '\n'
    ensures Labelled(line) ==> StripLabels(line) == Label(line).value.1
    ensures !Labelled(line) ==> StripLabels(line) == line
  {
    if Labelled(line) {
      var k := LabelMatch(line);
      var body := Label(line).value.1;
      assert line[k..] == body;
      StripLabelsMidLine(body);
    } else {
      StripLabelsMidLine(line);
    }
  }

  /** Mid-line, the text is copied through the next line break, and the
      line after it starts afresh. */
  lemma {:induction false} StripLabelsToBreak(line: string, rest: string)
    requires forall i :: 0 <= i < |line| ==> line[i] != '\n'
    ensures StripMidLine(line + "\n" + rest) == line + "\n" + StripLabels(rest)
    decreases |line|
  {
    if line == [] {
      assert line + "\n" + rest == ['\n'] + rest;
      assert (['\n'] + rest)[1..] == rest;
    } else {
      var tail := line[1..] + "\n" + rest;
      assert line + "\n" + rest == [line[0]] + tail;
      assert ([line[0]] + tail)[1..] == tail;
      StripLabelsToBreak(line[1..], rest);
      assert [line[0]] + (line[1..] + "\n" + StripLabels(rest)) == line + "\n" + StripLabels(rest);
    }
  }

  /** A prefix without a line break starts a text exactly when it starts
      the text's first line. */
  lemma PrefixBeforeBreak(line: string, rest: string, t: string)
    requires forall i :: 0 <= i < |line| ==> line[i] != '\n'
    requires forall i :: 0 <= i < |t| ==> t[i] != '\n'
    ensures StartsWith(line + "\n" + rest, t) <==> StartsWith(line, t)
  {
    var s := line + "\n" + rest;
    if |t| <= |line| {
      assert s[..|t|] == line[..|t|];
    } else {
      assert s[|line|] == '\n';
      assert |t| <= |s| ==> s[..|t|][|line|] == '\n';
    }
  }

  /** `\s*` stops at the first non-space character. */
  lemma LeadingSpaceBeforeText(x: string, y: string)
    requires TrimStart(x, IsSpace) != []
    ensures LeadingSpace(x + y) == LeadingSpace(x) < |x|
  {
    var xy := x + y;
    var j := LeadingSpace(x);
    var m := LeadingSpace(xy);
    assert !IsSpace(x[j]) by {
      assert TrimStart(x, IsSpace)[0] == x[j];
    }
    assert !IsSpace(xy[j]) by {
      assert xy[j] == x[j];
    }
    assert forall i :: 0 <= i < j ==> IsSpace(xy[i]) by {
      assert forall i :: 0 <= i < j ==> xy[i] == x[i];
    }
    assert TrimStart(xy, IsSpace) != [];
    assert !IsSpace(xy[m]) by {
      assert TrimStart(xy, IsSpace)[0] == xy[m];
    }
  }

  /** The label match of a line is the same with further lines after it,
      when the line holds text after its label. */
  lemma LabelMatchBeforeBreak(line: string, rest: string)
    requires forall i :: 0 <= i < |line| ==> line[i] != '\n'
    requires Labelled(line) && Label(line).value.1 != []
    ensures LabelMatch(line + "\n" + rest) == LabelMatch(line) < |line|
  {
    PrefixBeforeBreak(line, rest, "ALEX:");
    if StartsWith(line, "ALEX:") {
      TagBeforeBreak(line, rest, "ALEX:");
    } else {
      PrefixBeforeBreak(line, rest, "SAM:");
      TagBeforeBreak(line, rest, "SAM:");
    }
  }

  /** A tag followed by text on its line is followed by the same white
      space with further lines after it. */
  lemma TagBeforeBreak(line: string, rest: string, t: string)
    requires forall i :: 0 <= i < |line| ==> line[i] != '\n'
    requires forall i :: 0 <= i < |t| ==> t[i] != '\n'
    requires StartsWith(line, t) && TrimStart(line[|t|..], IsSpace) != []
    ensures StartsWith(line + "\n" + rest, t)
    ensures LeadingSpace((line + "\n" + rest)[|t|..]) == LeadingSpace(line[|t|..]) < |line| - |t|
  {
    var s := line + "\n" + rest;
    PrefixBeforeBreak(line, rest, t);
    assert s[|t|..] == line[|t|..] + ("\n" + rest);
    LeadingSpaceBeforeText(line[|t|..], "\n" + rest);
  }

  /** Labels are stripped at the start of every line: a line without a
      line break, unlabelled or holding text after its label, strips on
      its own, and the lines after it strip as a script of their own. */
  lemma StripLabelsNextLine(line: string, rest: string)
    requires forall i :: 0 <= i < |line| ==> line[i] != '\n'
    requires !Labelled(line) || Label(line).value.1 != []
    ensures StripLabels(line + "\n" + rest) == StripLabels(line) + "\n" + StripLabels(rest)
  {
    StripLabelsLine(line);
    if Labelled(line) {
      StripLabelledLine(line, rest);
    } else {
      StripUnlabelledLine(line, rest);
    }
  }

  lemma StripLabelledLine(line: string, rest: string)
    requires forall i :: 0 <= i < |line| ==> line[i] != '\n'
    requires Labelled(line) && Label(line).value.1 != []
    ensures StripLabels(line + "\n" + rest) == Label(line).value.1 + "\n" + StripLabels(rest)
  {
    LabelBeforeBreak(line, rest);
    StripAfterLabel(line + "\n" + rest, Label(line).value.1, rest);
  }

  /** The label match of a labelled line with text ends inside the line,
      before its text. */
  lemma LabelBeforeBreak(line: string, rest: string)
    requires forall i :: 0 <= i < |line| ==> line[i] != '\n'
    requires Labelled(line) && Label(line).value.1 != []
    ensures var s := line + "\n" + rest;
      && LabelMatch(s) > 0 && s[LabelMatch(s) - 1] != '\n'
      && s[LabelMatch(s)..] == Label(line).value.1 + "\n" + rest
      && forall i :: 0 <= i < |Label(line).value.1| ==> Label(line).value.1[i] != '\n'
  {
    var s := line + "\n" + rest;
    LabelMatchBeforeBreak(line, rest);
    var k := LabelMatch(line);
    assert s[k - 1] == line[k - 1];
    DropBeforeBreak(line, rest, k);
    LabelBody(line);
    assert forall i :: 0 <= i < |line[k..]| ==> line[k..][i] == line[k + i];
  }

  /** Dropping the front of the first line of a text. */
  lemma DropBeforeBreak(line: string, rest: string, k: nat)
    requires k <= |line|
    ensures (line + "\n" + rest)[k..] == line[k..] + "\n" + rest
  {
    var a := line + "\n";
    assert a[k..] == line[k..] + "\n";
    assert (a + rest)[k..] == a[k..] + rest;
  }

  lemma StripUnlabelledLine(line: string, rest: string)
    requires forall i :: 0 <= i < |line| ==> line[i] != '\n'
    requires !Labelled(line)
    ensures StripLabels(line + "\n" + rest) == line + "\n" + StripLabels(rest)
  {
    PrefixBeforeBreak(line, rest, "ALEX:");
    PrefixBeforeBreak(line, rest, "SAM:");
    assert LabelMatch(line + "\n" + rest) == 0;
    StripLabelsToBreak(line, rest);
  }

  /** What the label match leaves of a line is the parser's label text. */
  lemma LabelBody(line: string)
    requires Labelled(line)
    ensures line[LabelMatch(line)..] == Label(line).value.1
  {
  }

  /** A label whose match ends inside its line leaves the rest of that
      line, and the next line starts afresh. */
  lemma StripAfterLabel(s: string, body: string, rest: string)
    requires LabelMatch(s) > 0 && s[LabelMatch(s) - 1] != '\n'
    requires s[LabelMatch(s)..] == body + "\n" + rest
    requires forall i :: 0 <= i < |body| ==> body[i] != '\n'
    ensures StripLabels(s) == body + "\n" + StripLabels(rest)
  {
    StripLabelsToBreak(body, rest);
  }

  /** A label standing alone on its line, with text opening the next
      line: `\s*` swallows the line break, so the line leaves nothing and
      the next line is stripped as the start of a script. */
  lemma StripLabelsLoneLabel(line: string, rest: string)
    requires forall i :: 0 <= i < |line| ==> line[i] != '\n'
    requires Labelled(line) && Label(line).value.1 == []
    requires rest == [] || !IsSpace(rest[0])
    ensures StripLabels(line + "\n" + rest) == StripLabels(rest)
  {
    LeadingSpaceIs(rest, 0);
    StripLabelsLoneLabelSpace(line, rest);
    assert rest[0..] == rest;
  }

  /** A label standing alone on its line: `\s*` swallows the line break
      and the white space that opens the next line, so the line leaves
      nothing. When the swallowed white space ends in a line break, `^`
      matches again and the next label is stripped too; otherwise the
      substitution resumes mid-line. */
  lemma StripLabelsLoneLabelSpace(line: string, rest: string)
    requires forall i :: 0 <= i < |line| ==> line[i] != '\n'
    requires Labelled(line) && Label(line).value.1 == []
    ensures var j := LeadingSpace(rest);
      StripLabels(line + "\n" + rest)
      == if j == 0 || rest[j - 1] == '\n' then StripLabels(rest[j..]) else StripMidLine(rest[j..])
  {
    LoneLabelEnd(line, rest);
    StripThroughBreak(line + "\n" + rest, |line|, rest);
  }

  /** Where the label match of a lone label ends, and whether the last
      character it swallowed is a line break. */
  lemma LoneLabelEnd(line: string, rest: string)
    requires forall i :: 0 <= i < |line| ==> line[i] != '\n'
    requires Labelled(line) && Label(line).value.1 == []
    ensures var s := line + "\n" + rest;
      var j := LeadingSpace(rest);
      && LabelMatch(s) == |line| + 1 + j
      && s[|line| + 1 + j..] == rest[j..]
      && (s[|line| + j] == '\n' <==> j == 0 || rest[j - 1] == '\n')
  {
    LoneLabelMatch(line, rest);
    AfterBreak(line, rest, LeadingSpace(rest));
  }

  /** A label match that runs through the line break at `n` and the
      white space after it. */
  lemma StripThroughBreak(s: string, n: nat, rest: string)
    requires var j := LeadingSpace(rest);
      && LabelMatch(s) == n + 1 + j
      && s[n + 1 + j..] == rest[j..]
      && (s[n + j] == '\n' <==> j == 0 || rest[j - 1] == '\n')
    ensures var j := LeadingSpace(rest);
      StripLabels(s)
      == if j == 0 || rest[j - 1] == '\n' then StripLabels(rest[j..]) else StripMidLine(rest[j..])
  {
    var j := LeadingSpace(rest);
    StripAtMatch(s, n + 1 + j, rest[j..], j == 0 || rest[j - 1] == '\n');
  }

  /** Where the substitution resumes after a label match of length `k`
      that leaves `t`; `lineStart` says whether it swallowed a "\n". */
  lemma StripAtMatch(s: string, k: nat, t: string, lineStart: bool)
    requires LabelMatch(s) == k > 0 && s[k..] == t
    requires lineStart <==> s[k - 1] == '\n'
    ensures StripLabels(s) == if lineStart then StripLabels(t) else StripMidLine(t)
  {
  }

  /** The text after the first line break and `j` more characters. */
  lemma AfterBreak(line: string, rest: string, j: nat)
    requires j <= |rest|
    ensures var s := line + "\n" + rest;
      && s[|line| + 1 + j..] == rest[j..]
      && s[|line| + j] == if j == 0 then '\n' else rest[j - 1]
  {
    var a := line + "\n";
    assert (a + rest)[|a| + j..] == rest[j..];
  }

  /** The label match of a lone label runs through the line break and the
      white space that opens the next line. */
  lemma LoneLabelMatch(line: string, rest: string)
    requires forall i :: 0 <= i < |line| ==> line[i] != '\n'
    requires Labelled(line) && Label(line).value.1 == []
    ensures LabelMatch(line + "\n" + rest) == |line| + 1 + LeadingSpace(rest)
  {
    if StartsWith(line, "ALEX:") {
      LoneAlexMatch(line, rest);
    } else {
      LoneSamMatch(line, rest);
    }
  }

  lemma LoneAlexMatch(line: string, rest: string)
    requires forall i :: 0 <= i < |line| ==> line[i] != '\n'
    requires StartsWith(line, "ALEX:") && TrimStart(line[5..], IsSpace) == []
    ensures LabelMatch(line + "\n" + rest) == |line| + 1 + LeadingSpace(rest)
  {
    var s := line + "\n" + rest;
    LoneTagBeforeBreak(line, rest, "ALEX:");
    assert LabelMatch(s) == 5 + LeadingSpace(s[5..]);
  }

  lemma LoneSamMatch(line: string, rest: string)
    requires forall i :: 0 <= i < |line| ==> line[i] != '\n'
    requires !StartsWith(line, "ALEX:")
    requires StartsWith(line, "SAM:") && TrimStart(line[4..], IsSpace) == []
    ensures LabelMatch(line + "\n" + rest) == |line| + 1 + LeadingSpace(rest)
  {
    var s := line + "\n" + rest;
    PrefixBeforeBreak(line, rest, "ALEX:");
    LoneTagBeforeBreak(line, rest, "SAM:");
    assert LabelMatch(s) == 4 + LeadingSpace(s[4..]);
  }

  /** A tag followed only by white space on its line is followed, with
      further lines after it, by that white space, the line break and the
      white space opening the next line. */
  lemma LoneTagBeforeBreak(line: string, rest: string, t: string)
    requires forall i :: 0 <= i < |line| ==> line[i] != '\n'
    requires forall i :: 0 <= i < |t| ==> t[i] != '\n'
    requires StartsWith(line, t) && TrimStart(line[|t|..], IsSpace) == []
    ensures StartsWith(line + "\n" + rest, t)
    ensures |t| + LeadingSpace((line + "\n" + rest)[|t|..]) == |line| + 1 + LeadingSpace(rest)
  {
    var s := line + "\n" + rest;
    var sp := line[|t|..];
    var x := s[|t|..];
    var j := LeadingSpace(rest);
    PrefixBeforeBreak(line, rest, t);
    DropBeforeBreak(line, rest, |t|);
    assert x == sp + "\n" + rest;
    assert forall i :: 0 <= i < |sp| ==> IsSpace(x[i]) by {
      assert forall i :: 0 <= i < |sp| ==> x[i] == sp[i];
    }
    assert IsSpace(x[|sp|]);
    assert forall i :: |sp| + 1 <= i < |sp| + 1 + j ==> IsSpace(x[i]) by {
      assert forall i :: |sp| + 1 <= i < |x| ==> x[i] == rest[i - |sp| - 1];
    }
    assert |sp| + 1 + j < |x| ==> !IsSpace(x[|sp| + 1 + j]) by {
      if j < |rest| {
        assert TrimStart(rest, IsSpace)[0] == rest[j];
        assert x[|sp| + 1 + j] == rest[j];
      }
    }
    LeadingSpaceIs(x, |sp| + 1 + j);
  }

  /** `\s*` matches exactly the white space before the first other
      character. */
  lemma LeadingSpaceIs(s: string, j: nat)
    requires j <= |s|
    requires forall i :: 0 <= i < j ==> IsSpace(s[i])
    requires j == |s| || !IsSpace(s[j])
    ensures LeadingSpace(s) == j
  {
  }

  // ---------------------------------------------------------------------
  // Voices and synthesis plans

  /** `self.voice if speaker == "ALEX" else voice2`. */
  function VoiceFor(speaker: string, primary: string, voice2: string): (r: string)
    ensures speaker == "ALEX" ==> r == primary
    ensures speaker != "ALEX" ==> r == voice2
  {
    if speaker == "ALEX" then primary else voice2
  }

  /** What a two-host synthesis sends to the speech engine: the whole text
      in the primary voice, or one text per turn with its voice. */
  datatype Plan = Whole(text: string) | PerTurn(parts: seq<(string, string)>)

  function TurnPlan(turns: seq<Turn>, primary: string, voice2: string): (r: seq<(string, string)>)
    ensures |r| == |turns|
    ensures forall i :: 0 <= i < |turns| ==> r[i] == (VoiceFor(turns[i].speaker, primary, voice2), turns[i].text)
  {
    seq(|turns|, i requires 0 <= i < |turns| => (VoiceFor(turns[i].speaker, primary, voice2), turns[i].text))
  }

  /** `PiperTTS.synthesize_two_host`; `resolve` stands for the voice-file
      lookup of `_resolve_piper_model`. */
  function PiperTwoHost(script: string, primary: string, voice2: Option<string>, resolve: string -> string): (r: Plan)
    ensures voice2.None? || voice2.value == [] ==> r == Whole(StripLabels(script))
    ensures voice2.Some? && voice2.value != [] && ParseTwoHostScript(script) == [] ==> r == Whole(script)
    ensures r.PerTurn? ==> voice2.Some? && voice2.value != []
    ensures r.PerTurn? ==>
      var turns := ParseTwoHostScript(script);
      && |r.parts| == |turns| > 0
      && forall i :: 0 <= i < |turns| ==>
           r.parts[i].1 == turns[i].text
           && (turns[i].speaker == "ALEX" ==> r.parts[i].0 == primary)
           && (turns[i].speaker != "ALEX" ==> r.parts[i].0 == resolve(voice2.value))
  {
    if voice2.None? || voice2.value == [] then Whole(StripLabels(script))
    else
      var turns := ParseTwoHostScript(script);
      if turns == [] then Whole(script) else PerTurn(TurnPlan(turns, primary, resolve(voice2.value)))
  }

  const MACOS_DEFAULT_VOICE: string := "Daniel"

  /** `MacOSSay.synthesize_two_host`: a missing second voice is "Daniel". */
  function MacOSTwoHost(script: string, primary: string, voice2: Option<string>): (r: Plan)
    ensures ParseTwoHostScript(script) == [] ==> r == Whole(script)
    ensures r.PerTurn? ==>
      var turns := ParseTwoHostScript(script);
      var second := if voice2.None? || voice2.value == [] then MACOS_DEFAULT_VOICE else voice2.value;
      && |r.parts| == |turns| > 0
      && forall i :: 0 <= i < |turns| ==>
           r.parts[i].1 == turns[i].text
           && (turns[i].speaker == "ALEX" ==> r.parts[i].0 == primary)
           && (turns[i].speaker != "ALEX" ==> r.parts[i].0 == second)
    ensures ParseTwoHostScript(script) != [] ==> r.PerTurn?
  {
    var second := if voice2.None? || voice2.value == [] then MACOS_DEFAULT_VOICE else voice2.value;
    var turns := ParseTwoHostScript(script);
    if turns == [] then Whole(script) else PerTurn(TurnPlan(turns, primary, second))
  }
}

=== FILE: validation.dfy ===
/**
 * The start-up checks of `src/utils/validation.py`, with each `sys.exit(1)`
 * path returned as a failure. The Ollama server's model list and the
 * environment are inputs.
 */
module Validation {
  import opened Strings
  import opened Results
  import Paths
  import Llm

  const AUDIO_EXTENSIONS: set<string> := {".mp3", ".wav", ".m4a", ".ogg", ".flac", ".wma", ".aac", ".webm"}

  /** Why a check stops the program. */
  datatype ValidationError =
    | UnsupportedAudio(ext: string)
    | OllamaDown
    | ModelNotFound(model: string)
    | MissingApiKey(envVar: string)

  /** `check_audio_file`: the lower-cased `splitext` extension must be an
      audio extension. */
  function CheckAudioFile(audioFile: string): (r: Outcome<ValidationError>)
    ensures r.Pass? <==> Lower(Paths.Extension(audioFile)) in AUDIO_EXTENSIONS
    ensures r.Fail? ==> r.error == UnsupportedAudio(Lower(Paths.Extension(audioFile)))
  {
    var ext := Lower(Paths.Extension(audioFile));
    if ext in AUDIO_EXTENSIONS then Pass else Fail(UnsupportedAudio(ext))
  }

  /** A file named `stem` plus an audio extension, in any letter case, is
      accepted; a name without a dot is not. */
  lemma AudioFileAccepted(stem: string, ext: string)
    requires stem != [] && stem[0] != '.' && forall i :: 0 <= i < |stem| ==> stem[i] != '/'
    requires Lower(ext) in AUDIO_EXTENSIONS && ext != [] && ext[0] == '.'
    requires forall i :: 1 <= i < |ext| ==> ext[i] != '.' && ext[i] != '/'
    ensures CheckAudioFile(stem + ext).Pass?
    ensures (forall i :: 0 <= i < |stem| ==> stem[i] != '.') ==> CheckAudioFile(stem).Fail?
  {
    AudioSuffixPasses(stem, ext);
    if forall i :: 0 <= i < |stem| ==> stem[i] != '.' {
      DotlessFails(stem);
    }
  }

  lemma AudioSuffixPasses(stem: string, ext: string)
    requires stem != [] && stem[0] != '.' && forall i :: 0 <= i < |stem| ==> stem[i] != '/'
    requires Lower(ext) in AUDIO_EXTENSIONS && ext != [] && ext[0] == '.'
    requires forall i :: 1 <= i < |ext| ==> ext[i] != '.' && ext[i] != '/'
    ensures CheckAudioFile(stem + ext).Pass?
  {
    Paths.ExtensionOfSuffixed(stem, ext);
    assert Paths.Extension(stem + ext) == ext;
  }

  lemma DotlessFails(name: string)
    requires forall i :: 0 <= i < |name| ==> name[i] != '.'
    ensures CheckAudioFile(name).Fail?
  {
    assert Paths.Extension(name) == [];
    assert Lower([]) == [];
  }

  /** `":" in llm_model`. */
  predicate HasTag(model: string) {
    exists i :: 0 <= i < |model| && model[i] == ':'
  }

  /** The `any(...)` of `check_ollama`, name by name: an exact match for a
      tagged model, a match of the part before the first ":" otherwise. */
  function ModelMatches(model: string, available: seq<string>): (found: bool)
    ensures HasTag(model) ==> (found <==> exists i :: 0 <= i < |available| && available[i] == model)
    ensures !HasTag(model) ==> (found <==> exists i :: 0 <= i < |available| && FirstField(available[i], ':') == model)
    decreases |available|
  {
    if available == [] then false
    else
      var hit := if HasTag(model) then available[0] == model else FirstField(available[0], ':') == model;
      var rest := ModelMatches(model, available[1..]);
      assert forall i :: 1 <= i < |available| ==> available[i] == available[1..][i - 1];
      hit || rest
  }

  /** An untagged name matches only a name equal to it or one that
      continues with ":" right after it: never a longer base name that
      merely starts with it, nor one that contains it. */
  lemma UntaggedMatch(model: string, available: seq<string>)
    requires !HasTag(model)
    ensures ModelMatches(model, available) <==>
      exists i :: 0 <= i < |available| && (available[i] == model || StartsWith(available[i], model + ":"))
  {
    forall i | 0 <= i < |available|
      ensures FirstField(available[i], ':') == model <==> (available[i] == model || StartsWith(available[i], model + ":"))
    {
      FirstFieldIs(available[i], ':', model);
    }
  }

  /** An untagged name does not match an installed model whose base name
      merely starts with it ("llama3" against "llama3.1:8b"): base names
      are compared whole. */
  lemma NoPrefixFalsePositive(base: string, rest: string)
    requires forall i :: 0 <= i < |base| ==> base[i] != ':'
    requires rest != [] && rest[0] != ':'
    ensures !ModelMatches(base, [base + rest])
  {
    var name := base + rest;
    FirstFieldIs(name, ':', base);
    assert name[|base|] == rest[0];
    assert (base + ":")[|base|] == ':';
    assert [name][0] == name;
  }

  /** An untagged name matches an installed model with that base name and
      any tag ("llama3.1" against "llama3.1:8b"). */
  lemma BaseNameMatches(base: string, tag: string)
    requires forall i :: 0 <= i < |base| ==> base[i] != ':'
    ensures ModelMatches(base, [base + ":" + tag])
  {
    var name := base + ":" + tag;
    FirstFieldIs(name, ':', base);
    assert name[..|base| + 1] == base + ":";
    assert [name][0] == name;
  }

  /** `check_ollama`; `None` stands for an unreachable server. */
  function CheckOllama(model: string, server: Option<seq<string>>): (r: Outcome<ValidationError>)
    ensures server.None? ==> r == Fail(OllamaDown)
    ensures server.Some? ==> (r.Pass? <==> ModelMatches(model, server.value))
    ensures server.Some? && r.Fail? ==> r.error == ModelNotFound(model)
  {
    match server
    case None => Fail(OllamaDown)
    case Some(available) => if ModelMatches(model, available) then Pass else Fail(ModelNotFound(model))
  }

  /** `not os.environ.get(key)`. */
  predicate Unset(env: map<string, string>, key: string) {
    key !in env || env[key] == ""
  }

  /** `check_llm_model`: hosted providers need their API key set and
      non-empty; any other model must be served by Ollama. */
  function CheckLlmModel(model: string, env: map<string, string>, server: Option<seq<string>>): (r: Outcome<ValidationError>)
    ensures Llm.DetectProvider(model) == Llm.OpenAI ==>
      (r.Fail? <==> Unset(env, "OPENAI_API_KEY")) && (r.Fail? ==> r.error == MissingApiKey("OPENAI_API_KEY"))
    ensures Llm.DetectProvider(model) == Llm.Anthropic ==>
      (r.Fail? <==> Unset(env, "ANTHROPIC_API_KEY")) && (r.Fail? ==> r.error == MissingApiKey("ANTHROPIC_API_KEY"))
    ensures Llm.DetectProvider(model) == Llm.Ollama ==> r == CheckOllama(model, server)
    ensures r.Fail? && r.error.MissingApiKey? ==> Llm.DetectProvider(model) != Llm.Ollama
  {
    match Llm.DetectProvider(model)
    case OpenAI => if Unset(env, "OPENAI_API_KEY") then Fail(MissingApiKey("OPENAI_API_KEY")) else Pass
    case Anthropic => if Unset(env, "ANTHROPIC_API_KEY") then Fail(MissingApiKey("ANTHROPIC_API_KEY")) else Pass
    case Ollama => CheckOllama(model, server)
  }

  /** A key in the configuration's "llm" section satisfies the check of a
      hosted model once it has been copied into the environment. */
  lemma ConfiguredKeysPass(model: string, config: map<string, map<string, string>>, env: map<string, string>, server: Option<seq<string>>)
    requires "llm" in config
    requires "openai_api_key" in config["llm"] && config["llm"]["openai_api_key"] != ""
    requires "anthropic_api_key" in config["llm"] && config["llm"]["anthropic_api_key"] != ""
    ensures Llm.DetectProvider(model) != Llm.Ollama ==>
      CheckLlmModel(model, Llm.SetApiKeys(Some(config), env), server).Pass?
  {
    var env' := Llm.SetApiKeys(Some(config), env);
    assert Llm.KEY_MAP[0] == ("openai_api_key", "OPENAI_API_KEY");
    assert Llm.KEY_MAP[1] == ("anthropic_api_key", "ANTHROPIC_API_KEY");
    assert !Unset(env', "OPENAI_API_KEY");
    assert !Unset(env', "ANTHROPIC_API_KEY");
  }
}
